=== FILE: README.md ===
# sandbox-gfx core, modelled in Dafny

This project models the logic at the heart of the sandbox-gfx graphics
playground and proves properties of it. Each core source file becomes one
Dafny module:

- **Vulkan application.** This covers device selection (queue families,
  device extensions, swap-chain support, the first suitable GPU) and the
  validation-layer checks of the context. It also covers the swap-chain
  choices (surface format, present mode, extent, image count), the format
  and memory-type searches, the image-layout transition table and the
  frame loop of `_drawFrame`.
- **Shared-memory transport.** A writer and a reader share one 256-byte
  slot guarded by three named semaphores (`mutex`, `empty`, `full`). Every
  OS call goes through `checkForError`.
- **Synthetic video muxer.** `add_stream` settings, the moving YUV test
  pattern of `fill_yuv_image`, the timestamp cut-off of `get_video_frame`,
  the receive loop of `write_frame` and the encode loop.
- **Command-line parsing.**
  - The C++ `ArgParser`: the options map, `--size WxH` with `std::stoi`,
    the URIs and the getters that throw.
  - The C `argparse` tables: `argparse_alloc_options`,
    `argparse_add_option` and the getopt `optstring`.
  - `get_executable_name`.
- **Value types.** `gfx::Size` with its `size_t` elements, and `gfx::URI`
  with its schema and path.
- **Utilities.**
  - The logger's preamble and streams.
  - The pip output parser.
  - The `find_comments` lint tool.
  - The gamepad state tracker.
  - The banded dummy texture.

Code that changes state step by step is modelled as classes with `modifies`
frames and methods with loop invariants: the shared-memory channel, the
option tables, the frame buffers of the muxer, the gamepad, the Vulkan
context and application, the pip streams and the texture array. Each such
method is proved against a specification function. Pure code is modelled
as functions and lemmas.

Inputs the source obtains from outside are parameters of the model:
- driver answers (`vkEnumeratePhysicalDevices`, queue-family and
  format queries, `VkResult`s of acquire, submit and present);
- OS call results (`shm_open`, `mmap`, `sem_open`, `fopen`, `fclose`);
- GLFW button bytes and axis values;
- the encoder's answers;
- directory listings;
- process names.

Text written to the console is collected in fields or returned values.

## Model

| member | source | states |
|---|---|---|
| CheckForError.CheckInt | gfx/shmem/check_for_error.hpp:19-25 | the integer check aborts, naming the caller, exactly when the result equals the error code |
| CheckForError.CheckPointer | gfx/shmem/check_for_error.hpp:30-38 | the pointer check aborts, naming the caller, exactly when the pointer equals the error value |
| CheckForError.AndThen | gfx/shmem/check_for_error.hpp:10-17 | an abort ends the process, so the first failing check decides the outcome |
| CheckForError.DefaultIntSentinel | gfx/shmem/check_for_error.hpp:19-28 | with the default code, an integer result passes exactly when it is not -1 |
| CheckForError.DefaultPointerSentinel | gfx/shmem/check_for_error.hpp:30-38 | with the default, a pointer passes exactly when it is not `MAP_FAILED` |
| Shmem.ObjectNames | gfx/shmem/writer.cpp:20-38 | a channel uses four OS names: the region name and the three semaphore names derived from it |
| Shmem.WriterStartupSucceeds | gfx/shmem/writer.cpp:15-39 | the writer comes up exactly when no OS call returned its failure value |
| Shmem.WriterStartupFirstFailureWins | gfx/shmem/writer.cpp:20-22 | a failing `shm_open` aborts with its own label before anything else is checked |
| Shmem.ReaderStartupSucceeds | gfx/shmem/reader.cpp:14-37 | the reader comes up exactly when no OS call returned its failure value |
| Shmem.FreshSlot | gfx/shmem/writer.cpp:22-38 | a new channel has a region of the agreed size and counters mutex 1, empty 1, full 0 |
| Shmem.WriteSlot | gfx/shmem/writer.cpp:49-58 | a write replaces the region with the first `size` bytes; a token moves from `empty` to `full` only if `empty` had one |
| Shmem.ReadSlot | gfx/shmem/reader.cpp:39-50 | a read delivers the region exactly when `full` has a token, and gives the token back to `empty`; otherwise nothing changes |
| Shmem.Run | gfx/shmem/reader.cpp:39-50 | any sequence of calls keeps the region size |
| Shmem.StepKeepsHandshake | gfx/shmem/writer.cpp:49-58 | each write and each read keeps the handshake invariant: mutex free, and one token shared by `empty` and `full` |
| Shmem.RunKeepsHandshake | gfx/shmem/reader.cpp:39-50 | every sequence of calls keeps the handshake, and `full` never exceeds 1 |
| Shmem.FreshRunKeepsHandshake | gfx/shmem/writer.cpp:29-38 | the same holds from the initial counter values |
| Shmem.NoMessageBeforeWrite | gfx/test/shmem_test.cpp:28-31 | before the first write a read delivers nothing and changes nothing |
| Shmem.ReadConsumes | gfx/shmem/reader.cpp:41-49 | after a successful read the next read delivers nothing |
| Shmem.WriteAll | gfx/shmem/writer.cpp:49-58 | writes without reads in between keep the region size and the mutex |
| Shmem.LatestValueWins | gfx/test/shmem_test.cpp:43-60 | after several writes, one read delivers the last message and a second read delivers nothing |
| Shmem.SingleDelivery | gfx/test/shmem_test.cpp:33-41 | write then read gives back the message, exactly once |
| Shmem.Channel.constructor | gfx/shmem/writer.cpp:22-38 | the channel starts in the fresh state |
| Shmem.CopyBytes | gfx/shmem/writer.cpp:52 | `memcpy` copies the first n bytes and leaves the rest |
| Shmem.Writer.constructor | gfx/shmem/writer.cpp:15-39 | a created writer owns a fresh channel and adds its four names to the namespace |
| Shmem.Writer.Open | gfx/shmem/writer.cpp:15-39 | there is no writer exactly when a check aborts, and the names created before the failing call stay in the namespace; on success the channel is fresh and all four names are registered |
| Shmem.CreatedCount | gfx/shmem/writer.cpp:20-38 | how many of the four names exist when the constructor stops: none exactly when `shm_open` failed, all four exactly when every check passed, and a semaphore name only once its `sem_open` succeeded |
| Shmem.Writer.Write | gfx/shmem/writer.cpp:49-58 | the channel's new state is `WriteSlot` of the old one, and the handshake is kept |
| Shmem.Writer.Destroy | gfx/shmem/writer.cpp:41-47 | the destructor removes the four names from the namespace |
| Shmem.Reader.constructor | gfx/shmem/reader.cpp:14-37 | the reader shares the writer's channel |
| Shmem.Reader.Open | gfx/shmem/reader.cpp:14-37 | there is no reader exactly when a check aborts |
| Shmem.Reader.Read | gfx/shmem/reader.cpp:39-50 | the read succeeds exactly when `full` had a token; the buffer and the new state are those of `ReadSlot`, and bytes past `size` are kept |
| Shmem.TestMessage | gfx/test/shmem_test.cpp:18-26 | the test message fills the 256-byte buffer |
| Shmem.FreshPair | gfx/test/shmem_test.cpp:13-19 | the test's writer and reader share one fresh 256-byte channel in the initial counter state, with a separate read buffer |
| Shmem.Namespace.constructor | gfx/shmem/writer.cpp:20-38 | the OS namespace starts without names |
| Uri.GetSchema | gfx/vocabulary/uri.cpp:15-35 | the schema is File, Unix or UDP by the first matching plain prefix, in that order; no match means there is no schema |
| Uri.Parse | gfx/vocabulary/uri.cpp:38-42 | an identifier is built exactly when its schema is known, and it keeps its text |
| Uri.Path | gfx/vocabulary/uri.cpp:49-66 | UDP has no path; a file or socket text shorter than the five-character prefix is out of range; any longer one succeeds, and the prefix followed by the path gives back the text |
| Uri.CStr | gfx/vocabulary/uri.cpp:44-47 | the text handed out re-parses to the same identifier |
| Uri.PathRoundTrip | gfx/vocabulary/uri.cpp:38-66 | building "file:" + p or "unix:" + p and asking for the path gives back p, with the right schema |
| Uri.ShortFileUri | gfx/vocabulary/uri.cpp:18-21 | "file" alone parses, but its path is out of range |
| Uri.UdpHasNoPath | gfx/vocabulary/uri.cpp:62-65 | every "udp" identifier parses but refuses a path |
| Uri.FileUriExample | gfx/test/uri_test.cpp:7-14 | the test's file identifier parses as File and has a relative path |
| Uri.SocketUriExample | gfx/test/uri_test.cpp:16-23 | the test's socket identifier parses as Unix and has an absolute path |
| Sizes.ToSizeT | gfx/vocabulary/size.hpp:15-18 | conversion to `size_t` keeps non-negative values and wraps negative ones modulo 2^64 |
| Sizes.ToInt32 | gfx/vocabulary/size.hpp:47-50 | the `int` conversion gives the 32-bit value congruent to the element |
| Sizes.MakeElement | gfx/vocabulary/size.hpp:15-18 | an element holds its value converted to `size_t` |
| Sizes.Times | gfx/vocabulary/size.hpp:27-35 | the product modulo 2^64: the `size_t` congruent to the exact product, which is the product itself when it fits |
| Sizes.Divide | gfx/vocabulary/size.hpp:37-40 | the quotient is the floor of the `size_t` division |
| Sizes.AsInt | gfx/vocabulary/size.hpp:47-50 | the `int` conversion is exact below 2^31 |
| Sizes.AsUnsigned | gfx/vocabulary/size.hpp:52-55 | the `unsigned` conversion is below 2^32 and exact below it |
| Sizes.MakeSize | gfx/vocabulary/size.hpp:82-93 | a size holds the two converted elements |
| Sizes.Area | gfx/vocabulary/size.hpp:97-100 | `size()` is the product of width and height modulo 2^64 |
| Sizes.IntRoundTrip | gfx/vocabulary/size.hpp:15-25 | every 32-bit `int` survives the trip into an element and back, and compares equal to itself |
| Sizes.EqualsIntExact | gfx/vocabulary/size.hpp:22-25 | for 32-bit ints, comparing an element with an `int` is integer equality |
| Sizes.AreaSymmetric | gfx/vocabulary/size.hpp:97-100 | swapping width and height keeps the area |
| Sizes.AreaExact | gfx/vocabulary/size.hpp:97-100 | for dimensions below 2^32 the area is the exact product |
| Sizes.NegativeWraps | gfx/vocabulary/size.hpp:15-18 | -1 becomes the largest `size_t`, which exceeds every `int` |
| Sizes.SizeExample | gfx/test/size_test.cpp:7-12 | the test's 256 x 512 size has area 131072 |
| Decimal.NatToString | gfx/utils/arg_parser.cpp:61-77 | a decimal text is non-empty and all digits |
| Decimal.SkipSpaces | gfx/utils/arg_parser.cpp:73-74 | `std::stoi` skips leading white space: what remains does not start with a space |
| Decimal.DigitPrefixLength | gfx/utils/arg_parser.cpp:73-74 | the digits read are all digits, and are followed by a non-digit or the end |
| Decimal.NatToStringValue | gfx/utils/arg_parser.cpp:73-74 | the digits of the text have the value of the number |
| Decimal.DigitPrefixOfRun | gfx/utils/arg_parser.cpp:73-74 | a digit run followed by a non-digit is read up to the non-digit |
| Decimal.Stoi | gfx/utils/arg_parser.cpp:73-74 | `std::stoi` fails with no conversion exactly when no sign-and-digits follow the spaces, and its result fits in an `int` |
| Decimal.StoiOfNatToString | gfx/utils/arg_parser.cpp:73-74 | printing a number and reading it back gives the number, whatever follows a non-digit |
| Decimal.StoiSignedExample | gfx/utils/arg_parser.cpp:73-74 | leading spaces, a sign and trailing letters are handled as `std::stoi` does |
| Decimal.StoiNoDigitsExample | gfx/utils/arg_parser.cpp:73-74 | text without leading digits, or no text, is not converted |
| Decimal.StoiRange | gfx/utils/arg_parser.cpp:73-74 | a number converts exactly when it lies within the `int` range, and otherwise is out of range |
| ArgParsing.FindX | gfx/utils/arg_parser.cpp:66-67 | the delimiter search finds the first 'x', or reports that there is none |
| ArgParsing.ParseSize | gfx/utils/arg_parser.cpp:61-77 | no 'x' throws the delimiter message; a parsed size comes from the numbers before and after the first 'x' |
| ArgParsing.FormatSize | gfx/utils/arg_parser.cpp:37-42 | the printed size contains the delimiter |
| ArgParsing.SizeRoundTrip | gfx/utils/arg_parser.cpp:37-77 | printing a size as WxH and parsing it back gives the size |
| ArgParsing.SizeOptionExample | gfx/test/arg_parser_test.cpp:42-50 | "32x128" is the text of the test's size and parses back to it |
| ArgParsing.SizeWithoutDelimiter | gfx/utils/arg_parser.cpp:66-72 | "32" is refused with the delimiter message |
| ArgParsing.NoOptions | gfx/utils/arg_parser.cpp:119-163 | before any option is read, nothing is set and verbose is off |
| ArgParsing.TextOption | gfx/utils/arg_parser.cpp:45-59 | a path option is taken from the map when present as text, and left alone when absent or of another type (the caught `bad_any_cast`) |
| ArgParsing.CountOption | gfx/utils/arg_parser.cpp:95-109 | a count option is taken from the map when present as a count, and left alone when absent or of another type (the caught `bad_any_cast`) |
| ArgParsing.UriOption | gfx/utils/arg_parser.cpp:79-93 | a URI option is parsed when present; an unknown schema aborts |
| ArgParsing.SizeOption | gfx/utils/arg_parser.cpp:61-77 | `--size` is left alone when absent, fails on a non-text value, and is otherwise parsed, succeeding with `ParseSize`'s size or failing with `ParseSize`'s error |
| ArgParsing.VerboseOption | gfx/utils/arg_parser.cpp:111-117 | verbose turns on only through a true `--verbose` switch |
| ArgParsing.Configure | gfx/utils/arg_parser.cpp:119-163 | `--help` aborts; otherwise a failing `--size` and then a failing output or input URI ends construction with that option's error, construction succeeds exactly when none fails, and the options are then those each option's reader gives from the map |
| ArgParsing.Required | gfx/utils/arg_parser.cpp:165-172 | a getter returns the value when set and otherwise throws "missing '--<option>' argument value" |
| ArgParsing.ArgParser.Init | gfx/utils/arg_parser.cpp:119-147 | a new parser holds the map and no options |
| ArgParsing.ArgParser.CheckForOutputPath | gfx/utils/arg_parser.cpp:45-51 | only the output path changes, to the map's text if present |
| ArgParsing.ArgParser.CheckForInputPath | gfx/utils/arg_parser.cpp:53-59 | only the input path changes, to the map's text if present |
| ArgParsing.ArgParser.CheckForSize | gfx/utils/arg_parser.cpp:61-77 | throws exactly when `SizeOption` fails, changing nothing; otherwise only the size changes |
| ArgParsing.ArgParser.CheckForOutputUri | gfx/utils/arg_parser.cpp:79-85 | aborts exactly when the output URI fails to parse; otherwise only it changes |
| ArgParsing.ArgParser.CheckForInputUri | gfx/utils/arg_parser.cpp:87-93 | aborts exactly when the input URI fails to parse; otherwise only it changes |
| ArgParsing.ArgParser.CheckForDuration | gfx/utils/arg_parser.cpp:95-101 | only the duration changes |
| ArgParsing.ArgParser.CheckForFrameRate | gfx/utils/arg_parser.cpp:103-109 | only the frame rate changes |
| ArgParsing.ArgParser.CheckForVerbose | gfx/utils/arg_parser.cpp:111-117 | only the verbose flag changes |
| ArgParsing.ArgParser.Create | gfx/utils/arg_parser.cpp:119-163 | construction fails exactly when `Configure` fails, with its error, and otherwise holds `Configure`'s options |
| ArgParsing.ArgParser.GetOutputPath | gfx/utils/arg_parser.cpp:165-172 | the value or the missing-argument error for "output-path" |
| ArgParsing.ArgParser.GetInputPath | gfx/utils/arg_parser.cpp:174-181 | the value or the missing-argument error for "input-path" |
| ArgParsing.ArgParser.GetSize | gfx/utils/arg_parser.cpp:183-190 | the value or the missing-argument error for "size" |
| ArgParsing.ArgParser.GetOutputUri | gfx/utils/arg_parser.cpp:192-199 | the value or the missing-argument error for "output-uri" |
| ArgParsing.ArgParser.GetInputUri | gfx/utils/arg_parser.cpp:201-208 | the value or the missing-argument error for "input-uri" |
| ArgParsing.ArgParser.GetDuration | gfx/utils/arg_parser.cpp:210-217 | the value or the missing-argument error for "duration" |
| ArgParsing.ArgParser.GetFrameRate | gfx/utils/arg_parser.cpp:219-226 | the value or the missing-argument error for "frame-rate" |
| ArgParsing.ArgParser.GetVerbose | gfx/utils/arg_parser.cpp:228-231 | the verbose flag, which never throws |
| ArgParsing.VerboseOnlyWhenGiven | gfx/test/arg_parser_test.cpp:62-70 | after a successful parse, verbose is on exactly when `--verbose` was given as true |
| ArgParsing.MissingSizeThrows | gfx/utils/arg_parser.cpp:183-190 | without `--size`, `getSize` throws the missing-argument message |
| ArgParsing.HelpAborts | gfx/utils/arg_parser.cpp:149-153 | `--help` ends the process |
| ArgParsing.ConfigureSizeOption | gfx/test/arg_parser_test.cpp:42-50 | a printed size given as `--size` parses to exactly that size and nothing else |
| ArgParsing.ConfigureCountExamples | gfx/test/arg_parser_test.cpp:52-80 | `--duration 15`, `--verbose` and `--frame-rate 30` each set only their own option |
| ArgParsing.ConfigureUriExample | gfx/test/arg_parser_test.cpp:82-90 | `--input-uri unix:/tmp/test` sets a Unix identifier |
| ArgparseOptions.Appended | gfx/utils/argparse/options.c:93-98 | one registration adds at most two optstring characters |
| ArgparseOptions.NumTabs | gfx/utils/argparse/options.c:81-86 | long names of more than six characters get one tab, others none |
| ArgparseOptions.IndexAcceptedRange | gfx/utils/argparse/options.c:74 | the unsigned index assertion accepts exactly indices 1 to `num_options` |
| ArgparseOptions.OptstringFor | gfx/utils/argparse/options.c:53-57 | n registrations give at most 1 + 2n optstring characters |
| ArgparseOptions.OptionTables.Alloc | gfx/utils/argparse/options.c:24-58 | fresh tables of `n` + 2 entries, zeroed after slot 0, no registrations and optstring "h" |
| ArgparseOptions.OptionTables.AddOption | gfx/utils/argparse/options.c:68-99 | refuses exactly the indices the assertion rejects; otherwise writes slot `index` of both tables and appends the short option and colon |
| ArgparseOptions.OptionTables.Dealloc | gfx/utils/argparse/options.c:60-66 | the tables are released |
| ArgparseOptions.AppendShortOption | gfx/utils/argparse/options.c:93-98 | the two `strncat` calls append the short option, then a colon for an option with an argument |
| ArgparseOptions.OptstringStep | gfx/utils/argparse/options.c:93-98 | one more registration appends exactly its characters to the optstring |
| ArgparseOptions.OptstringBound | gfx/utils/argparse/options.c:53-57 | within `num_options` registrations the optstring fits its buffer with room for the terminator |
| ArgparseOptions.RegisterParseOptions | gfx/utils/argparse/parse.c:15-21 | the C parser's registrations give optstring "hvd:" and the expected table entries |
| ExecutableName.Truncated | gfx/utils/argparse/logging.c:22-28 | names under 15 characters are kept; longer ones become their first 12 characters plus "..." |
| ExecutableName.TruncatedIdempotent | gfx/utils/argparse/logging.c:22-28 | truncating twice is truncating once |
| ExecutableName.CloseCheckAsWritten | gfx/utils/argparse/logging.c:20 | as written, the close check passes exactly when `fclose` reports failure |
| ExecutableName.SuccessfulCloseAbortsAsWritten | gfx/utils/argparse/logging.c:20 | as written, a successful close aborts and a failed one passes |
| ExecutableName.CloseCheck | gfx/utils/argparse/logging.c:20 | corrected: the check passes exactly on a successful close, the opposite of the written check on both outcomes |
| ExecutableName.NameBuffer.constructor | gfx/utils/argparse/logging.c:11 | the static buffer starts zeroed, holding the empty string |
| ExecutableName.ClosePasses | gfx/utils/argparse/logging.c:20 | the close check as written passes exactly when `fclose` fails; the intended one exactly when it succeeds |
| ExecutableName.NameBuffer.GetExecutableName | gfx/utils/argparse/logging.c:12-31 | succeeds exactly when the file opened, a word was read and the close check passed, as written or as intended; the buffer then holds the truncated name |
| ExecutableName.TwoCalls | gfx/utils/argparse/logging.c:11-31 | with the intended close check, the static buffer holds the second name after two calls |
| ExecutableName.CallAbortsAsWritten | gfx/utils/argparse/logging.c:12-20 | as written, a call whose file closes successfully stops the process, and one whose `fclose` fails returns |
| CStrings.StrLen | gfx/utils/argparse/options.c:93-98 | `strlen` counts the characters before the terminator |
| CStrings.StrNCat1 | gfx/utils/argparse/options.c:93-98 | `strncat` with one character appends it, or nothing for NUL, keeping the buffer terminated |
| Logger.ShortenedName | gfx/utils/logger.cpp:14-26 | names up to 14 characters are kept; longer ones get "..." at 12 to 14 and a NUL at 15, keeping their length |
| Logger.GetName | gfx/utils/logger.cpp:14-26 | the character-by-character overwrite gives `ShortenedName` |
| Logger.ShortenedAgreesWithC | gfx/utils/logger.cpp:18-24 | read as a C string, the shortened name is the C parser's truncated name |
| Logger.Apply | gfx/utils/logger.cpp:40-46 | the wrapped text starts with the colour and is as long as colour, text and white escape together |
| Logger.PreambleParts | gfx/utils/logger.cpp:48-59 | the preamble is bold "gfx::", then the name, then the coloured tag, then its fixed tail |
| Logger.StreamOf | gfx/utils/logger.cpp:62-98 | only INFO goes to standard output |
| Logger.Line | gfx/utils/logger.cpp:62-98 | every logged line ends with a newline |
| Logger.PreambleDeterminesLevel | gfx/utils/logger.cpp:48-59 | equal preambles have the same level and the same shortened name |
| Logger.Console.constructor | gfx/utils/logger.cpp:62-98 | both streams start empty and the process runs |
| Logger.Console.Log | gfx/utils/logger.cpp:62-98 | one line is appended to the level's stream and the other is unchanged; FATAL also aborts |
| Logger.LevelColours | gfx/utils/logger.cpp:30-38 | FATAL and ERROR are red, WARNING yellow and INFO cyan, three distinct escapes |
| Logger.TagEnd | gfx/utils/logger.cpp:62-98 | the last letter of each level's tag |
| PipOutputParser.Find | gfx/utils/pip_output_parser.hpp:26-29 | the leftmost occurrence of a pattern at or after a position, or its absence |
| PipOutputParser.FindRequired | gfx/utils/pip_output_parser.hpp:31 | a found match is a `>=` followed by a version run |
| PipOutputParser.FindInstalled | gfx/utils/pip_output_parser.hpp:32 | a found match is a version run ending at the final ')' |
| PipOutputParser.FindModule | gfx/utils/pip_output_parser.hpp:36 | a found match is a name run ending at a `>=` |
| PipOutputParser.FindPackage | gfx/utils/pip_output_parser.hpp:46-47 | a found match is a name run, a '-' and a version run |
| PipOutputParser.RequiredLeftmostFirst | gfx/utils/pip_output_parser.hpp:31 | the match is absent exactly when the pattern cannot match; otherwise it is the leftmost, with the longest group |
| PipOutputParser.InstalledLeftmost | gfx/utils/pip_output_parser.hpp:32 | absent exactly when unmatched; otherwise the leftmost match |
| PipOutputParser.ModuleLeftmostFirst | gfx/utils/pip_output_parser.hpp:36 | absent exactly when unmatched; otherwise leftmost with the longest group |
| PipOutputParser.PackageLeftmostFirst | gfx/utils/pip_output_parser.hpp:46-47 | absent exactly when unmatched; otherwise preferred over every other match as RE2 prefers them |
| PipOutputParser.PackageFound | gfx/utils/pip_output_parser.hpp:46-47 | whenever the line holds a '-' the package pattern matches, and the match found is the preferred one |
| PipOutputParser.NeedsDash | gfx/utils/pip_output_parser.hpp:46-47 | no package match exists without a '-' |
| PipOutputParser.LineOutput | gfx/utils/pip_output_parser.hpp:26-51 | other lines write nothing; a satisfied or would-install line stops the process exactly when a pattern fails to match |
| PipOutputParser.SatisfiedLineOutput | gfx/utils/pip_output_parser.hpp:28-40 | a requirement line writes nothing when the versions agree and the mismatch message otherwise |
| PipOutputParser.WouldInstallLineOutput | gfx/utils/pip_output_parser.hpp:43-49 | a planned install of name-version is reported with both |
| PipOutputParser.LineAt | gfx/utils/pip_output_parser.hpp:20-24 | `getline` takes the characters up to the next newline or the end |
| PipOutputParser.IndexOf | gfx/utils/pip_output_parser.hpp:20-24 | the first occurrence of a character from a position, or none |
| PipOutputParser.InputStream.constructor | gfx/utils/pip_output_parser.hpp:18-24 | an input stream starts at the beginning of its text |
| PipOutputParser.OutputStream.constructor | gfx/utils/pip_output_parser.hpp:18 | an output stream starts empty |
| PipOutputParser.NextLine | gfx/utils/pip_output_parser.hpp:20-24 | reading a line consumes it and its newline |
| PipOutputParser.ParsePipOutput | gfx/utils/pip_output_parser.hpp:18-52 | with no line left, returns false and writes nothing; otherwise consumes one line and appends exactly `LineOutput`, or stops on a failed assertion with nothing written |
| PipOutputParser.MismatchExample | gfx/test/pip_output_parser_test.cpp:7-20 | the test's requirement line gives "bleee required 1.2.3 does not match installed 4.5.6" |
| PipOutputParser.WouldInstallExample | gfx/test/pip_output_parser_test.cpp:22-31 | the test's planned install gives "would install: glake8-someplugin-1.23.0" |
| FindComments.IsAllowed | tools/find_comments/find_comments.py:16-23 | a line is allowed exactly when it holds one of the lint-suppression markers |
| FindComments.Flagged | tools/find_comments/find_comments.py:47-51 | the kept lines are no more than the lines |
| FindComments.FlaggedMembers | tools/find_comments/find_comments.py:47-51 | a line is kept exactly when it is in the file, holds "//" and no marker |
| FindComments.FlaggedAppend | tools/find_comments/find_comments.py:47-51 | filtering distributes over concatenation, so order is kept |
| FindComments.SplitLines | tools/find_comments/find_comments.py:45 | no split line holds a line break |
| FindComments.SplitJoin | tools/find_comments/find_comments.py:45 | joining lines with a line ending and splitting gives back the lines |
| FindComments.BaseName | tools/find_comments/find_comments.py:55 | the name printed is the last path component |
| FindComments.FileFlagged | tools/find_comments/find_comments.py:43 | files other than `.cpp` and `.hpp` are not read |
| FindComments.FileReport | tools/find_comments/find_comments.py:53-55 | one report line per kept line |
| FindComments.ReportLength | tools/find_comments/find_comments.py:53-57 | the count returned equals the number of report lines |
| FindComments.OccurrencesAppend | tools/find_comments/find_comments.py:41-57 | the count over two file lists is the sum of their counts |
| FindComments.UncheckedFileIgnored | tools/find_comments/find_comments.py:43 | an extra file of another type changes neither count nor report |
| FindComments.Checker.constructor | tools/find_comments/find_comments.py:27-33 | the checker holds the files it was given |
| FindComments.Checker.PrintChecks | tools/find_comments/find_comments.py:35-37 | prints the banner and the report, and returns the count |
| FindComments.Checker.Check | tools/find_comments/find_comments.py:39-57 | the loop returns `Occurrences` and the report of all files |
| FindComments.DummyHeaderFlagged | tools/find_comments/test_find_comments.py:12-25 | in the test header, exactly lines 2, 5 and 9 (counting from 0) are reported, in order |
| FindComments.DummySourceFlagged | tools/find_comments/test_find_comments.py:26-37 | in the test source, exactly lines 0 and 7 are reported, in order |
| FindComments.DummyTreeCount | tools/find_comments/test_find_comments.py:46-50 | the test tree yields five occurrences |
| Gamepad.Stick.Update | gfx/input/gamepad.hpp:49-59 | reports a change exactly when the bit patterns differ, and stores the new pair |
| Gamepad.Trigger.Update | gfx/input/gamepad.hpp:74-85 | reports a change exactly when the rounded value differs; then caches it and sets pressed iff it is 1, and otherwise changes nothing |
| Gamepad.StickRepeat | gfx/input/gamepad.hpp:49-59 | a fresh stick reports a pair exactly when it is nonzero, and the same pair never a second time |
| Gamepad.TriggerRepeat | gfx/input/gamepad.hpp:74-85 | a fresh trigger reports a value exactly when it is nonzero, never the same value twice, and pressed means exactly 1 |
| Gamepad.Stick.constructor | gfx/input/gamepad.hpp:35-47 | a stick starts at the zero pair under its name |
| Gamepad.Trigger.constructor | gfx/input/gamepad.hpp:69-72 | a trigger starts released with cached value 0 |
| Gamepad.PadAfterSteps | gfx/input/gamepad.cpp:56-89 | the pad update is the four direction updates in order |
| Gamepad.WithDirection | gfx/input/gamepad.cpp:59-88 | one direction takes the new state, the others stay, and `updated` records a change |
| Gamepad.PadAfterDirections | gfx/input/gamepad.cpp:56-89 | each direction follows its button and `updated` is set exactly when one changed |
| Gamepad.PadIdempotent | gfx/input/gamepad.cpp:99-129 | polling the same buttons twice changes nothing the second time |
| Gamepad.ButtonLog | gfx/input/gamepad.cpp:111-121 | at most one line per listed button |
| Gamepad.ButtonLogged | gfx/input/gamepad.cpp:111-121 | a button's name is printed exactly when it is pressed |
| Gamepad.NotLogged | gfx/input/gamepad.cpp:111-121 | a name not among the listed buttons is never printed |
| Gamepad.LeftTriggerPrintedAsRight | gfx/input/gamepad.cpp:153-162 | as written, the entry `printAxes` logs for a change of axis 2 is the same as for a change of axis 5 with the same pressed state, and its line reads RIGHT_TRIGGER |
| Gamepad.TriggerLinesDiffer | gfx/input/gamepad.cpp:153-162 | with the intended tags, a left-trigger line logged by `printAxes` always differs from a right-trigger line |
| Gamepad.Gamepad.constructor | gfx/input/gamepad.hpp:106-111 | fresh sticks named LEFT_STICK and RIGHT_STICK, fresh triggers, a released pad and nothing printed |
| Gamepad.Gamepad.Invalidate | gfx/input/gamepad.cpp:51-54 | only the `updated` flag is cleared |
| Gamepad.Gamepad.UpdateDirectionalPad | gfx/input/gamepad.cpp:56-89 | the pad becomes `PadAfter` and the direction lines are printed |
| Gamepad.Gamepad.SetDirection | gfx/input/gamepad.cpp:59-65 | one direction is updated, printing when it changes |
| Gamepad.Gamepad.Update | gfx/input/gamepad.cpp:99-129 | with no button array only `updated` is cleared; otherwise pressed buttons are logged and the pad follows buttons 11 to 14 |
| Gamepad.Gamepad.PrintAxes | gfx/input/gamepad.cpp:131-164 | with no axes nothing happens; otherwise the sticks take axes 0-1 and 3-4, the right and left triggers axes 5 and 2 (a trigger whose rounded value is unchanged keeps its state), and their changes are printed in that order, with both triggers tagged RIGHT_TRIGGER as written or each with its own tag as intended |
| Gamepad.Gamepad.PrintStick | gfx/input/gamepad.hpp:62-66 | a stick takes its new pair and is printed when it changed |
| Gamepad.Gamepad.PrintTrigger | gfx/input/gamepad.cpp:153-162 | a trigger updates as `Trigger.Update` and is printed, with the written or the intended tag, when it changed |
| Gamepad.PollTwice | gfx/input/gamepad.cpp:99-129 | the first poll of a fresh pad reads the buttons; the second poll of the same buttons only clears `updated` |
| Gamepad.PollAxesTwice | gfx/input/gamepad.cpp:131-164 | polling the same axes twice prints at most four lines the first time and nothing the second |
| DummyTexture.IndexParts | gfx/applications/dummy_texture.cpp:31-34 | the byte written for a channel of pixel (x, y) lies in row y, column x |
| DummyTexture.WrittenIndexInside | gfx/applications/dummy_texture.hpp:12-14 | every byte `get` writes lies inside the texture array |
| DummyTexture.WritePixel | gfx/applications/dummy_texture.cpp:31-34 | the four bytes of one pixel take the colour and no other byte changes |
| DummyTexture.FillRows | gfx/applications/dummy_texture.cpp:15-37 | bytes in the row range take their channel of the colour; all others are kept |
| DummyTexture.BandOfRow | gfx/applications/dummy_texture.cpp:50-54 | each row lies in exactly one of four bands of 128 rows |
| DummyTexture.AlphaOpaque | gfx/applications/dummy_texture.cpp:42-45 | every alpha byte is 255 |
| DummyTexture.BandBytes | gfx/applications/dummy_texture.cpp:42-54 | the bands are white, blue, black and red from the top |
| DummyTexture.FourFills | gfx/applications/dummy_texture.cpp:50-54 | each byte is in exactly the fill range of its row's band |
| DummyTexture.Get | gfx/applications/dummy_texture.cpp:40-58 | returns a fresh array of 512 x 512 x 4 bytes holding the banded texture |
| Muxer.Int32Of | gfx/utils/muxer.cpp:175 | `static_cast<int>` of a `uint32_t` gives the congruent 32-bit signed value |
| Muxer.Sign | gfx/utils/muxer.cpp:300-301 | the sign `av_compare_ts` reports: -1, 0 or 1, with the sign of its argument |
| Muxer.DurationSeconds | gfx/utils/muxer.cpp:419-423 | milliseconds divided by 1000, truncated toward zero |
| Muxer.ExpiredPastLastFrame | gfx/utils/muxer.cpp:300-304 | with one tick per frame, a timestamp has expired exactly when it exceeds duration times frame rate |
| Muxer.CodecContext.AddStream | gfx/utils/muxer.cpp:167-199 | video gets the size, frame-rate time base, bit rate, GOP and format, with the MPEG-specific settings; the global-header flag follows the format |
| Muxer.CodecContext.constructor | gfx/utils/muxer.cpp:158-170 | a codec context holds the codec and its defaults |
| Muxer.GlobalHeaderFlag | gfx/utils/muxer.cpp:195-199 | the codec gets the global-header flag exactly when the format asks for it, and keeps its other flags |
| Muxer.LumaMoves | gfx/utils/muxer.cpp:277 | the luma pattern moves three pixels per frame and repeats every 256 frames |
| Muxer.LumaPlane | gfx/utils/muxer.cpp:273-280 | filling keeps the plane size |
| Muxer.CbPlane | gfx/utils/muxer.cpp:282-291 | filling the blue-difference plane keeps its size |
| Muxer.CrPlane | gfx/utils/muxer.cpp:282-291 | filling the red-difference plane keeps its size |
| Muxer.FillIdempotent | gfx/utils/muxer.cpp:273-291 | filling a plane twice for the same frame is filling it once |
| Muxer.PaddingKept | gfx/utils/muxer.cpp:273-291 | bytes outside the picture, in the line padding, are kept |
| Muxer.LumaByte | gfx/utils/muxer.cpp:277-278 | pixel (x, y) of the luma plane is x + y + 3 * frame, as a byte |
| Muxer.ChromaBytes | gfx/utils/muxer.cpp:286-289 | chroma pixels are 128 + y + 2 * frame and 64 + x + 5 * frame, as bytes |
| Muxer.FillLuma | gfx/utils/muxer.cpp:273-280 | the loop leaves the plane equal to `LumaPlane` of the old plane |
| Muxer.FillChroma | gfx/utils/muxer.cpp:282-291 | the loop leaves both chroma planes equal to their pattern functions |
| Muxer.FillYuvImage | gfx/utils/muxer.cpp:269-294 | all three planes hold the pattern of the frame index |
| Muxer.Frame.constructor | gfx/utils/muxer.cpp:296-318 | a frame holds its three planes and their line sizes, at timestamp 0 |
| Muxer.OutputStream.constructor | gfx/utils/muxer.cpp:296-318 | a stream starts at timestamp 0 with its time base, size and frame |
| Muxer.OutputStream.GetVideoFrame | gfx/utils/muxer.cpp:296-318 | past the duration, returns null and changes nothing; otherwise fills the frame, stamps it with the next timestamp and counts on |
| Muxer.NothingAfterExpiry | gfx/utils/muxer.cpp:300-304 | once expired, no further frames are produced |
| Muxer.ConsecutivePts | gfx/utils/muxer.cpp:300-315 | frames carry consecutive timestamps from the start up to duration times frame rate |
| Muxer.FirstEnd | gfx/utils/muxer.cpp:101-123 | the receive loop ends at the first answer that is an error or a failed write |
| Muxer.DrainEndsAtFirstEnd | gfx/utils/muxer.cpp:101-125 | `write_frame` returns 1 exactly on end of stream and 0 exactly on "try again"; other errors are fatal |
| Muxer.WriteFrame | gfx/utils/muxer.cpp:88-126 | the loop gives `WriteFrameOutcome` and writes one packet per answer before the end |
| Muxer.EncodeVideo | gfx/utils/muxer.cpp:417-424 | every call but the last returns 0 from `write_frame` on the encoder's answers, the last one returns 1 or is fatal, and the pictures handed over carry `ProducedPts` |
| Muxer.CallEndsOrStops | gfx/utils/muxer.cpp:88-126 | a `write_frame` call that returns gives 0 or 1 |
| Muxer.ProducedSnoc | gfx/utils/muxer.cpp:296-318 | one more call adds the next timestamp unless it has expired |
| VulkanContext.ScannedIndices | gfx/vulkan/context.cpp:57-77 | each found index is a family seen so far with graphics or present support; none is found exactly when no such family was seen |
| VulkanContext.VisitedIsFirstComplete | gfx/vulkan/context.cpp:72-75 | the scan stops at the first point where both families are found, or at the end |
| VulkanContext.FoundIffAvailable | gfx/vulkan/context.cpp:45-81 | the indices are complete exactly when some family has graphics and some family can present |
| VulkanContext.FindQueueFamilies | gfx/vulkan/context.cpp:45-81 | the loop computes the scanned indices; each found index has its capability; complete exactly when both are available |
| VulkanContext.CheckDeviceExtensionSupport | gfx/vulkan/context.cpp:23-43 | supported exactly when every required extension is available |
| VulkanContext.QuerySwapChainSupport | gfx/vulkan/context.cpp:83-117 | the driver's capabilities, formats and present modes |
| VulkanContext.IsDeviceSuitable | gfx/vulkan/context.cpp:119-146 | suitable exactly when the device type is `VK_PHYSICAL_DEVICE_TYPE_DISCRETE_GPU`, the families are complete, the extensions are supported and there is some format and present mode |
| VulkanContext.FirstSuitable | gfx/vulkan/context.cpp:445-455 | the first suitable device at or after a position, or none if there is none |
| VulkanContext.Context.constructor | gfx/vulkan/context.hpp:56-59 | no device picked, not resized, validation on with the Khronos layer |
| VulkanContext.Context.Resized | gfx/vulkan/context.cpp:268-271 | reports the resize flag |
| VulkanContext.Context.SetResized | gfx/vulkan/context.cpp:273-276 | sets the resize flag and nothing else |
| VulkanContext.Context.FramebufferResizeCallback | gfx/vulkan/context.hpp:70-76 | a resize event sets the flag |
| VulkanContext.Context.GetRequiredExtensions | gfx/vulkan/context.cpp:320-339 | GLFW's extensions in order, then the debug-utils extension when validation is on |
| VulkanContext.Context.CheckValidationLayerSupport | gfx/vulkan/context.cpp:342-362 | true exactly when some requested layer is available |
| VulkanContext.Context.RequireValidationLayers | gfx/vulkan/context.cpp:366-369 | fails with the missing-layers message exactly when validation is on and no layer is available |
| VulkanContext.Context.PickPhysicalDevice | gfx/vulkan/context.cpp:436-463 | no device fails with "no GPU"; otherwise picks the first suitable device, or fails with "no suitable GPU" |
| VulkanApplication.ChooseSwapSurfaceFormat | gfx/vulkan/application.cpp:30-43 | picks the first sRGB B8G8R8A8 format if one exists, and the first format otherwise |
| VulkanApplication.ChooseSwapPresentMode | gfx/vulkan/application.cpp:45-57 | mailbox exactly when it is offered, and FIFO otherwise |
| VulkanApplication.Clamp | gfx/vulkan/application.cpp:74-81 | `std::clamp` keeps values in range and otherwise gives the nearer bound |
| VulkanApplication.ToUint32 | gfx/vulkan/application.cpp:74-81 | `static_cast<uint32_t>` keeps values that fit and adds 2^32 to a negative one |
| VulkanApplication.ChooseSwapExtent | gfx/vulkan/application.cpp:59-84 | the surface's current extent unless it is the special value; then each framebuffer dimension, cast to 32 bits, clamped into the surface's bounds |
| VulkanApplication.OutOfBoundsFramebufferClamped | gfx/vulkan/application.cpp:72-81 | a dimension below the minimum becomes the minimum, one above the maximum becomes the maximum, and a negative one becomes the maximum when that is below 2^31 |
| VulkanApplication.FittingFramebufferKept | gfx/vulkan/application.cpp:59-84 | a framebuffer within the bounds is used as it is |
| VulkanApplication.SwapChainImageCount | gfx/vulkan/application.cpp:309-315 | one more than the minimum, capped by a nonzero maximum; a minimum of `UINT32_MAX` wraps to 0 |
| VulkanApplication.FindSupportedFormat | gfx/vulkan/application.cpp:736-758 | the first candidate whose tiling supports the features; throws exactly when none does |
| VulkanApplication.FindDepthFormat | gfx/vulkan/application.cpp:760-767 | a depth candidate in preference order that supports depth attachment; throws exactly when none does |
| VulkanApplication.FindMemoryType | gfx/vulkan/application.cpp:904-921 | the smallest memory type allowed by the filter with all requested properties; throws exactly when none fits |
| VulkanApplication.TransitionImageLayout | gfx/vulkan/application.cpp:1199-1281 | succeeds exactly for the three supported transitions, with the aspect and access masks of the table; otherwise throws `invalid_argument` |
| VulkanApplication.RequestedTransitionsSupported | gfx/vulkan/application.cpp:885-898 | the transitions the application requests all succeed, depth with its stencil aspect when the format has one |
| VulkanApplication.NextFrame | gfx/vulkan/application.cpp:1563 | the next frame slot is the other of the two |
| VulkanApplication.FramesAlternate | gfx/vulkan/application.cpp:1563 | two advances return to the same slot |
| VulkanApplication.FrameAfter | gfx/vulkan/application.cpp:1563 | after any number of presented frames the slot is still one of the two |
| VulkanApplication.FrameAfterIsParity | gfx/vulkan/application.cpp:1563 | after n presented frames the slot is n modulo 2 |
| VulkanApplication.Application.constructor | gfx/vulkan/application.hpp:36-37 | the first frame slot is 0 |
| VulkanApplication.Application.DrawFrame | gfx/vulkan/application.cpp:1481-1564 | out-of-date acquire recreates and keeps the frame, the resize flag set if it was or a resize arrives during the recreation; other acquire or submit errors throw and keep the frame; present advances the frame and clears the resize flag when it recreates |
| VulkanApplication.Application.RecreateSwapChain | gfx/vulkan/application.cpp:1616-1618 | the resize flag afterwards is set exactly when it was before or a resize event arrived while waiting for window events |

## Left out

- Concurrency: two processes using the shared-memory channel at once are not modelled. Their calls are a sequence, and blocking `sem_wait` is a counter decrement.
- Floating point is not modelled:
  - the colour channels of `gfx::Color` (the texture takes the bytes `floatToUint8` gives for 0.0 and 1.0);
  - stick values, which are kept as the 32-bit patterns `memcmp` compares;
  - `std::round` of a trigger, which is given as an input;
  - the float extent arithmetic.
- The gamepad constructor's joystick callback and information printing are not modelled; they are GLFW calls.
- Gamepad.Gamepad.PrintStick: the printed float values are recorded as their bit patterns, not as formatted decimals.
- Gamepad.Gamepad.Update: the model requires 15 button bytes and `PrintAxes` requires 6 axes. The source reads these counts without checking them.
- libav is not modelled beyond the encoder answers and the frame planes:
  - the output context, the header and the trailer;
  - `open_video`, `alloc_picture` and `av_frame_make_writable`, plus the fatal paths of these set-up calls;
  - the four fatal paths of `add_stream`: no encoder found, and failed allocation of the packet, the stream or the codec context;
  - the stream id `add_stream` assigns from the stream count.
- Muxer.OutputStream.GetVideoFrame: `next_pts` is an unbounded integer, so int64 overflow is not modelled.
- The boost `program_options` tokenizer is not modelled. The parser starts from the variables map it produces.
- The text `TRYCATCH` prints to standard error is not modelled; only the error itself is kept.
- `getopt_long` itself is not modelled; `print.c` and `parse.c` beyond the registrations are context.
- ArgparseOptions.OptionTables.Alloc: the model requires `2n + 2` to fit an `unsigned`. The source does not check this.
- ArgparseOptions.OptionTables.AddOption: the model requires at most `num_options` registrations, which is what the optstring buffer was sized for. The source does not check this.
- Reading `/proc/self/comm` and the `fopen`/`fscanf` calls are not modelled; their results are parameters.
- Building with `NDEBUG`, where the `assert` calls vanish, is not modelled: the assertions are always active.
- The fatal logger's text for an unknown URI schema is not modelled; the failure is the absence of a value.
- `os.walk` is replaced by the list of files it finds, and the `find_comments_main.py` driver is left out.
- The pip parser's caller loop is left out: `ParsePipOutput` is one call.
- Vulkan object creation and destruction are not modelled, and neither is swap-chain recreation beyond its effect on the frame and the resize flag; whether a resize event arrives during the recreation is an input. The same holds for command recording, descriptor sets, buffers and images, and the uniform buffer update.
- Driver enumeration calls are not modelled: their results are values of `PhysicalDevice`.
- The debug messenger and its callback are left out.
- The queue-create-info bookkeeping of `_createLogicalDevice` is left out.
- Rendering and GPU compute code elsewhere in the repository is out of scope.

## Findings

| source | as written | input that shows it | evidently intended | confidence | as-written member | corrected member |
|---|---|---|---|---|---|---|
| gfx/utils/argparse/logging.c:20 | the assertion on `fclose`'s result fails when the close succeeds (0) and passes when it fails (`EOF`) | any readable `/proc/self/comm`: `fclose` returns 0 and the assertion aborts | pass exactly when `fclose` returns 0 | not executed | ExecutableName.CallAbortsAsWritten | ExecutableName.TwoCalls |
| gfx/input/gamepad.cpp:159-162 | a left-trigger change is printed with the tag "RIGHT_TRIGGER" | any change of axis 2, for example a rounded value going from 0 to 1 | the left trigger printed as "LEFT_TRIGGER" | not executed | Gamepad.LeftTriggerPrintedAsRight | Gamepad.TriggerLinesDiffer |

=== FILE: arg_parser.dfy ===
/**
 * Decimal text of integers, as `std::stoi` reads it and as a stream writes it.
 */
module Decimal {
  import opened Wrappers
  import opened Strings

  const IntMin: int := -0x8000_0000
  const IntMax: int := 0x7FFF_FFFF

  /** The characters `isspace` accepts in the "C" locale. */
  predicate IsSpace(c: char) {
    c == ' ' || c == '\t' || c == '\n' || c == '\U{B}' || c == '\U{C}' || c == '\r'
  }

  predicate AllDigits(d: string) {
    forall i :: 0 <= i < |d| ==> IsDigit(d[i])
  }

  function SkipSpaces(s: string): (t: string)
    ensures |t| <= |s|
    ensures |t| > 0 ==> !IsSpace(t[0])
  {
    if |s| > 0 && IsSpace(s[0]) then SkipSpaces(s[1..]) else s
  }

  /** The number of digits `s` starts with. */
  function DigitPrefixLength(s: string): (n: nat)
    ensures n <= |s| && AllDigits(s[..n])
    ensures n < |s| ==> !IsDigit(s[n])
  {
    if |s| > 0 && IsDigit(s[0]) then
      var m := DigitPrefixLength(s[1..]);
      assert s[..m + 1] == [s[0]] + s[1..][..m];
      m + 1
    else 0
  }

  /** The value of a string of decimal digits, most significant first. */
  function DigitsValue(d: string): nat
    requires AllDigits(d)
  {
    if |d| == 0 then 0 else DigitsValue(d[..|d| - 1]) * 10 + (d[|d| - 1] as int - '0' as int)
  }

  /** The digit character of `n < 10`. */
  function DigitChar(n: nat): (c: char)
    requires n < 10
    ensures IsDigit(c) && c as int - '0' as int == n
  {
    ('0' as int + n) as char
  }

  /** How `operator<<` writes an unsigned number: its decimal digits, no leading zeros. */
  function NatToString(n: nat): (s: string)
    ensures |s| > 0 && AllDigits(s)
  {
    if n < 10 then [DigitChar(n)] else NatToString(n / 10) + [DigitChar(n % 10)]
  }

  /** Reading back the digits written for `n` gives `n`. */
  lemma {:induction false} NatToStringValue(n: nat)
    ensures DigitsValue(NatToString(n)) == n
  {
    var s := NatToString(n);
    if n >= 10 {
      assert s[..|s| - 1] == NatToString(n / 10);
      NatToStringValue(n / 10);
    } else {
      assert s[..0] == [];
    }
  }

  /** A run of digits followed by anything but a digit is read up to its end. */
  lemma {:induction false} DigitPrefixOfRun(d: string, t: string)
    requires AllDigits(d)
    requires |t| > 0 ==> !IsDigit(t[0])
    ensures DigitPrefixLength(d + t) == |d|
    decreases |d|
  {
    if |d| > 0 {
      assert (d + t)[1..] == d[1..] + t;
      DigitPrefixOfRun(d[1..], t);
    } else {
      assert d + t == t;
    }
  }

  /** `invalid_argument` (no digits) and `out_of_range` (not an `int`). */
  datatype StoiError = NoConversion | NotAnInt

  /**
   * `std::stoi(s)` in base 10: leading white space is skipped, one sign is
   * allowed, the longest run of digits is read and anything after it is
   * ignored; no digits is `invalid_argument`, a value outside `int` is
   * `out_of_range`.
   */
  function Stoi(s: string): (r: Result<int, StoiError>)
    ensures r.Success? ==> IntMin <= r.value <= IntMax
    ensures r == Failure(NoConversion) <==>
      var t := SkipSpaces(s);
      var u := if |t| > 0 && (t[0] == '-' || t[0] == '+') then t[1..] else t;
      |u| == 0 || !IsDigit(u[0])
  {
    var t := SkipSpaces(s);
    var negative := |t| > 0 && t[0] == '-';
    var u := if |t| > 0 && (t[0] == '-' || t[0] == '+') then t[1..] else t;
    var n := DigitPrefixLength(u);
    if n == 0 then Failure(NoConversion)
    else
      var magnitude := DigitsValue(u[..n]);
      var v := if negative then 0 - magnitude as int else magnitude as int;
      if v < IntMin || IntMax < v then Failure(NotAnInt) else Success(v)
  }

  /** `stoi` reads back what `operator<<` wrote, whatever non-digit follows. */
  lemma StoiOfNatToString(n: nat, t: string)
    requires n <= IntMax
    requires |t| > 0 ==> !IsDigit(t[0])
    ensures Stoi(NatToString(n) + t) == Success(n)
  {
    var s := NatToString(n) + t;
    assert s[0] == NatToString(n)[0];
    assert SkipSpaces(s) == s;
    DigitPrefixOfRun(NatToString(n), t);
    assert s[..|NatToString(n)|] == NatToString(n);
    NatToStringValue(n);
  }

  /** Leading blanks and a sign are accepted, and text after the digits is ignored. */
  lemma StoiSignedExample()
    ensures Stoi(" -12px") == Success(-12)
  {
    assert SkipSpaces(" -12px") == "-12px";
    assert "-12px"[1..] == "12" + "px";
    DigitPrefixOfRun("12", "px");
    assert ("12" + "px")[..2] == "12";
    assert DigitsValue("12") == 12 by {
      assert "12"[..1] == "1";
      assert "1"[..0] == "";
    }
  }

  /** Text without digits is `invalid_argument`. */
  lemma StoiNoDigitsExample()
    ensures Stoi("x1") == Failure(NoConversion)
    ensures Stoi("") == Failure(NoConversion)
  {
  }

  /**
   * A number written after a minus sign reads back negated while it fits
   * in `int`, and a number beyond the `int` range either way is `out_of_range`.
   */
  lemma StoiRange(n: nat, negative: bool)
    ensures var text := (if negative then "-" else "") + NatToString(n);
      var v: int := if negative then 0 - n else n;
      Stoi(text) == if IntMin <= v <= IntMax then Success(v) else Failure(NotAnInt)
  {
    var d := NatToString(n);
    var text := (if negative then "-" else "") + d;
    assert text[0] == (if negative then '-' else d[0]);
    assert SkipSpaces(text) == text;
    assert (if negative then text[1..] else text) == d + "";
    DigitPrefixOfRun(d, "");
    assert (d + "")[..|d|] == d;
    NatToStringValue(n);
  }
}

/**
 * The command-line front end (gfx/utils/arg_parser.cpp).
 *
 * Boost's tokenising of `argv` is not modelled: the parser starts from the
 * variables map it produces, a map from option name to the stored value.
 * `as<T>()` of a value of another type throws `bad_any_cast`.
 */
module ArgParsing {
  import opened Wrappers
  import opened Strings
  import opened Decimal
  import opened Sizes
  import opened Uri

  const UInt32Modulus: int := 0x1_0000_0000
  type UInt32 = n: int | 0 <= n < UInt32Modulus

  /** A value in the variables map, by the type it was declared with. */
  datatype OptionValue =
    | Text(text: string)       // std::string and std::filesystem::path values
    | Count(count: UInt32)     // uint32_t values
    | Switch(on: bool)         // the bool_switch

  type VariablesMap = map<string, OptionValue>

  /** Why construction does not return normally. */
  datatype ArgError =
    | HelpRequested                     // the usage is printed and the process aborts
    | InvalidSchema(uri: string)        // the URI constructor's fatal log aborts
    | InvalidArgument(message: string)  // std::invalid_argument
    | StoiOutOfRange                    // std::out_of_range from stoi
    | BadAnyCast                        // boost::bad_any_cast from as<T>()

  /** The aborting failures, as opposed to thrown exceptions. */
  predicate Aborts(e: ArgError) {
    e.HelpRequested? || e.InvalidSchema?
  }

  const MissingDelimiter: string := "gfx::missing 'x' delimeter in '--size' argument value (WxH)"

  /** The position of the first 'x' (`std::string::find`). */
  function FindX(s: string): (i: Option<nat>)
    ensures i.None? <==> 'x' !in s
    ensures i.Some? ==> i.value < |s| && s[i.value] == 'x' && 'x' !in s[..i.value]
  {
    if |s| == 0 then None
    else if s[0] == 'x' then Some(0)
    else
      var rest := FindX(s[1..]);
      assert 'x' in s[1..] ==> 'x' in s;
      if rest.None? then None
      else
        assert s[..rest.value + 1] == [s[0]] + s[1..][..rest.value];
        Some(rest.value + 1)
  }

  function FromStoi(e: StoiError): ArgError {
    if e.NoConversion? then InvalidArgument("stoi") else StoiOutOfRange
  }

  /**
   * The `--size` value: split at the first 'x', `stoi` of the part before
   * it is the width, of the part after it the height.
   */
  function ParseSize(s: string): (r: Result<Size, ArgError>)
    ensures 'x' !in s ==> r == Failure(InvalidArgument(MissingDelimiter))
    ensures r.Success? ==> FindX(s).Some?
    ensures r.Success? ==> var i := FindX(s).value;
      Stoi(s[..i]).Success? && Stoi(s[i + 1..]).Success? &&
      r.value == MakeSize(Stoi(s[..i]).value, Stoi(s[i + 1..]).value)
  {
    match FindX(s)
    case None => Failure(InvalidArgument(MissingDelimiter))
    case Some(i) =>
      var width := Stoi(s[..i]);
      var height := Stoi(s[i + 1..]);
      if width.Failure? then Failure(FromStoi(width.error))
      else if height.Failure? then Failure(FromStoi(height.error))
      else Success(MakeSize(width.value, height.value))
  }

  /** `operator<<(ostream, Size)`: "WxH" with both dimensions as `size_t`. */
  function FormatSize(s: Size): (text: string)
    ensures 'x' in text
  {
    var w := NatToString(s.width.data);
    assert (w + "x")[|w|] == 'x';
    w + "x" + NatToString(s.height.data)
  }

  /** Printing a size and parsing the text gives the size back. */
  lemma SizeRoundTrip(width: nat, height: nat)
    requires width <= IntMax && height <= IntMax
    ensures ParseSize(FormatSize(MakeSize(width, height))) == Success(MakeSize(width, height))
  {
    var w, h := NatToString(width), NatToString(height);
    var text := w + "x" + h;
    assert text == FormatSize(MakeSize(width, height));
    assert 'x' !in w by {
      forall i | 0 <= i < |w| ensures w[i] != 'x' {
        assert IsDigit(w[i]);
      }
    }
    assert text[..|w|] == w;
    assert FindX(text) == Some(|w|);
    assert text[|w| + 1..] == h;
    StoiOfNatToString(width, []);
    assert w + [] == w;
    StoiOfNatToString(height, []);
    assert h + [] == h;
  }

  /** The example of the parser's own test: "32x128" is 32 by 128. */
  lemma SizeOptionExample()
    ensures FormatSize(MakeSize(32, 128)) == "32x128"
    ensures ParseSize(FormatSize(MakeSize(32, 128))) == Success(MakeSize(32, 128))
  {
    ExampleDimensions();
    assert FormatSize(MakeSize(32, 128)) == "32" + "x" + "128";
    SizeRoundTrip(32, 128);
  }

  /** The decimal texts of the example's two dimensions. */
  lemma ExampleDimensions()
    ensures NatToString(32) == "32" && NatToString(128) == "128"
  {
    assert NatToString(32) == NatToString(3) + [DigitChar(2)];
    assert NatToString(12) == NatToString(1) + [DigitChar(2)];
    assert NatToString(128) == NatToString(12) + [DigitChar(8)];
  }

  /** A value without an 'x' is refused with the delimiter message. */
  lemma SizeWithoutDelimiter()
    ensures ParseSize("32") == Failure(InvalidArgument(MissingDelimiter))
  {
  }

  /** The parsed options, as the getters report them. */
  datatype Options = Options(
    outputPath: Option<string>, inputPath: Option<string>, size: Option<Size>,
    outputUri: Option<URI>, inputUri: Option<URI>,
    duration: Option<UInt32>, frameRate: Option<UInt32>, verbose: bool)

  /** The options before any `_checkFor*` ran: all unset, not verbose. */
  function NoOptions(): (o: Options)
    ensures !o.verbose && o.size.None? && o.duration.None? && o.frameRate.None?
  {
    Options(None, None, None, None, None, None, None, false)
  }

  /** A text option read inside TRYCATCH: a wrongly typed value leaves it unset. */
  function TextOption(vm: VariablesMap, name: string, current: Option<string>): (o: Option<string>)
    ensures name !in vm ==> o == current
    ensures name in vm && vm[name].Text? ==> o == Some(vm[name].text)
    ensures name in vm && !vm[name].Text? ==> o == current
  {
    if name in vm then (if vm[name].Text? then Some(vm[name].text) else current) else current
  }

  /** A `uint32_t` option read inside TRYCATCH. */
  function CountOption(vm: VariablesMap, name: string, current: Option<UInt32>): (o: Option<UInt32>)
    ensures name !in vm ==> o == current
    ensures name in vm && vm[name].Count? ==> o == Some(vm[name].count)
    ensures name in vm && !vm[name].Count? ==> o == current
  {
    if name in vm then (if vm[name].Count? then Some(vm[name].count) else current) else current
  }

  /**
   * A URI option: the cast is guarded by TRYCATCH, but the URI constructor
   * aborts on an unknown schema, which no `catch` intercepts.
   */
  function UriOption(vm: VariablesMap, name: string, current: Option<URI>): (r: Result<Option<URI>, ArgError>)
    ensures name !in vm ==> r == Success(current)
    ensures name in vm && vm[name].Text? ==>
      (r.Success? <==> Parse(vm[name].text).Some?) &&
      (r.Success? ==> r.value == Parse(vm[name].text)) &&
      (r.Failure? ==> r.error == InvalidSchema(vm[name].text))
  {
    if name in vm && vm[name].Text? then
      match Parse(vm[name].text)
      case None => Failure(InvalidSchema(vm[name].text))
      case Some(u) => Success(Some(u))
    else Success(current)
  }

  /** The `--size` option, outside TRYCATCH: every failure escapes. */
  function SizeOption(vm: VariablesMap, current: Option<Size>): (r: Result<Option<Size>, ArgError>)
    ensures "size" !in vm ==> r == Success(current)
    ensures "size" in vm && !vm["size"].Text? ==> r == Failure(BadAnyCast)
    ensures "size" in vm && vm["size"].Text? ==>
      (r.Success? <==> ParseSize(vm["size"].text).Success?) &&
      (r.Success? ==> r.value == Some(ParseSize(vm["size"].text).value)) &&
      (r.Failure? ==> r.error == ParseSize(vm["size"].text).error)
  {
    if "size" !in vm then Success(current)
    else if !vm["size"].Text? then Failure(BadAnyCast)
    else
      match ParseSize(vm["size"].text)
      case Failure(e) => Failure(e)
      case Success(s) => Success(Some(s))
  }

  /** `--verbose`, a bool_switch, read inside TRYCATCH. */
  function VerboseOption(vm: VariablesMap, current: bool): (v: bool)
    ensures v ==> current || ("verbose" in vm && vm["verbose"] == Switch(true))
  {
    if "verbose" in vm && vm["verbose"].Switch? then vm["verbose"].on else current
  }

  /**
   * The whole constructor: help aborts first, then the options are read in
   * declaration order and the first failure that escapes ends construction.
   */
  function Configure(vm: VariablesMap): (r: Result<Options, ArgError>)
    ensures "help" in vm ==> r == Failure(HelpRequested)
    ensures r.Success? ==> r.value.verbose ==> "verbose" in vm && vm["verbose"] == Switch(true)
    ensures r.Success? ==> (r.value.size.Some? <==> "size" in vm)
    ensures r.Success? ==> (r.value.duration.Some? <==> "duration" in vm && vm["duration"].Count?)
    ensures "help" !in vm && SizeOption(vm, None).Failure? ==> r == Failure(SizeOption(vm, None).error)
    ensures "help" !in vm && SizeOption(vm, None).Success? && UriOption(vm, "output-uri", None).Failure? ==>
      r == Failure(UriOption(vm, "output-uri", None).error)
    ensures ("help" !in vm && SizeOption(vm, None).Success? && UriOption(vm, "output-uri", None).Success? &&
             UriOption(vm, "input-uri", None).Failure?) ==>
      r == Failure(UriOption(vm, "input-uri", None).error)
    ensures r.Success? <==> ("help" !in vm && SizeOption(vm, None).Success? &&
                             UriOption(vm, "output-uri", None).Success? && UriOption(vm, "input-uri", None).Success?)
    ensures r.Success? ==> r.value == Options(
      TextOption(vm, "output-path", None), TextOption(vm, "input-path", None), SizeOption(vm, None).value,
      UriOption(vm, "output-uri", None).value, UriOption(vm, "input-uri", None).value,
      CountOption(vm, "duration", None), CountOption(vm, "frame-rate", None), VerboseOption(vm, false))
  {
    if "help" in vm then Failure(HelpRequested)
    else
      var o := NoOptions();
      var o := o.(outputPath := TextOption(vm, "output-path", o.outputPath));
      var o := o.(inputPath := TextOption(vm, "input-path", o.inputPath));
      match SizeOption(vm, o.size)
      case Failure(e) => Failure(e)
      case Success(size) =>
        var o := o.(size := size);
        match UriOption(vm, "output-uri", o.outputUri)
        case Failure(e) => Failure(e)
        case Success(outputUri) =>
          var o := o.(outputUri := outputUri);
          match UriOption(vm, "input-uri", o.inputUri)
          case Failure(e) => Failure(e)
          case Success(inputUri) =>
            var o := o.(inputUri := inputUri);
            var o := o.(duration := CountOption(vm, "duration", o.duration));
            var o := o.(frameRate := CountOption(vm, "frame-rate", o.frameRate));
            Success(o.(verbose := VerboseOption(vm, o.verbose)))
  }

  /** A getter's answer: the stored value, or `invalid_argument` naming the option. */
  function Required<T>(value: Option<T>, option: string): (r: Result<T, ArgError>)
    ensures r.Success? <==> value.Some?
    ensures r.Success? ==> r.value == value.value
    ensures r.Failure? ==> r.error == InvalidArgument("gfx::missing '--" + option + "' argument value")
  {
    if value.Some? then Success(value.value)
    else Failure(InvalidArgument("gfx::missing '--" + option + "' argument value"))
  }

  class ArgParser {
    const vm: VariablesMap
    var outputPath: Option<string>
    var inputPath: Option<string>
    var size: Option<Size>
    var outputUri: Option<URI>
    var inputUri: Option<URI>
    var duration: Option<UInt32>
    var frameRate: Option<UInt32>
    var verbose: bool

    function Current(): Options
      reads this
    {
      Options(outputPath, inputPath, size, outputUri, inputUri, duration, frameRate, verbose)
    }

    /** The member initialisers: every option unset, not verbose. */
    constructor Init(vm: VariablesMap)
      ensures this.vm == vm && Current() == NoOptions()
    {
      this.vm := vm;
      outputPath, inputPath, size, outputUri, inputUri := None, None, None, None, None;
      duration, frameRate, verbose := None, None, false;
    }

    method CheckForOutputPath()
      modifies this
      ensures Current() == old(Current()).(outputPath := TextOption(vm, "output-path", old(outputPath)))
    {
      if "output-path" in vm {
        if vm["output-path"].Text? {
          outputPath := Some(vm["output-path"].text);
        }
      }
    }

    method CheckForInputPath()
      modifies this
      ensures Current() == old(Current()).(inputPath := TextOption(vm, "input-path", old(inputPath)))
    {
      if "input-path" in vm {
        if vm["input-path"].Text? {
          inputPath := Some(vm["input-path"].text);
        }
      }
    }

    /** `_checkForSize`: returns the exception that escapes, if any. */
    method CheckForSize() returns (thrown: Option<ArgError>)
      modifies this
      ensures thrown.Some? <==> SizeOption(vm, old(size)).Failure?
      ensures thrown.Some? ==> thrown.value == SizeOption(vm, old(size)).error && Current() == old(Current())
      ensures thrown.None? ==> Current() == old(Current()).(size := SizeOption(vm, old(size)).value)
    {
      thrown := None;
      if "size" in vm {
        if !vm["size"].Text? {
          return Some(BadAnyCast);
        }
        var text := vm["size"].text;
        var split := FindX(text);
        if split.None? {
          return Some(InvalidArgument(MissingDelimiter));
        }
        var width := Stoi(text[..split.value]);
        if width.Failure? {
          return Some(FromStoi(width.error));
        }
        var height := Stoi(text[split.value + 1..]);
        if height.Failure? {
          return Some(FromStoi(height.error));
        }
        size := Some(MakeSize(width.value, height.value));
      }
    }

    /** `_checkForOutputUri`: returns the abort, if any. */
    method CheckForOutputUri() returns (aborted: Option<ArgError>)
      modifies this
      ensures aborted.Some? <==> UriOption(vm, "output-uri", old(outputUri)).Failure?
      ensures aborted.Some? ==> aborted.value == UriOption(vm, "output-uri", old(outputUri)).error
      ensures aborted.None? ==>
        Current() == old(Current()).(outputUri := UriOption(vm, "output-uri", old(outputUri)).value)
    {
      aborted := None;
      if "output-uri" in vm && vm["output-uri"].Text? {
        var uri := Parse(vm["output-uri"].text);
        if uri.None? {
          return Some(InvalidSchema(vm["output-uri"].text));
        }
        outputUri := uri;
      }
    }

    /** `_checkForInputUri`: returns the abort, if any. */
    method CheckForInputUri() returns (aborted: Option<ArgError>)
      modifies this
      ensures aborted.Some? <==> UriOption(vm, "input-uri", old(inputUri)).Failure?
      ensures aborted.Some? ==> aborted.value == UriOption(vm, "input-uri", old(inputUri)).error
      ensures aborted.None? ==>
        Current() == old(Current()).(inputUri := UriOption(vm, "input-uri", old(inputUri)).value)
    {
      aborted := None;
      if "input-uri" in vm && vm["input-uri"].Text? {
        var uri := Parse(vm["input-uri"].text);
        if uri.None? {
          return Some(InvalidSchema(vm["input-uri"].text));
        }
        inputUri := uri;
      }
    }

    method CheckForDuration()
      modifies this
      ensures Current() == old(Current()).(duration := CountOption(vm, "duration", old(duration)))
    {
      if "duration" in vm {
        if vm["duration"].Count? {
          duration := Some(vm["duration"].count);
        }
      }
    }

    method CheckForFrameRate()
      modifies this
      ensures Current() == old(Current()).(frameRate := CountOption(vm, "frame-rate", old(frameRate)))
    {
      if "frame-rate" in vm {
        if vm["frame-rate"].Count? {
          frameRate := Some(vm["frame-rate"].count);
        }
      }
    }

    method CheckForVerbose()
      modifies this
      ensures Current() == old(Current()).(verbose := VerboseOption(vm, old(verbose)))
    {
      if "verbose" in vm {
        if vm["verbose"].Switch? {
          verbose := vm["verbose"].on;
        }
      }
    }

    /** `ArgParser::ArgParser`: the outcome is exactly the one `Configure` specifies. */
    static method Create(vm: VariablesMap) returns (r: Result<ArgParser, ArgError>)
      ensures Configure(vm).Failure? <==> r.Failure?
      ensures r.Failure? ==> r.error == Configure(vm).error
      ensures r.Success? ==> r.value.vm == vm && r.value.Current() == Configure(vm).value
    {
      if "help" in vm {
        return Failure(HelpRequested);
      }
      var parser := new ArgParser.Init(vm);
      parser.CheckForOutputPath();
      parser.CheckForInputPath();
      var failed := parser.CheckForSize();
      if failed.Some? {
        return Failure(failed.value);
      }
      failed := parser.CheckForOutputUri();
      if failed.Some? {
        return Failure(failed.value);
      }
      failed := parser.CheckForInputUri();
      if failed.Some? {
        return Failure(failed.value);
      }
      parser.CheckForDuration();
      parser.CheckForFrameRate();
      parser.CheckForVerbose();
      return Success(parser);
    }

    function GetOutputPath(): (r: Result<string, ArgError>)
      reads this
      ensures r == Required(outputPath, "output-path")
    {
      Required(outputPath, "output-path")
    }

    function GetInputPath(): (r: Result<string, ArgError>)
      reads this
      ensures r == Required(inputPath, "input-path")
    {
      Required(inputPath, "input-path")
    }

    function GetSize(): (r: Result<Size, ArgError>)
      reads this
      ensures r == Required(size, "size")
    {
      Required(size, "size")
    }

    function GetOutputUri(): (r: Result<URI, ArgError>)
      reads this
      ensures r == Required(outputUri, "output-uri")
    {
      Required(outputUri, "output-uri")
    }

    function GetInputUri(): (r: Result<URI, ArgError>)
      reads this
      ensures r == Required(inputUri, "input-uri")
    {
      Required(inputUri, "input-uri")
    }

    function GetDuration(): (r: Result<UInt32, ArgError>)
      reads this
      ensures r == Required(duration, "duration")
    {
      Required(duration, "duration")
    }

    function GetFrameRate(): (r: Result<UInt32, ArgError>)
      reads this
      ensures r == Required(frameRate, "frame-rate")
    {
      Required(frameRate, "frame-rate")
    }

    function GetVerbose(): (v: bool)
      reads this
      ensures v == verbose
    {
      verbose
    }
  }

  /** Without `--verbose` the parser is not verbose; with it, it is. */
  lemma VerboseOnlyWhenGiven(vm: VariablesMap)
    requires Configure(vm).Success?
    ensures Configure(vm).value.verbose <==> "verbose" in vm && vm["verbose"] == Switch(true)
  {
  }

  /** A map without `--size` gives a parser whose size getter throws. */
  lemma MissingSizeThrows(vm: VariablesMap)
    requires Configure(vm).Success? && "size" !in vm
    ensures Required(Configure(vm).value.size, "size") ==
      Failure(InvalidArgument("gfx::missing '--size' argument value"))
  {
    assert Configure(vm).value.size.None?;
    assert "gfx::missing '--" + "size" + "' argument value" == "gfx::missing '--size' argument value";
  }

  /** A help request aborts before any option is read. */
  lemma HelpAborts(vm: VariablesMap)
    requires "help" in vm
    ensures Configure(vm) == Failure(HelpRequested) && Aborts(Configure(vm).error)
  {
  }

  /**
   * A `--size` option holding printed dimensions yields exactly those
   * dimensions and nothing else (the parser's own test uses 32 by 128,
   * see `SizeOptionExample`).
   */
  lemma ConfigureSizeOption(width: nat, height: nat)
    requires width <= IntMax && height <= IntMax
    ensures Configure(map["size" := Text(FormatSize(MakeSize(width, height)))]) ==
      Success(NoOptions().(size := Some(MakeSize(width, height))))
  {
    SizeRoundTrip(width, height);
  }

  /** The examples `--duration 15`, `--verbose` and `--frame-rate 30`. */
  lemma ConfigureCountExamples()
    ensures Configure(map["duration" := Count(15)]) == Success(NoOptions().(duration := Some(15)))
    ensures Configure(map["verbose" := Switch(true)]) == Success(NoOptions().(verbose := true))
    ensures Configure(map["frame-rate" := Count(30)]) == Success(NoOptions().(frameRate := Some(30)))
  {
  }

  /** The example `--input-uri unix:/tmp/test`, whose text is kept as given. */
  lemma ConfigureUriExample()
    ensures Configure(map["input-uri" := Text("unix:/tmp/test")]) ==
      Success(NoOptions().(inputUri := Some(URI("unix:/tmp/test", Unix))))
  {
    assert StartsWith("unix:/tmp/test", "unix");
    assert !StartsWith("unix:/tmp/test", "file");
  }
}

=== FILE: argparse_logging.dfy ===
/**
 * The executable name that the C argument parser puts in its messages
 * (gfx/utils/argparse/logging.c).
 *
 * `logging_get_executable_name` reads the process name into a static
 * 16-byte buffer and shortens names of 15 or more characters to their
 * first 12 characters followed by "...". Reading `/proc/self/comm` is
 * replaced by parameters: whether the file opened, the word `fscanf`
 * found (None for EOF) and the value `fclose` returned.
 */
module ExecutableName {

  import opened Wrappers
  import opened CStrings

  /** The size of the static buffer. */
  const BufferSize: nat := 16

  /** The characters kept in front of the "..." of a shortened name. */
  const KeptPrefix: nat := 12

  /** `fclose` returns 0 on success and `EOF` on failure. */
  const EOF: int := -1

  /** The name returned for the process name `name`. */
  function Truncated(name: string): (t: string)
    ensures |t| <= BufferSize - 1
    ensures |name| < 15 ==> t == name
    ensures |name| >= 15 ==> |t| == 15 && t[..KeptPrefix] == name[..KeptPrefix] && t[KeptPrefix..] == "..."
  {
    if |name| >= 15 then name[..KeptPrefix] + "..." else name
  }

  /** Shortening a shortened name changes nothing. */
  lemma TruncatedIdempotent(name: string)
    ensures Truncated(Truncated(name)) == Truncated(name)
  {
  }

  /** The check around `fclose` as written: it passes only when `fclose` fails. */
  function CloseCheckAsWritten(closeResult: int): (passes: bool)
    ensures passes <==> closeResult != 0
  {
    closeResult != 0
  }

  /** As written, a file that closes successfully stops the process. */
  lemma SuccessfulCloseAbortsAsWritten()
    ensures !CloseCheckAsWritten(0)
    ensures CloseCheckAsWritten(EOF)
  {
  }

  /** The intended check: it passes exactly when `fclose` succeeds. */
  function CloseCheck(closeResult: int): (passes: bool)
    ensures passes <==> closeResult == 0
    ensures closeResult == 0 || closeResult == EOF ==> passes != CloseCheckAsWritten(closeResult)
  {
    closeResult == 0
  }

  /** The check around `fclose`: as written in the source, or as intended. */
  function ClosePasses(asWritten: bool, closeResult: int): (passes: bool)
    ensures !asWritten ==> (passes <==> closeResult == 0)
    ensures asWritten ==> (passes <==> closeResult != 0)
  {
    if asWritten then CloseCheckAsWritten(closeResult) else CloseCheck(closeResult)
  }

  /** The static buffer, shared by every call. */
  class NameBuffer {
    const buffer: array<char>

    /** `static char executable_name[16] = ""`: all NULs. */
    constructor ()
      ensures fresh(buffer) && buffer.Length == BufferSize
      ensures forall i :: 0 <= i < buffer.Length ==> buffer[i] == '\0'
      ensures CString(buffer[..]) == ""
    {
      buffer := new char[BufferSize](_ => '\0');
    }

    /**
     * One call: `false` when one of the assertions stops the process.
     * Otherwise the buffer holds the shortened name. The name must fit the
     * buffer, as the kernel's 15-character limit on process names ensures.
     * `asWritten` selects the source's check around `fclose` rather than
     * the intended one.
     */
    method GetExecutableName(fileOpened: bool, word: Option<string>, closeResult: int, asWritten: bool) returns (ok: bool)
      requires buffer.Length == BufferSize
      requires word.Some? ==> |word.value| < BufferSize && '\0' !in word.value
      modifies buffer
      ensures ok <==> fileOpened && word.Some? && ClosePasses(asWritten, closeResult)
      ensures !fileOpened || word.None? ==> unchanged(buffer)
      ensures ok ==> CString(buffer[..]) == Truncated(word.value)
    {
      if !fileOpened || word.None? {
        return false;
      }
      var name := word.value;
      // fscanf stores the word and its terminator
      var i := 0;
      while i < |name|
        invariant 0 <= i <= |name|
        invariant buffer[..i] == name[..i]
      {
        buffer[i] := name[i];
        i := i + 1;
      }
      buffer[|name|] := '\0';
      assert buffer[..|name|] == name;
      CLengthIs(buffer[..], |name|);
      if !ClosePasses(asWritten, closeResult) {
        return false;
      }
      var n := StrLen(buffer);
      if n >= 15 {
        buffer[12] := '.';
        buffer[13] := '.';
        buffer[14] := '.';
        buffer[15] := '\0';
        CLengthIs(buffer[..], 15);
        assert buffer[..15] == name[..KeptPrefix] + "...";
      }
      return true;
    }
  }

  /**
   * With the intended close check, two calls return the same buffer, and
   * the second name replaces the first.
   */
  method TwoCalls(first: string, second: string) returns (b: NameBuffer)
    requires |first| < BufferSize && '\0' !in first
    requires |second| < BufferSize && '\0' !in second
    ensures CString(b.buffer[..]) == Truncated(second)
  {
    b := new NameBuffer();
    var ok := b.GetExecutableName(true, Some(first), 0, false);
    ok := b.GetExecutableName(true, Some(second), 0, false);
  }

  /**
   * As written, a call whose file opens, whose word is read and whose
   * `fclose` succeeds still stops the process; it returns only when
   * `fclose` fails.
   */
  method CallAbortsAsWritten(name: string) returns (closed: bool, failedClose: bool)
    requires |name| < BufferSize && '\0' !in name
    ensures !closed && failedClose
  {
    var b := new NameBuffer();
    closed := b.GetExecutableName(true, Some(name), 0, true);
    failedClose := b.GetExecutableName(true, Some(name), EOF, true);
  }
}

=== FILE: argparse_options.dfy ===
/**
 * The getopt option tables of the C argument parser
 * (gfx/utils/argparse/options.c).
 *
 * The four globals of the source become the fields of one `OptionTables`
 * object: the `struct option` table for `getopt_long`, the description
 * table used by the help printer, and the optstring buffer, a
 * NUL-terminated `char` array that `strncat` extends in place.
 */
module ArgparseOptions {

  import opened Wrappers
  import opened CStrings

  /** `has_arg` values of `<getopt.h>`. */
  const NoArgument: int := 0
  const RequiredArgument: int := 1
  const OptionalArgument: int := 2

  const UnsignedModulus: int := 0x1_0000_0000

  /** `struct option`; the `flag` pointer is NULL in every entry the source writes. */
  datatype LongOption = LongOption(name: Option<string>, hasArg: int, val: char)

  /** `struct argparse_print_description`. */
  datatype Description = Description(text: Option<string>, numTabs: int)

  /** A zero-filled entry (`memset(…, 0, …)`). */
  const ZeroOption: LongOption := LongOption(None, 0, '\0')
  const ZeroDescription: Description := Description(None, 0)

  /** Entry 0 of both tables. */
  const HelpOption: LongOption := LongOption(Some("help"), NoArgument, 'h')
  const HelpDescription: Description := Description(Some("print this message and exit"), 0)

  /** What one registration appends to the optstring. */
  function Appended(shortOpt: char, hasArg: int): (s: seq<char>)
    ensures |s| <= 2
  {
    (if shortOpt == '\0' then [] else [shortOpt]) + (if hasArg != NoArgument then [':'] else [])
  }

  /** `num_tabs_needed`: one tab for long names, none for short ones. */
  function NumTabs(longOpt: string): (n: int)
    ensures n == 1 <==> |longOpt| > 6
    ensures n == 0 <==> |longOpt| <= 6
  {
    if |longOpt| > 6 then 1 else 0
  }

  /**
   * The index check `assert((index - 1) < num_options)` on `unsigned`
   * values: 0 wraps to the largest value and fails.
   */
  predicate IndexAccepted(index: int, numOptions: int)
    requires 0 <= index < UnsignedModulus && 0 <= numOptions < UnsignedModulus
  {
    (index - 1) % UnsignedModulus < numOptions
  }

  /** The unsigned check accepts exactly the indices 1 to `num_options`. */
  lemma IndexAcceptedRange(index: int, numOptions: int)
    requires 0 <= index < UnsignedModulus && 0 <= numOptions < UnsignedModulus
    ensures IndexAccepted(index, numOptions) <==> 1 <= index <= numOptions
  {
    if index == 0 {
      assert (index - 1) % UnsignedModulus == UnsignedModulus - 1;
    }
  }

  /** The optstring after registering `(short option, has_arg)` pairs in order. */
  function OptstringFor(regs: seq<(char, int)>): (s: seq<char>)
    ensures |s| <= 1 + 2 * |regs|
  {
    if regs == [] then ['h']
    else OptstringFor(regs[..|regs| - 1]) + Appended(regs[|regs| - 1].0, regs[|regs| - 1].1)
  }

  class OptionTables {
    const numOptions: nat
    const longOptions: array<LongOption>
    const descriptions: array<Description>
    const optstring: array<char>
    /** The `add_option` calls so far. */
    ghost var registered: seq<(char, int)>
    /** The tables are allocated and not yet freed. */
    var live: bool

    ghost predicate Valid()
      reads this, longOptions, descriptions, optstring
    {
      numOptions < UnsignedModulus &&
      longOptions.Length == numOptions + 2 &&
      descriptions.Length == numOptions + 1 &&
      optstring.Length == 2 * numOptions + 2 &&
      longOptions[0] == HelpOption &&
      descriptions[0] == HelpDescription &&
      longOptions[numOptions + 1] == ZeroOption &&
      NulPadded(optstring[..]) &&
      CString(optstring[..]) == OptstringFor(registered)
    }

    /** `argparse_options_optstring`: the string getopt receives. */
    function Optstring(): seq<char>
      reads this, optstring
    {
      CString(optstring[..])
    }

    /**
     * `argparse_alloc_options(n)`: zeroed tables with the help entry in
     * slot 0, the long table one entry longer for its terminator, and an
     * optstring buffer of `2n + 2` characters holding "h".
     */
    constructor Alloc(n: nat)
      requires 2 * n + 2 < UnsignedModulus
      ensures Valid() && live && numOptions == n && registered == []
      ensures fresh(longOptions) && fresh(descriptions) && fresh(optstring)
      ensures Optstring() == "h"
      ensures forall i :: 1 <= i < longOptions.Length ==> longOptions[i] == ZeroOption
      ensures forall i :: 1 <= i < descriptions.Length ==> descriptions[i] == ZeroDescription
    {
      numOptions := n;
      var longs := new LongOption[n + 2](_ => ZeroOption);
      var descs := new Description[n + 1](_ => ZeroDescription);
      var chars := new char[2 * n + 2](_ => '\0');
      longs[0] := HelpOption;
      descs[0] := HelpDescription;
      chars[0] := 'h';
      SingleCharString(chars[..], 'h');
      longOptions, descriptions, optstring := longs, descs, chars;
      registered := [];
      live := true;
    }

    /**
     * `argparse_add_option`: `false` when the index assertion aborts. Otherwise
     * slot `index` of both tables is written and the short option, then a
     * colon if it takes an argument, is appended to the optstring. The
     * buffer was sized for at most `num_options` registrations.
     */
    method AddOption(index: nat, longOpt: string, shortOpt: char, hasArg: int, description: string)
      returns (ok: bool)
      requires Valid() && live && index < UnsignedModulus
      requires |registered| < numOptions
      modifies this, longOptions, descriptions, optstring
      ensures Valid() && live
      ensures ok <==> IndexAccepted(index, numOptions)
      ensures !ok ==> registered == old(registered) && unchanged(longOptions, descriptions, optstring)
      ensures ok ==> registered == old(registered) + [(shortOpt, hasArg)]
      ensures ok ==> longOptions[..] == old(longOptions[..])[index := LongOption(Some(longOpt), hasArg, shortOpt)]
      ensures ok ==> descriptions[..] == old(descriptions[..])[index := Description(Some(description), NumTabs(longOpt))]
      ensures ok ==> Optstring() == old(Optstring()) + Appended(shortOpt, hasArg)
    {
      IndexAcceptedRange(index, numOptions);
      if !IndexAccepted(index, numOptions) {
        return false;
      }
      OptstringStep(registered, shortOpt, hasArg);
      OptstringBound(this);
      AppendShortOption(optstring, shortOpt, hasArg);
      longOptions[index] := LongOption(Some(longOpt), hasArg, shortOpt);
      descriptions[index] := Description(Some(description), NumTabs(longOpt));
      registered := registered + [(shortOpt, hasArg)];
      return true;
    }

    /** `argparse_dealloc_options`: the four allocations are released. */
    method Dealloc()
      requires live
      modifies this
      ensures !live
    {
      live := false;
    }
  }

  /** The two `strncat` calls of `add_option`: the short option, then a colon if it takes an argument. */
  method AppendShortOption(optstring: array<char>, shortOpt: char, hasArg: int)
    requires NulPadded(optstring[..]) && CLength(optstring[..]) + 2 < optstring.Length
    modifies optstring
    ensures NulPadded(optstring[..])
    ensures CString(optstring[..]) == old(CString(optstring[..])) + Appended(shortOpt, hasArg)
  {
    StrNCat1(optstring, shortOpt);
    if hasArg != NoArgument {
      StrNCat1(optstring, ':');
    }
  }

  /** One more registration appends its short option and colon. */
  lemma OptstringStep(regs: seq<(char, int)>, shortOpt: char, hasArg: int)
    ensures OptstringFor(regs + [(shortOpt, hasArg)]) == OptstringFor(regs) + Appended(shortOpt, hasArg)
  {
    assert (regs + [(shortOpt, hasArg)])[..|regs|] == regs;
  }

  /** At most `n` registrations keep the optstring within `1 + 2n` characters. */
  lemma OptstringBound(t: OptionTables)
    requires t.Valid() && |t.registered| <= t.numOptions
    ensures |t.Optstring()| <= 1 + 2 * t.numOptions
    ensures |t.Optstring()| < t.optstring.Length
  {
  }

  /** The registrations of the C parser: "verbose" without and "dir" with an argument. */
  method RegisterParseOptions() returns (t: OptionTables)
    ensures t.Valid() && t.Optstring() == "hvd:"
    ensures t.longOptions[1] == LongOption(Some("verbose"), NoArgument, 'v')
    ensures t.longOptions[2] == LongOption(Some("dir"), RequiredArgument, 'd')
    ensures t.longOptions[3] == ZeroOption
    ensures t.descriptions[1] == Description(Some(""), 1)
    ensures t.descriptions[2] == Description(Some("this is input"), 0)
  {
    t := new OptionTables.Alloc(2);
    var ok := t.AddOption(1, "verbose", 'v', NoArgument, "");
    assert ok by { IndexAcceptedRange(1, 2); }
    ok := t.AddOption(2, "dir", 'd', RequiredArgument, "this is input");
    assert ok by { IndexAcceptedRange(2, 2); }
  }
}

=== FILE: arithmetic.dfy ===
/** Facts about multiplication, division and remainder shared by the array models. */
module Arithmetic {

  lemma MulAtLeast(d: int, k: int)
    requires d > 0
    ensures k >= 1 ==> d * k >= d
  {
    if k >= 1 {
      assert d * k == d + d * (k - 1);
    }
  }

  /** Euclidean division has one quotient and one remainder. */
  lemma DivModUnique(a: int, d: int, q: int, r: int)
    requires d > 0 && 0 <= r < d && a == d * q + r
    ensures a / d == q && a % d == r
  {
    var q', r' := a / d, a % d;
    assert d * q' + r' == a;
    assert d * (q - q') == r' - r;
    assert d * (q' - q) == r - r';
    MulAtLeast(d, q - q');
    MulAtLeast(d, q' - q);
  }

  /** A larger factor gives a larger product. */
  lemma MulMonotone(a: int, b: int, c: int)
    requires a <= b && c >= 0
    ensures a * c <= b * c
  {
    assert b * c - a * c == (b - a) * c;
  }
}

=== FILE: c_strings.dfy ===
/**
 * NUL-terminated strings held in fixed `char` buffers, as the C parts of
 * the argument parser keep them.
 */
module CStrings {

  /** `strlen`: the number of characters before the first NUL (or all of them). */
  function CLength(s: seq<char>): (n: nat)
    ensures n <= |s|
    ensures forall i :: 0 <= i < n ==> s[i] != '\0'
    ensures n < |s| ==> s[n] == '\0'
  {
    if |s| == 0 || s[0] == '\0' then 0 else 1 + CLength(s[1..])
  }

  /** The C string held by a buffer. */
  function CString(s: seq<char>): (t: seq<char>)
    ensures '\0' !in t && |t| <= |s|
  {
    s[..CLength(s)]
  }

  /** A buffer holding a terminated string with nothing but NULs after it. */
  predicate NulPadded(s: seq<char>) {
    CLength(s) < |s| && forall i :: CLength(s) <= i < |s| ==> s[i] == '\0'
  }

  /** A zero-filled buffer with its first character set holds that one character. */
  lemma {:induction false} SingleCharString(s: seq<char>, c: char)
    requires |s| >= 2 && c != '\0'
    requires s[0] == c && forall i :: 1 <= i < |s| ==> s[i] == '\0'
    ensures CLength(s) == 1 && CString(s) == [c] && NulPadded(s)
  {
    assert s[1..][0] == '\0';
  }

  /** Writing one character over the terminator of a padded buffer appends it. */
  lemma {:induction false} AppendAtEnd(s: seq<char>, c: char)
    requires NulPadded(s) && c != '\0' && CLength(s) + 1 < |s|
    ensures NulPadded(s[CLength(s) := c])
    ensures CString(s[CLength(s) := c]) == CString(s) + [c]
  {
    var n := CLength(s);
    var t := s[n := c];
    forall i | 0 <= i <= n ensures t[i] != '\0' {
    }
    CLengthIs(t, n + 1);
    assert t[..n + 1] == s[..n] + [c];
  }

  /** The length of a string is fixed by its characters and its terminator. */
  lemma {:induction false} CLengthIs(s: seq<char>, n: nat)
    requires n <= |s|
    requires forall i :: 0 <= i < n ==> s[i] != '\0'
    requires n < |s| ==> s[n] == '\0'
    ensures CLength(s) == n
    decreases n
  {
    if n > 0 {
      CLengthIs(s[1..], n - 1);
    }
  }

  /** `strlen` on the buffer, character by character. */
  method StrLen(buffer: array<char>) returns (n: nat)
    requires CLength(buffer[..]) < buffer.Length
    ensures n == CLength(buffer[..])
  {
    n := 0;
    while buffer[n] != '\0'
      invariant n <= CLength(buffer[..])
      invariant forall i :: 0 <= i < n ==> buffer[i] != '\0'
      decreases CLength(buffer[..]) - n
    {
      n := n + 1;
    }
  }

  /**
   * `strncat(dst, src, 1)` with a one-character source: a NUL source
   * appends nothing; otherwise the character goes where the terminator was.
   */
  method StrNCat1(dst: array<char>, c: char)
    requires NulPadded(dst[..]) && CLength(dst[..]) + 1 < dst.Length
    modifies dst
    ensures NulPadded(dst[..])
    ensures CString(dst[..]) == old(CString(dst[..])) + (if c == '\0' then [] else [c])
  {
    var n := StrLen(dst);
    if c != '\0' {
      AppendAtEnd(dst[..], c);
      dst[n] := c;
      dst[n + 1] := '\0';
    }
  }
}

=== FILE: check_for_error.dfy ===
/**
 * The sentinel checks that the shared-memory transport runs after every OS
 * call of its constructors (gfx/shmem/check_for_error.hpp).
 *
 * `logAndAbort` never returns: a check either lets the caller continue or
 * ends the process. The model makes that outcome a value, and `AndThen`
 * chains checks so that nothing after an abort takes effect.
 */
module CheckForError {

  /** The caller continues, or the process logs `caller` and aborts. */
  datatype Outcome = Continue | Abort(caller: string)

  /** Pointers are 64-bit addresses. */
  const AddressSpace: int := 0x1_0000_0000_0000_0000
  type Address = a: int | 0 <= a < AddressSpace

  /** The default sentinel of the int overload. */
  const DefaultIntCode: int := -1

  /** The default sentinel of the pointer overload: `reinterpret_cast<void*>(-1)`. */
  const DefaultPointerCode: Address := AddressSpace - 1

  /** `checkForError(int, caller, errorCode = -1)`. */
  function CheckInt(returnValue: int, caller: string, errorCode: int := DefaultIntCode): (o: Outcome)
    ensures o.Abort? <==> returnValue == errorCode
    ensures o.Abort? ==> o.caller == caller
  {
    if returnValue == errorCode then Abort(caller) else Continue
  }

  /** `checkForError(void*, caller, errorCode = (void*)-1)`. */
  function CheckPointer(returnValue: Address, caller: string, errorCode: Address := DefaultPointerCode): (o: Outcome)
    ensures o.Abort? <==> returnValue == errorCode
    ensures o.Abort? ==> o.caller == caller
  {
    if returnValue == errorCode then Abort(caller) else Continue
  }

  /** Run `next` only when `first` returned: an abort ends everything. */
  function AndThen(first: Outcome, next: Outcome): (o: Outcome)
    ensures first.Abort? ==> o == first
    ensures first == Continue ==> o == next
  {
    if first.Abort? then first else next
  }

  /** The int check with its default sentinel aborts on -1 and on nothing else. */
  lemma DefaultIntSentinel(returnValue: int, caller: string)
    ensures CheckInt(returnValue, caller) == Continue <==> returnValue != -1
  {
  }

  /** The pointer check with its default sentinel aborts only on the all-ones address. */
  lemma DefaultPointerSentinel(returnValue: Address, caller: string)
    ensures CheckPointer(returnValue, caller) == Continue <==> returnValue != 0xFFFF_FFFF_FFFF_FFFF
  {
  }
}

=== FILE: dummy_texture.dfy ===
/**
 * The banded test texture of gfx/applications/dummy_texture.cpp.
 *
 * `get` fills a 512 x 512 RGBA byte array with four horizontal bands,
 * white, blue, black and red from the top, by four calls of `fillRows`,
 * which writes the four channel bytes of every pixel of a range of rows.
 * The colours are given as their bytes: the float-to-byte conversion of
 * channels that are exactly 0.0 or 1.0 is not modelled.
 */
module DummyTexture {

  import opened Arithmetic

  type Byte = b: int | 0 <= b < 256

  /** Bytes per pixel: red, green, blue, alpha. */
  const Channels: nat := 4

  /** `size` of dummy_texture.hpp. */
  const Width: nat := 512
  const Height: nat := 512

  /** The length of `TextureData`. */
  const DataSize: nat := Width * Height * Channels

  /** The rows of one band. */
  const QuarterHeight: nat := Height / 4

  /** A colour as the four bytes `floatToUint8` gives for its channels. */
  datatype Rgba = Rgba(red: Byte, green: Byte, blue: Byte, alpha: Byte)

  /** `Color{0xRRGGBB}` keeps the default alpha 1.0, which becomes 255. */
  const Red: Rgba := Rgba(255, 0, 0, 255)
  const White: Rgba := Rgba(255, 255, 255, 255)
  const Black: Rgba := Rgba(0, 0, 0, 255)
  const Blue: Rgba := Rgba(0, 0, 255, 255)

  /** Channel `c` of a colour, in the order of the bytes of a pixel. */
  function ChannelOf(color: Rgba, c: nat): Byte
    requires c < Channels
  {
    if c == 0 then color.red else if c == 1 then color.green else if c == 2 then color.blue else color.alpha
  }

  // ---------------------------------------------------------------------
  // Byte positions
  // ---------------------------------------------------------------------

  /** The byte `x * 4 + y * width * 4 + c` that `fillRows` writes. */
  function Index(x: nat, y: nat, c: nat, width: nat): nat {
    x * 4 + y * width * 4 + c
  }

  /** The row of the pixel that byte `i` belongs to. */
  function RowOf(i: nat, width: nat): nat
    requires width > 0
  {
    (i / Channels) / width
  }

  /** The column of the pixel that byte `i` belongs to. */
  function ColumnOf(i: nat, width: nat): (x: nat)
    requires width > 0
    ensures x < width
  {
    (i / Channels) % width
  }

  /** The byte written for channel `c` of pixel (x, y) lies in row y, column x. */
  lemma IndexParts(x: nat, y: nat, c: nat, width: nat)
    requires x < width && c < Channels
    ensures var i := Index(x, y, c, width);
      RowOf(i, width) == y && ColumnOf(i, width) == x && i % Channels == c
  {
    var p := x + y * width;
    assert Index(x, y, c, width) == 4 * p + c;
    DivModUnique(4 * p + c, 4, p, c);
    DivModUnique(p, width, y, x);
  }

  /** Byte `i` belongs to pixel `x + y * width` exactly when it lies in row y and column x. */
  lemma PixelOf(i: nat, width: nat, x: nat, y: nat)
    requires x < width
    ensures i / Channels == x + y * width <==> RowOf(i, width) == y && ColumnOf(i, width) == x
  {
    var p := i / Channels;
    if p == x + y * width {
      DivModUnique(p, width, y, x);
    }
  }

  /** A pixel of a row before `end` has its last byte below `4 * end * width`. */
  lemma IndexBound(x: nat, y: nat, c: nat, width: nat, end: nat)
    requires x < width && y < end && c < Channels
    ensures Index(x, y, c, width) < end * width * Channels
  {
    var k: nat := end - (y + 1);
    var rest := k * width;
    assert Index(x, y, c, width) == 4 * (x + y * width) + c;
    assert end * width == y * width + width + rest;
    assert end * width * Channels == 4 * (y * width) + 4 * width + 4 * rest;
  }

  /** Every byte `get` writes lies inside `TextureData`. */
  lemma WrittenIndexInside(x: nat, y: nat, c: nat)
    requires x < Width && y < Height && c < Channels
    ensures Index(x, y, c, Width) < DataSize
  {
    IndexBound(x, y, c, Width, Height);
  }

  // ---------------------------------------------------------------------
  // fillRows
  // ---------------------------------------------------------------------

  /** Byte `i` is in one of the rows `begin` to `end - 1`. */
  predicate InRows(i: nat, begin: nat, end: nat, width: nat) {
    width > 0 && begin <= RowOf(i, width) < end
  }

  /** The bytes written once the columns before `x`, and rows `begin` to `y - 1` of column `x`, are done. */
  predicate Done(i: nat, begin: nat, end: nat, width: nat, x: nat, y: nat) {
    InRows(i, begin, end, width) &&
    (ColumnOf(i, width) < x || (ColumnOf(i, width) == x && RowOf(i, width) < y))
  }

  /** The four channel bytes of pixel (x, y). */
  method WritePixel(data: array<Byte>, x: nat, y: nat, color: Rgba, width: nat)
    requires x < width && 4 * (x + y * width) + 3 < data.Length
    modifies data
    ensures forall i :: 0 <= i < data.Length ==>
      data[i] == if i / Channels == x + y * width then ChannelOf(color, i % Channels) else old(data[i])
  {
    var base := x * 4 + y * width * 4;
    data[base + 0] := color.red;
    data[base + 1] := color.green;
    data[base + 2] := color.blue;
    data[base + 3] := color.alpha;
  }

  /**
   * `fillRows`: every byte of rows `begin` to `end - 1` becomes its
   * channel of `color`; every other byte keeps its value. Columns are the
   * outer loop, rows the inner one.
   */
  method FillRows(data: array<Byte>, begin: nat, end: nat, color: Rgba, width: nat)
    requires begin < end ==> end * width * Channels <= data.Length
    modifies data
    ensures forall i :: 0 <= i < data.Length ==>
      data[i] == if InRows(i, begin, end, width) then ChannelOf(color, i % Channels) else old(data[i])
  {
    var x := 0;
    while x < width
      invariant x <= width
      invariant forall i :: 0 <= i < data.Length ==>
        data[i] == if Done(i, begin, end, width, x, begin) then ChannelOf(color, i % Channels) else old(data[i])
    {
      var y := begin;
      while y < end
        invariant begin <= y && (y <= end || y == begin)
        invariant forall i :: 0 <= i < data.Length ==>
          data[i] == if Done(i, begin, end, width, x, y) then ChannelOf(color, i % Channels) else old(data[i])
      {
        IndexBound(x, y, 3, width, end);
        WritePixel(data, x, y, color, width);
        forall i | 0 <= i < data.Length
          ensures Done(i, begin, end, width, x, y + 1) <==>
            Done(i, begin, end, width, x, y) || i / Channels == x + y * width
        {
          PixelOf(i, width, x, y);
        }
        y := y + 1;
      }
      x := x + 1;
    }
  }

  // ---------------------------------------------------------------------
  // get
  // ---------------------------------------------------------------------

  /** The band of a row: 0 white, 1 blue, 2 black, 3 red. */
  function Band(row: nat): nat {
    row / QuarterHeight
  }

  function BandColor(row: nat): Rgba {
    var band := Band(row);
    if band == 0 then White else if band == 1 then Blue else if band == 2 then Black else Red
  }

  /** Every row of the texture lies in exactly one of the four bands of 128 rows. */
  lemma BandOfRow(row: nat, k: nat)
    requires row < Height
    ensures Band(row) < 4 && Band(row) * QuarterHeight <= row < (Band(row) + 1) * QuarterHeight
    ensures k * QuarterHeight <= row < (k + 1) * QuarterHeight <==> k == Band(row)
  {
    assert QuarterHeight == 128;
    if k * 128 <= row < (k + 1) * 128 {
      DivModUnique(row, 128, k, row - k * 128);
    }
  }

  /** Byte `i` of the texture `get` returns. */
  function TexelByte(i: nat): Byte {
    ChannelOf(BandColor(RowOf(i, Width)), i % Channels)
  }

  /** Every alpha byte of the texture is 255. */
  lemma AlphaOpaque(i: nat)
    requires i % Channels == 3
    ensures TexelByte(i) == 255
  {
  }

  /** Channel bytes of the four bands: white, blue, black and red from the top. */
  lemma BandBytes(x: nat, y: nat, c: nat)
    requires x < Width && y < Height && c < Channels
    ensures var b := TexelByte(Index(x, y, c, Width));
      (y < 128 ==> b == 255) &&
      (128 <= y < 256 ==> b == (if c == 0 || c == 1 then 0 else 255)) &&
      (256 <= y < 384 ==> b == (if c == 3 then 255 else 0)) &&
      (384 <= y ==> b == (if c == 1 || c == 2 then 0 else 255))
  {
    IndexParts(x, y, c, Width);
  }

  /** Rows of one band after the fills of all four bands. */
  lemma FourFills(i: nat)
    requires i < DataSize
    ensures var row := RowOf(i, Width);
      row < Height &&
      (InRows(i, 3 * QuarterHeight, 4 * QuarterHeight, Width) <==> Band(row) == 3) &&
      (InRows(i, 2 * QuarterHeight, 3 * QuarterHeight, Width) <==> Band(row) == 2) &&
      (InRows(i, QuarterHeight, 2 * QuarterHeight, Width) <==> Band(row) == 1) &&
      (InRows(i, 0, QuarterHeight, Width) <==> Band(row) == 0)
  {
    DivModUnique(i / Channels, Width, RowOf(i, Width), ColumnOf(i, Width));
    assert i / Channels < Width * Height;
    BandOfRow(RowOf(i, Width), 0);
  }

  /** `get`: the zeroed array, filled band by band. */
  method Get() returns (data: array<Byte>)
    ensures fresh(data) && data.Length == DataSize
    ensures forall i :: 0 <= i < DataSize ==> data[i] == TexelByte(i)
  {
    data := new Byte[DataSize](_ => 0);
    FillRows(data, 0, QuarterHeight, White, Width);
    FillRows(data, QuarterHeight, QuarterHeight * 2, Blue, Width);
    FillRows(data, QuarterHeight * 2, QuarterHeight * 3, Black, Width);
    FillRows(data, QuarterHeight * 3, QuarterHeight * 4, Red, Width);
    forall i | 0 <= i < DataSize ensures data[i] == TexelByte(i) {
      FourFills(i);
    }
  }
}

=== FILE: find_comments.dfy ===
/**
 * The comment checker of tools/find_comments/find_comments.py.
 *
 * Every `.cpp` and `.hpp` file is split into lines; a line that holds
 * "//" and none of the lint-suppression markers is reported as
 * "<file name>:<n> <line>", where n numbers the reported lines of that
 * file from 0, and the checker returns how many lines it reported. The
 * directory walk is replaced by the list of files it would find, each
 * with its path and its text, and the printed lines are returned.
 */
module FindComments {

  import opened Strings
  import Decimal

  // ---------------------------------------------------------------------
  // Allowed comments
  // ---------------------------------------------------------------------

  /** `ALLOWED_PATTERNS`: the regular expressions, all literal text. */
  const AllowedPatterns: seq<string> :=
    ["NOLINT(", "NOLINTNEXTLINE(", "NOLINTBEGIN(", "NOLINTEND(", "IWYU pragma"]

  /** The line holds one of the allowed patterns. */
  predicate Allowed(line: string) {
    exists n :: 0 <= n < |AllowedPatterns| && Contains(line, AllowedPatterns[n])
  }

  /** `is_allowed`: the flag is set by every pattern found in the line. */
  method IsAllowed(line: string) returns (result: bool)
    ensures result <==> Allowed(line)
  {
    result := false;
    for n := 0 to |AllowedPatterns|
      invariant result <==> exists m :: 0 <= m < n && Contains(line, AllowedPatterns[m])
    {
      if Contains(line, AllowedPatterns[n]) {
        result := true;
      }
    }
  }

  /** A line that the two `where` filters keep: a comment that is not allowed. */
  predicate Counted(line: string) {
    Contains(line, "//") && !Allowed(line)
  }

  /** The lines kept by the filters, in their order. */
  function Flagged(lines: seq<string>): (kept: seq<string>)
    ensures |kept| <= |lines|
  {
    if lines == [] then []
    else (if Counted(lines[0]) then [lines[0]] else []) + Flagged(lines[1..])
  }

  /** A line is kept exactly when it is one of the lines and counted. */
  lemma {:induction false} FlaggedMembers(lines: seq<string>, line: string)
    ensures line in Flagged(lines) <==> line in lines && Counted(line)
  {
    if lines != [] {
      FlaggedMembers(lines[1..], line);
      assert lines == [lines[0]] + lines[1..];
    }
  }

  /** Filtering two blocks of lines filters each block. */
  lemma {:induction false} FlaggedAppend(a: seq<string>, b: seq<string>)
    ensures Flagged(a + b) == Flagged(a) + Flagged(b)
  {
    if a == [] {
      assert a + b == b;
    } else {
      var head := if Counted(a[0]) then [a[0]] else [];
      assert (a + b)[0] == a[0] && (a + b)[1..] == a[1..] + b;
      FlaggedAppend(a[1..], b);
      assert Flagged(a + b) == head + (Flagged(a[1..]) + Flagged(b));
      assert head + (Flagged(a[1..]) + Flagged(b)) == (head + Flagged(a[1..])) + Flagged(b);
    }
  }

  // ---------------------------------------------------------------------
  // Splitting a file into lines
  // ---------------------------------------------------------------------

  /** The line boundaries of Python's `str.splitlines`. */
  predicate IsLineBreak(c: char) {
    c == '\n' || c == '\r' || c == '\U{0B}' || c == '\U{0C}' || c == '\U{1C}' ||
    c == '\U{1D}' || c == '\U{1E}' || c == '\U{85}' || c == '\U{2028}' || c == '\U{2029}'
  }

  predicate BreakFree(line: string) {
    forall k :: 0 <= k < |line| ==> !IsLineBreak(line[k])
  }

  /** The first line boundary at or after `i`, or the end of the text. */
  function LineEnd(s: string, i: nat): (j: nat)
    requires i <= |s|
    ensures i <= j <= |s| && (j == |s| || IsLineBreak(s[j]))
    ensures forall k :: i <= k < j ==> !IsLineBreak(s[k])
    decreases |s| - i
  {
    if i == |s| || IsLineBreak(s[i]) then i else LineEnd(s, i + 1)
  }

  /** "\r\n" is one boundary; every other boundary is one character. */
  function BreakLength(s: string, j: nat): (n: nat)
    requires j < |s|
    ensures 1 <= n && j + n <= |s|
  {
    if s[j] == '\r' && j + 1 < |s| && s[j + 1] == '\n' then 2 else 1
  }

  /** `str.splitlines()`: the lines without their boundaries; a final boundary ends the last line. */
  function SplitLines(s: string): (lines: seq<string>)
    ensures forall n :: 0 <= n < |lines| ==> BreakFree(lines[n])
    decreases |s|
  {
    if s == [] then []
    else
      var j := LineEnd(s, 0);
      if j == |s| then [s] else [s[..j]] + SplitLines(s[j + BreakLength(s, j)..])
  }

  /** Lines written one after another, each followed by `ending`. */
  function JoinLines(lines: seq<string>, ending: string): string {
    if lines == [] then [] else lines[0] + ending + JoinLines(lines[1..], ending)
  }

  /** The line endings that `splitlines` reads back as one boundary. */
  predicate IsLineEnding(ending: string) {
    ending == "\n" || ending == "\r\n" || ending == "\r"
  }

  lemma LineEndAt(s: string, i: nat, j: nat)
    requires i <= j < |s| && IsLineBreak(s[j])
    requires forall k :: i <= k < j ==> !IsLineBreak(s[k])
    ensures LineEnd(s, i) == j
    decreases j - i
  {
  }

  /** One line, its ending and the text after it split into the line and the rest's lines. */
  lemma SplitStep(line: string, ending: string, rest: string)
    requires IsLineEnding(ending) && BreakFree(line)
    requires ending == "\r" && rest != [] ==> rest[0] != '\n'
    ensures SplitLines(line + ending + rest) == [line] + SplitLines(rest)
  {
    var s := line + ending + rest;
    assert s == line + (ending + rest);
    assert s[|line|] == ending[0];
    LineEndAt(s, 0, |line|);
    if ending == "\r\n" {
      assert s[|line| + 1] == '\n';
    } else if ending == "\r" && rest != [] {
      assert s[|line| + 1] == rest[0];
    }
    assert BreakLength(s, |line|) == |ending|;
    assert s[|line| + |ending|..] == rest;
    assert s[..|line|] == line;
  }

  /** Written lines start with the first line, or with the ending when that line is empty. */
  lemma JoinStart(lines: seq<string>, ending: string)
    requires IsLineEnding(ending) && lines != [] && BreakFree(lines[0])
    ensures var text := JoinLines(lines, ending);
      text != [] && (text[0] == ending[0] || !IsLineBreak(text[0]))
  {
    var text := JoinLines(lines, ending);
    assert text == lines[0] + (ending + JoinLines(lines[1..], ending));
    if lines[0] != [] {
      assert text[0] == lines[0][0];
    }
  }

  /** Splitting lines that were written with a line ending gives the lines back. */
  lemma {:induction false} SplitJoin(lines: seq<string>, ending: string)
    requires IsLineEnding(ending)
    requires forall n :: 0 <= n < |lines| ==> BreakFree(lines[n])
    ensures SplitLines(JoinLines(lines, ending)) == lines
  {
    if lines != [] {
      var rest := lines[1..];
      assert forall n :: 0 <= n < |rest| ==> BreakFree(rest[n]) by {
        forall n | 0 <= n < |rest| ensures BreakFree(rest[n]) {
          assert rest[n] == lines[n + 1];
        }
      }
      if rest != [] {
        JoinStart(rest, ending);
      }
      assert JoinLines(lines, ending) == lines[0] + ending + JoinLines(rest, ending);
      SplitStep(lines[0], ending, JoinLines(rest, ending));
      SplitJoin(rest, ending);
      assert [lines[0]] + rest == lines;
    }
  }

  // ---------------------------------------------------------------------
  // The check over a list of files
  // ---------------------------------------------------------------------

  /** A file the directory walk found: its path and its text. */
  datatype SourceFile = SourceFile(path: string, content: string)

  predicate EndsWith(s: string, suffix: string) {
    |suffix| <= |s| && s[|s| - |suffix|..] == suffix
  }

  /** Only C++ sources and headers are read. */
  predicate IsChecked(path: string) {
    EndsWith(path, ".cpp") || EndsWith(path, ".hpp")
  }

  /** `Path.name`: the text after the last '/'. */
  function BaseName(path: string): (name: string)
    ensures '/' !in name && EndsWith(path, name)
  {
    if path == [] || path[|path| - 1] == '/' then []
    else
      var name := BaseName(path[..|path| - 1]) + [path[|path| - 1]];
      assert path[|path| - |name|..] == path[|path| - |name|..|path| - 1] + [path[|path| - 1]];
      name
  }

  /** The lines of one file that the check reports. */
  function FileFlagged(f: SourceFile): (kept: seq<string>)
    ensures !IsChecked(f.path) ==> kept == []
  {
    if IsChecked(f.path) then Flagged(SplitLines(f.content)) else []
  }

  /** The printed line for the `i`-th reported line of a file. */
  function ReportLine(name: string, i: nat, line: string): string {
    name + ":" + Decimal.NatToString(i) + " " + line
  }

  /** The printed lines of one file, numbered from 0 in the filtered list. */
  function FileReport(f: SourceFile): (r: seq<string>)
    ensures |r| == |FileFlagged(f)|
  {
    var kept := FileFlagged(f);
    seq(|kept|, i requires 0 <= i < |kept| => ReportLine(BaseName(f.path), i, kept[i]))
  }

  /** The number of lines reported for a list of files. */
  function Occurrences(files: seq<SourceFile>): nat {
    if files == [] then 0 else Occurrences(files[..|files| - 1]) + |FileFlagged(files[|files| - 1])|
  }

  /** Everything printed for a list of files, file by file. */
  function Report(files: seq<SourceFile>): seq<string> {
    if files == [] then [] else Report(files[..|files| - 1]) + FileReport(files[|files| - 1])
  }

  /** One printed line per occurrence. */
  lemma {:induction false} ReportLength(files: seq<SourceFile>)
    ensures |Report(files)| == Occurrences(files)
  {
    if files != [] {
      ReportLength(files[..|files| - 1]);
    }
  }

  /** The count of two lists of files is the sum of their counts. */
  lemma {:induction false} OccurrencesAppend(a: seq<SourceFile>, b: seq<SourceFile>)
    ensures Occurrences(a + b) == Occurrences(a) + Occurrences(b)
    decreases |b|
  {
    if b == [] {
      assert a + b == a;
    } else {
      assert (a + b)[..|a + b| - 1] == a + b[..|b| - 1];
      OccurrencesAppend(a, b[..|b| - 1]);
    }
  }

  /** A file that is neither a `.cpp` nor a `.hpp` adds nothing. */
  lemma UncheckedFileIgnored(files: seq<SourceFile>, f: SourceFile)
    requires !IsChecked(f.path)
    ensures Occurrences(files + [f]) == Occurrences(files)
    ensures Report(files + [f]) == Report(files)
  {
    assert (files + [f])[..|files|] == files;
  }

  /** The header `print_checks` writes before the results. */
  const ResultsBanner: string := "============== RESULTS ==============="

  /** `FindComments`: the files found under the directory. */
  class Checker {
    const filepaths: seq<SourceFile>

    constructor (files: seq<SourceFile>)
      ensures filepaths == files
    {
      filepaths := files;
    }

    /** `print_checks`: the banner, then the results of `_check`. */
    method PrintChecks() returns (occurences: nat, output: seq<string>)
      ensures occurences == Occurrences(filepaths) == |output| - 1
      ensures output == [ResultsBanner] + Report(filepaths)
    {
      var report;
      occurences, report := Check();
      output := [ResultsBanner] + report;
    }

    /** `_check`: counts and prints the flagged lines of every C++ file. */
    method Check() returns (occurences: nat, report: seq<string>)
      ensures occurences == Occurrences(filepaths)
      ensures report == Report(filepaths) && |report| == occurences
    {
      occurences, report := 0, [];
      for n := 0 to |filepaths|
        invariant occurences == Occurrences(filepaths[..n])
        invariant report == Report(filepaths[..n])
      {
        var f := filepaths[n];
        ghost var before, printed := report, FileReport(f);
        if EndsWith(f.path, ".cpp") || EndsWith(f.path, ".hpp") {
          var result := Flagged(SplitLines(f.content));
          assert result == FileFlagged(f) && |printed| == |result|;
          for i := 0 to |result|
            invariant occurences == Occurrences(filepaths[..n]) + i
            invariant report == before + printed[..i]
          {
            occurences := occurences + 1;
            report := report + [ReportLine(BaseName(f.path), i, result[i])];
            assert printed[i] == ReportLine(BaseName(f.path), i, result[i]);
            assert printed[..i + 1] == printed[..i] + [printed[i]];
          }
          assert printed[..|result|] == printed;
        } else {
          assert FileFlagged(f) == [] && printed == [];
        }
        PrefixStep(filepaths, n);
      }
      assert filepaths[..|filepaths|] == filepaths;
      ReportLength(filepaths);
    }
  }

  /** One more file adds its own count and its own printed lines. */
  lemma PrefixStep(files: seq<SourceFile>, n: nat)
    requires n < |files|
    ensures Occurrences(files[..n + 1]) == Occurrences(files[..n]) + |FileFlagged(files[n])|
    ensures Report(files[..n + 1]) == Report(files[..n]) + FileReport(files[n])
  {
    assert files[..n + 1][..n] == files[..n];
  }

  // ---------------------------------------------------------------------
  // The test tree
  // ---------------------------------------------------------------------

  /** No two adjacent characters of `s` are `pat[j]` then `pat[j + 1]`, so `pat` is absent. */
  lemma AbsentPair(s: string, pat: string, j: nat)
    requires j + 1 < |pat|
    requires forall k :: 0 < k < |s| ==> s[k - 1] != pat[j] || s[k] != pat[j + 1]
    ensures !Contains(s, pat)
  {
    forall i | 0 <= i && i + |pat| <= |s| ensures !OccursAt(s, pat, i) {
      assert s[i..i + |pat|][j] == s[i + j] && s[i..i + |pat|][j + 1] == s[i + j + 1];
    }
    ContainsIffOccurs(s, pat);
  }

  /** Two adjacent characters that end one NOLINT marker or start "IWYU pragma". */
  predicate MarkerPair(a: char, b: char) {
    (b == '(' && (a == 'T' || a == 'E' || a == 'N' || a == 'D')) || (a == 'I' && b == 'W')
  }

  predicate NoMarkerPair(s: string) {
    forall k :: 0 < k < |s| ==> !MarkerPair(s[k - 1], s[k])
  }

  /** Text joined from two pieces has a marker pair only inside a piece or at the seam. */
  lemma NoMarkerPairJoin(a: string, b: string)
    requires NoMarkerPair(a) && NoMarkerPair(b)
    requires a == [] || b == [] || !MarkerPair(a[|a| - 1], b[0])
    ensures NoMarkerPair(a + b)
  {
    forall k | 0 < k < |a + b| ensures !MarkerPair((a + b)[k - 1], (a + b)[k]) {
      if k > |a| {
        assert (a + b)[k - 1] == b[k - 1 - |a|] && (a + b)[k] == b[k - |a|];
      }
    }
  }

  /** Text without '(' and 'W' has no marker pair. */
  lemma NoMarkerPairWithout(s: string)
    requires '(' !in s && 'W' !in s
    ensures NoMarkerPair(s)
  {
  }

  /**
   * A comment with no marker pair, so none of the five allowed patterns
   * can occur in it, is counted.
   */
  lemma CountedComment(line: string, at: nat)
    requires OccursAt(line, "//", at)
    requires NoMarkerPair(line)
    ensures Counted(line)
  {
    ContainsIffOccurs(line, "//");
    AbsentPair(line, AllowedPatterns[0], 5);
    AbsentPair(line, AllowedPatterns[1], 13);
    AbsentPair(line, AllowedPatterns[2], 10);
    AbsentPair(line, AllowedPatterns[3], 8);
    AbsentPair(line, AllowedPatterns[4], 0);
  }

  /** A line holding allowed pattern `n` is not counted. */
  lemma AllowedLine(line: string, n: nat, at: nat)
    requires n < |AllowedPatterns| && OccursAt(line, AllowedPatterns[n], at)
    ensures !Counted(line)
  {
    ContainsIffOccurs(line, AllowedPatterns[n]);
  }

  /** A line without "//" is not counted. */
  lemma NoComment(line: string)
    requires forall k :: 0 < k < |line| ==> line[k - 1] != '/' || line[k] != '/'
    ensures !Counted(line)
  {
    AbsentPair(line, "//", 0);
  }

  /** Printable ASCII text has no line boundary. */
  lemma PrintableBreakFree(line: string)
    requires forall k :: 0 <= k < |line| ==> ' ' <= line[k] <= '~'
    ensures BreakFree(line)
  {
  }

  /** Two pieces without a line boundary make a line without one. */
  lemma BreakFreeJoin(a: string, b: string)
    requires BreakFree(a) && BreakFree(b)
    ensures BreakFree(a + b)
  {
    forall k | 0 <= k < |a + b| ensures !IsLineBreak((a + b)[k]) {
      if k >= |a| {
        assert (a + b)[k] == b[k - |a|];
      }
    }
  }

  /** A marker between two pieces of text occurs where it was put. */
  lemma OccursBetween(before: string, pat: string, after: string)
    ensures OccursAt(before + pat + after, pat, |before|)
  {
    assert (before + pat + after)[|before|..|before| + |pat|] == pat;
  }

  // The lines of the test tree: whether each is counted, and that none
  // holds a line boundary.

  lemma BareNolint(line: string)
    requires line == "// NOLINT"
    ensures Counted(line) && BreakFree(line)
  {
    assert OccursAt(line, "//", 0) && NoMarkerPair(line) by { NoMarkerPairWithout(line); }
    CountedComment(line, 0);
    PrintableBreakFree(line);
  }

  lemma SpacedNolintMarkers(line: string)
    requires line == "// NOLINT ("
    ensures OccursAt(line, "//", 0) && NoMarkerPair(line)
  {
    assert line == "// NOLINT" + " (";
    NoMarkerPairWithout("// NOLINT");
    NoMarkerPairJoin("// NOLINT", " (");
  }

  lemma SpacedNolint(line: string)
    requires line == "// NOLINT ("
    ensures Counted(line) && BreakFree(line)
  {
    SpacedNolintMarkers(line);
    CountedComment(line, 0);
    PrintableBreakFree(line);
  }

  lemma BareNolintEnd(line: string)
    requires line == "// NOLINTEND"
    ensures Counted(line) && BreakFree(line)
  {
    assert OccursAt(line, "//", 0) && NoMarkerPair(line) by { NoMarkerPairWithout(line); }
    CountedComment(line, 0);
    PrintableBreakFree(line);
  }

  lemma NolintLine(line: string)
    requires line == "// NOLINT()"
    ensures !Counted(line)
  {
    assert line == "// " + AllowedPatterns[0] + ")";
    OccursBetween("// ", AllowedPatterns[0], ")");
    AllowedLine(line, 0, 3);
  }

  lemma NolintLineBreakFree(line: string)
    requires line == "// NOLINT()"
    ensures BreakFree(line)
  {
    PrintableBreakFree(line);
  }

  lemma NolintBeginLine(line: string)
    requires line == "// NOLINTBEGIN(somerule)"
    ensures !Counted(line)
  {
    assert line == "// " + AllowedPatterns[2] + "somerule)";
    OccursBetween("// ", AllowedPatterns[2], "somerule)");
    AllowedLine(line, 2, 3);
  }

  lemma NolintBeginLineBreakFree(line: string)
    requires line == "// NOLINTBEGIN(somerule)"
    ensures BreakFree(line)
  {
    PrintableBreakFree(line);
  }

  lemma NolintNextLineLine(line: string)
    requires line == "// NOLINTNEXTLINE(somerule)"
    ensures !Counted(line)
  {
    assert line == "// " + AllowedPatterns[1] + "somerule)";
    OccursBetween("// ", AllowedPatterns[1], "somerule)");
    AllowedLine(line, 1, 3);
  }

  lemma NolintNextLineLineBreakFree(line: string)
    requires line == "// NOLINTNEXTLINE(somerule)"
    ensures BreakFree(line)
  {
    PrintableBreakFree(line);
  }

  lemma NolintEndLine(line: string)
    requires line == "// NOLINTEND(somerule)"
    ensures !Counted(line)
  {
    assert line == "// " + AllowedPatterns[3] + "somerule)";
    OccursBetween("// ", AllowedPatterns[3], "somerule)");
    AllowedLine(line, 3, 3);
  }

  lemma NolintEndLineBreakFree(line: string)
    requires line == "// NOLINTEND(somerule)"
    ensures BreakFree(line)
  {
    PrintableBreakFree(line);
  }

  lemma MainLine(line: string)
    requires line == "int main() // NOLINT()"
    ensures !Counted(line)
  {
    assert line == "int main() // " + AllowedPatterns[0] + ")";
    OccursBetween("int main() // ", AllowedPatterns[0], ")");
    AllowedLine(line, 0, 14);
  }

  lemma MainLineBreakFree(line: string)
    requires line == "int main() // NOLINT()"
    ensures BreakFree(line)
  {
    PrintableBreakFree(line);
  }

  lemma IncludeLine(line: string)
    requires line == "#include <somestuff> // IWYU pragma: keep"
    ensures !Counted(line)
  {
    assert line == "#include <somestuff> // " + AllowedPatterns[4] + ": keep";
    OccursBetween("#include <somestuff> // ", AllowedPatterns[4], ": keep");
    AllowedLine(line, 4, 24);
  }

  lemma IncludeLineBreakFree(line: string)
    requires line == "#include <somestuff> // IWYU pragma: keep"
    ensures BreakFree(line)
  {
    var code, comment := "#include <somestuff> // ", "IWYU pragma: keep";
    assert line == code + comment;
    PrintableBreakFree(code);
    PrintableBreakFree(comment);
    BreakFreeJoin(code, comment);
  }

  lemma LoopNolintEndLine(line: string)
    requires line == "for(int i; i < 1; ++i) // NOLINTEND(somerule)"
    ensures !Counted(line)
  {
    assert line == "for(int i; i < 1; ++i) // " + AllowedPatterns[3] + "somerule)";
    OccursBetween("for(int i; i < 1; ++i) // ", AllowedPatterns[3], "somerule)");
    AllowedLine(line, 3, 26);
  }

  lemma LoopNolintEndLineBreakFree(line: string)
    requires line == "for(int i; i < 1; ++i) // NOLINTEND(somerule)"
    ensures BreakFree(line)
  {
    var code, comment := "for(int i; i < 1; ++i) // ", "NOLINTEND(somerule)";
    assert line == code + comment;
    PrintableBreakFree(code);
    PrintableBreakFree(comment);
    BreakFreeJoin(code, comment);
  }

  lemma LoopCommentMiddle(middle: string)
    requires middle == "int i; i < 1; ++i) // NOLINT"
    ensures NoMarkerPair(middle)
  {
    NoMarkerPairWithout(middle);
  }

  lemma LoopCommentMarkers(line: string)
    requires line == "for(int i; i < 1; ++i) // NOLINT ("
    ensures NoMarkerPair(line)
  {
    var head, middle := "for(", "int i; i < 1; ++i) // NOLINT";
    assert line == head + middle + " (";
    LoopCommentMiddle(middle);
    NoMarkerPairJoin(head, middle);
    NoMarkerPairJoin(head + middle, " (");
  }

  lemma LoopCommentAt(line: string)
    requires line == "for(int i; i < 1; ++i) // NOLINT ("
    ensures OccursAt(line, "//", 23)
  {
    assert line == "for(int i; i < 1; ++i) " + "//" + " NOLINT (";
    OccursBetween("for(int i; i < 1; ++i) ", "//", " NOLINT (");
  }

  lemma LoopCommentLine(line: string)
    requires line == "for(int i; i < 1; ++i) // NOLINT ("
    ensures Counted(line)
  {
    LoopCommentMarkers(line);
    LoopCommentAt(line);
    CountedComment(line, 23);
  }

  lemma LoopCommentLineBreakFree(line: string)
    requires line == "for(int i; i < 1; ++i) // NOLINT ("
    ensures BreakFree(line)
  {
    PrintableBreakFree(line);
  }

  lemma StructCommentAt(line: string)
    requires line == "struct S // NOLINTEND"
    ensures OccursAt(line, "//", 9)
  {
    assert line == "struct S " + "//" + " NOLINTEND";
    OccursBetween("struct S ", "//", " NOLINTEND");
  }

  lemma StructMarkers(line: string)
    requires line == "struct S // NOLINTEND"
    ensures NoMarkerPair(line)
  {
    NoMarkerPairWithout(line);
  }

  lemma StructLine(line: string)
    requires line == "struct S // NOLINTEND"
    ensures Counted(line)
  {
    StructCommentAt(line);
    StructMarkers(line);
    CountedComment(line, 9);
  }

  lemma StructLineBreakFree(line: string)
    requires line == "struct S // NOLINTEND"
    ensures BreakFree(line)
  {
    PrintableBreakFree(line);
  }

  /** The lines of the test tree's header, each written with "\n". */
  predicate DummyHeaderLines(lines: seq<string>) {
    |lines| == 11 &&
    lines[0] == "// NOLINT()" && lines[1] == "" && lines[2] == "// NOLINT" &&
    lines[3] == "// NOLINTBEGIN(somerule)" && lines[4] == "" && lines[5] == "// NOLINT (" &&
    lines[6] == "// NOLINTNEXTLINE(somerule)" && lines[7] == "" &&
    lines[8] == "// NOLINTEND(somerule)" && lines[9] == "// NOLINTEND" && lines[10] == ""
  }

  /** The lines of the test tree's source file, each written with "\n". */
  predicate DummySourceLines(lines: seq<string>) {
    |lines| == 9 &&
    lines[0] == "for(int i; i < 1; ++i) // NOLINT (" && lines[1] == "int main() // NOLINT()" &&
    lines[2] == "" && lines[3] == "#include <somestuff> // IWYU pragma: keep" &&
    lines[4] == "" && lines[5] == "" &&
    lines[6] == "for(int i; i < 1; ++i) // NOLINTEND(somerule)" &&
    lines[7] == "struct S // NOLINTEND" && lines[8] == ""
  }

  /** Filtering from line `k` on: line `k` if it is counted, then the rest. */
  lemma FlaggedFrom(lines: seq<string>, k: nat)
    requires k < |lines|
    ensures Flagged(lines[k..]) == (if Counted(lines[k]) then [lines[k]] else []) + Flagged(lines[k + 1..])
  {
    assert lines[k..][1..] == lines[k + 1..];
  }

  /** Eleven lines of which the third, sixth and tenth are counted. */
  lemma FlaggedHeaderShape(lines: seq<string>)
    requires |lines| == 11 && Counted(lines[2]) && Counted(lines[5]) && Counted(lines[9])
    requires !Counted(lines[0]) && !Counted(lines[1]) && !Counted(lines[3]) && !Counted(lines[4])
    requires !Counted(lines[6]) && !Counted(lines[7]) && !Counted(lines[8]) && !Counted(lines[10])
    ensures Flagged(lines) == [lines[2], lines[5], lines[9]]
  {
    assert lines[11..] == [];
    FlaggedFrom(lines, 10);
    FlaggedFrom(lines, 9);
    assert Flagged(lines[9..]) == [lines[9]];
    FlaggedFrom(lines, 8);
    FlaggedFrom(lines, 7);
    FlaggedFrom(lines, 6);
    assert Flagged(lines[6..]) == [lines[9]];
    FlaggedFrom(lines, 5);
    FlaggedFrom(lines, 4);
    FlaggedFrom(lines, 3);
    assert Flagged(lines[3..]) == [lines[5], lines[9]];
    FlaggedFrom(lines, 2);
    FlaggedFrom(lines, 1);
    FlaggedFrom(lines, 0);
    assert lines[0..] == lines;
  }

  /** Nine lines of which the first and the eighth are counted. */
  lemma FlaggedSourceShape(lines: seq<string>)
    requires |lines| == 9 && Counted(lines[0]) && Counted(lines[7])
    requires !Counted(lines[1]) && !Counted(lines[2]) && !Counted(lines[3]) && !Counted(lines[4])
    requires !Counted(lines[5]) && !Counted(lines[6]) && !Counted(lines[8])
    ensures Flagged(lines) == [lines[0], lines[7]]
  {
    assert lines[9..] == [];
    FlaggedFrom(lines, 8);
    FlaggedFrom(lines, 7);
    FlaggedFrom(lines, 6);
    FlaggedFrom(lines, 5);
    assert Flagged(lines[5..]) == [lines[7]];
    FlaggedFrom(lines, 4);
    FlaggedFrom(lines, 3);
    FlaggedFrom(lines, 2);
    FlaggedFrom(lines, 1);
    FlaggedFrom(lines, 0);
    assert lines[0..] == lines;
  }

  /** In the header, bare "// NOLINT", "// NOLINT (" and "// NOLINTEND" are flagged. */
  lemma DummyHeaderFlagged(lines: seq<string>)
    requires DummyHeaderLines(lines)
    ensures Flagged(lines) == [lines[2], lines[5], lines[9]]
  {
    NoComment(lines[1]);
    NoComment(lines[4]);
    NoComment(lines[7]);
    NoComment(lines[10]);
    BareNolint(lines[2]);
    SpacedNolint(lines[5]);
    BareNolintEnd(lines[9]);
    NolintLine(lines[0]);
    NolintBeginLine(lines[3]);
    NolintNextLineLine(lines[6]);
    NolintEndLine(lines[8]);
    FlaggedHeaderShape(lines);
  }

  lemma DummyHeaderBreakFree(lines: seq<string>)
    requires DummyHeaderLines(lines)
    ensures forall n :: 0 <= n < |lines| ==> BreakFree(lines[n])
  {
    BareNolint(lines[2]);
    SpacedNolint(lines[5]);
    BareNolintEnd(lines[9]);
    NolintLineBreakFree(lines[0]);
    NolintBeginLineBreakFree(lines[3]);
    NolintNextLineLineBreakFree(lines[6]);
    NolintEndLineBreakFree(lines[8]);
  }

  /** In the source file, the "NOLINT (" loop and the bare "NOLINTEND" struct are flagged. */
  lemma DummySourceFlagged(lines: seq<string>)
    requires DummySourceLines(lines)
    ensures Flagged(lines) == [lines[0], lines[7]]
  {
    NoComment(lines[2]);
    NoComment(lines[4]);
    NoComment(lines[5]);
    NoComment(lines[8]);
    LoopCommentLine(lines[0]);
    MainLine(lines[1]);
    IncludeLine(lines[3]);
    LoopNolintEndLine(lines[6]);
    StructLine(lines[7]);
    FlaggedSourceShape(lines);
  }

  lemma DummySourceBreakFree(lines: seq<string>)
    requires DummySourceLines(lines)
    ensures forall n :: 0 <= n < |lines| ==> BreakFree(lines[n])
  {
    LoopCommentLineBreakFree(lines[0]);
    MainLineBreakFree(lines[1]);
    IncludeLineBreakFree(lines[3]);
    LoopNolintEndLineBreakFree(lines[6]);
    StructLineBreakFree(lines[7]);
  }

  /** Two files: the count of each, added. */
  lemma OccurrencesOfTwo(a: SourceFile, b: SourceFile)
    ensures Occurrences([a, b]) == |FileFlagged(a)| + |FileFlagged(b)|
  {
    assert [a, b][..1] == [a];
    assert [a][..0] == [];
    assert Occurrences([a]) == |FileFlagged(a)|;
  }

  /** The test tree holds five flagged comments, wherever it lies. */
  lemma DummyTreeCount(header: SourceFile, source: SourceFile, hppLines: seq<string>, cppLines: seq<string>)
    requires DummyHeaderLines(hppLines) && DummySourceLines(cppLines)
    requires EndsWith(header.path, ".hpp") && header.content == JoinLines(hppLines, "\n")
    requires EndsWith(source.path, ".cpp") && source.content == JoinLines(cppLines, "\n")
    ensures Occurrences([header, source]) == 5
  {
    DummyHeaderFlagged(hppLines);
    DummyHeaderBreakFree(hppLines);
    SplitJoin(hppLines, "\n");
    assert |FileFlagged(header)| == 3;
    DummySourceFlagged(cppLines);
    DummySourceBreakFree(cppLines);
    SplitJoin(cppLines, "\n");
    assert |FileFlagged(source)| == 2;
    OccurrencesOfTwo(header, source);
  }
}

=== FILE: gamepad.dfy ===
/**
 * Gamepad state tracking (gfx/input/gamepad.hpp and gamepad.cpp).
 *
 * A `Gamepad` polls the joystick's button bytes and axis values. The
 * directional pad keeps four booleans and an `updated` flag that says
 * whether the last poll changed any of them; a `Stick` keeps the last x/y
 * pair it saw and a `Trigger` the last rounded value. GLFW is replaced by
 * parameters: the button bytes (None when GLFW returns no array) and the
 * axes, each given as the bit pattern of its float and the value
 * `std::round` gives for it. What the source writes to standard output is
 * collected in the `output` field.
 */
module Gamepad {

  import opened Wrappers

  type Byte = b: int | 0 <= b < 256

  /** The bit pattern of a 32-bit float; `memcmp` compares these. */
  type Bits32 = n: int | 0 <= n < 0x1_0000_0000

  /** `GLFW_PRESS`. */
  const GlfwPress: Byte := 1

  // `button::Name`: the index of each button in GLFW's button array.
  const A: nat := 0
  const B: nat := 1
  const Y: nat := 2
  const X: nat := 3
  const LeftBumper: nat := 4
  const RightBumper: nat := 5
  const Select: nat := 6
  const Start: nat := 7
  const Unused: nat := 8
  const LeftStick: nat := 9
  const RightStick: nat := 10
  const Up: nat := 11
  const Right: nat := 12
  const Down: nat := 13
  const Left: nat := 14

  /** `DirectionalPad::directions`. */
  const Directions: nat := 4

  datatype Direction = UpDirection | DownDirection | LeftDirection | RightDirection

  /** Something written to standard output; a stick's floats are kept as their bits. */
  datatype Printed =
    | ButtonName(name: string)
    | DPadChange(direction: Direction, pressed: bool)
    | StickValues(name: string, x: Bits32, y: Bits32)
    | TriggerChange(tag: string, pressed: bool)

  /** How `operator<<` writes a `bool`. */
  function BoolText(b: bool): string {
    if b then "1" else "0"
  }

  function DirectionName(direction: Direction): string {
    match direction
    case UpDirection => "UP"
    case DownDirection => "DOWN"
    case LeftDirection => "LEFT"
    case RightDirection => "RIGHT"
  }

  /** The text of a printed line; how a float is formatted is not modelled. */
  function Text(p: Printed): string
    requires !p.StickValues?
  {
    match p
    case ButtonName(name) => name + "\n"
    case DPadChange(direction, pressed) => "DPAD " + DirectionName(direction) + ": " + BoolText(pressed) + "\n"
    case TriggerChange(tag, pressed) => tag + ": " + BoolText(pressed) + "\n"
  }

  // ---------------------------------------------------------------------
  // Stick and Trigger
  // ---------------------------------------------------------------------

  /** `Stick`: the last x/y pair, compared and copied byte for byte. */
  class Stick {
    const name: string
    var x: Bits32
    var y: Bits32

    /** `_data{}` is zeroed: two +0.0 floats. */
    constructor (name: string)
      ensures this.name == name && x == 0 && y == 0
    {
      this.name := name;
      x, y := 0, 0;
    }

    /** `update`: true, storing the pair, exactly when it differs from the stored one. */
    method Update(newX: Bits32, newY: Bits32) returns (changed: bool)
      modifies this
      ensures changed <==> (newX, newY) != old((x, y))
      ensures x == newX && y == newY
    {
      if (x, y) != (newX, newY) {
        x, y := newX, newY;
        return true;
      }
      return false;
    }
  }

  /** `Trigger`: the last rounded value and whether it was 1. */
  class Trigger {
    var pressed: bool
    var cache: int

    constructor ()
      ensures !pressed && cache == 0
    {
      pressed, cache := false, 0;
    }

    /** `update`, given the value `std::round` makes of the axis. */
    method Update(rounded: int) returns (changed: bool)
      modifies this
      ensures changed <==> rounded != old(cache)
      ensures changed ==> cache == rounded && pressed == (rounded == 1)
      ensures !changed ==> cache == old(cache) && pressed == old(pressed)
    {
      if cache != rounded {
        cache := rounded;
        pressed := rounded == 1;
        return true;
      }
      return false;
    }
  }

  /** The same pair twice: the second update reports no change. */
  method StickRepeat(name: string, newX: Bits32, newY: Bits32) returns (first: bool, second: bool)
    ensures first <==> newX != 0 || newY != 0
    ensures !second
  {
    var stick := new Stick(name);
    first := stick.Update(newX, newY);
    second := stick.Update(newX, newY);
  }

  /** The same value twice: the second update reports no change and keeps `pressed`. */
  method TriggerRepeat(rounded: int) returns (first: bool, second: bool, pressed: bool)
    ensures first <==> rounded != 0
    ensures !second
    ensures pressed <==> rounded == 1
  {
    var trigger := new Trigger();
    first := trigger.Update(rounded);
    second := trigger.Update(rounded);
    pressed := trigger.pressed;
  }

  // ---------------------------------------------------------------------
  // The directional pad
  // ---------------------------------------------------------------------

  datatype DirectionalPad = DirectionalPad(up: bool, down: bool, left: bool, right: bool, updated: bool)

  function Pressed(b: Byte): bool {
    b == GlfwPress
  }

  /**
   * The pad after `_updateDirectionalPad` with the four bytes copied from
   * button UP on: slot 0 UP, 1 RIGHT, 2 DOWN, 3 LEFT. `updated` is set
   * when a direction changes and is never cleared here.
   */
  function PadAfter(pad: DirectionalPad, dPad: seq<Byte>): (next: DirectionalPad)
    requires |dPad| == Directions
  {
    var up, down := Pressed(dPad[Up - Up]), Pressed(dPad[Down - Up]);
    var left, right := Pressed(dPad[Left - Up]), Pressed(dPad[Right - Up]);
    DirectionalPad(up, down, left, right,
      pad.updated || up != pad.up || down != pad.down || left != pad.left || right != pad.right)
  }

  /** The four blocks of `_updateDirectionalPad`, one direction at a time, give `PadAfter`. */
  lemma PadAfterSteps(pad: DirectionalPad, dPad: seq<Byte>)
    requires |dPad| == Directions
    ensures PadAfter(pad, dPad) ==
      var afterUp := WithDirection(pad, UpDirection, Pressed(dPad[Up - Up]));
      var afterDown := WithDirection(afterUp, DownDirection, Pressed(dPad[Down - Up]));
      var afterLeft := WithDirection(afterDown, LeftDirection, Pressed(dPad[Left - Up]));
      WithDirection(afterLeft, RightDirection, Pressed(dPad[Right - Up]))
  {
  }

  /** One line per direction that changed, in the order up, down, left, right. */
  function PadLog(pad: DirectionalPad, dPad: seq<Byte>): seq<Printed>
    requires |dPad| == Directions
  {
    var next := PadAfter(pad, dPad);
    DirectionLog(UpDirection, pad.up, next.up) + DirectionLog(DownDirection, pad.down, next.down) +
    DirectionLog(LeftDirection, pad.left, next.left) + DirectionLog(RightDirection, pad.right, next.right)
  }

  function DirectionOf(pad: DirectionalPad, direction: Direction): bool {
    match direction
    case UpDirection => pad.up
    case DownDirection => pad.down
    case LeftDirection => pad.left
    case RightDirection => pad.right
  }

  /** The pad with one direction set; `updated` is raised when it changes. */
  function WithDirection(pad: DirectionalPad, direction: Direction, pressed: bool): (next: DirectionalPad)
    ensures DirectionOf(next, direction) == pressed
    ensures forall other :: other != direction ==> DirectionOf(next, other) == DirectionOf(pad, other)
    ensures next.updated <==> pad.updated || pressed != DirectionOf(pad, direction)
  {
    if pressed == DirectionOf(pad, direction) then pad
    else match direction
      case UpDirection => pad.(updated := true, up := pressed)
      case DownDirection => pad.(updated := true, down := pressed)
      case LeftDirection => pad.(updated := true, left := pressed)
      case RightDirection => pad.(updated := true, right := pressed)
  }

  function DirectionLog(direction: Direction, before: bool, after: bool): seq<Printed> {
    if before != after then [DPadChange(direction, after)] else []
  }

  /**
   * The directions are pressed exactly when their bytes are `GLFW_PRESS`;
   * `updated` is raised exactly when one of them changed, which is when a
   * line is printed.
   */
  lemma PadAfterDirections(pad: DirectionalPad, dPad: seq<Byte>)
    requires |dPad| == Directions
    ensures var next := PadAfter(pad, dPad);
      next.up == (dPad[0] == GlfwPress) && next.right == (dPad[1] == GlfwPress) &&
      next.down == (dPad[2] == GlfwPress) && next.left == (dPad[3] == GlfwPress) &&
      (next.updated <==> pad.updated || next.(updated := pad.updated) != pad) &&
      (next.(updated := pad.updated) != pad <==> PadLog(pad, dPad) != [])
  {
  }

  /** A second poll with the same bytes changes no direction and leaves `updated` false. */
  lemma PadIdempotent(pad: DirectionalPad, dPad: seq<Byte>)
    requires |dPad| == Directions
    ensures var first := PadAfter(pad.(updated := false), dPad);
      PadAfter(first.(updated := false), dPad) == first.(updated := false) &&
      PadLog(first.(updated := false), dPad) == []
  {
  }

  lemma AppendFour<T>(s: seq<T>, a: seq<T>, b: seq<T>, c: seq<T>, d: seq<T>)
    ensures s + a + b + c + d == s + (a + b + c + d)
  {
  }

  /** The buttons `update` logs, in its order, with the names it prints. */
  const LoggedButtons: seq<(string, nat)> := [
    ("Button::UNUSED", Unused), ("Button::A", A), ("Button::B", B), ("Button::X", X),
    ("Button::Y", Y), ("Button::START", Start), ("Button::SELECT", Select),
    ("Button::RIGHT_BUMPER", RightBumper), ("Button::LEFT_BUMPER", LeftBumper),
    ("Button::RIGHT_STICK", RightStick), ("Button::LEFT_STICK", LeftStick)]

  /** `LOGBUTTON`: the name of every listed button that is pressed. */
  function ButtonLog(named: seq<(string, nat)>, buttons: seq<Byte>): (log: seq<Printed>)
    requires forall k :: 0 <= k < |named| ==> named[k].1 < |buttons|
    ensures |log| <= |named|
  {
    if named == [] then []
    else
      (if Pressed(buttons[named[0].1]) then [ButtonName(named[0].0)] else []) +
      ButtonLog(named[1..], buttons)
  }

  /** A button's name is printed exactly when it is pressed. */
  lemma {:induction false} ButtonLogged(named: seq<(string, nat)>, buttons: seq<Byte>, k: nat)
    requires forall j :: 0 <= j < |named| ==> named[j].1 < |buttons|
    requires forall i, j :: 0 <= i < j < |named| ==> named[i].0 != named[j].0
    requires k < |named|
    ensures ButtonName(named[k].0) in ButtonLog(named, buttons) <==> Pressed(buttons[named[k].1])
  {
    if k == 0 {
      NotLogged(named[1..], buttons, named[0].0);
    } else {
      ButtonLogged(named[1..], buttons, k - 1);
      assert named[1..][k - 1] == named[k];
    }
  }

  lemma {:induction false} NotLogged(named: seq<(string, nat)>, buttons: seq<Byte>, name: string)
    requires forall j :: 0 <= j < |named| ==> named[j].1 < |buttons|
    requires forall j :: 0 <= j < |named| ==> named[j].0 != name
    ensures ButtonName(name) !in ButtonLog(named, buttons)
  {
    if named != [] {
      NotLogged(named[1..], buttons, name);
    }
  }

  // ---------------------------------------------------------------------
  // printAxes
  // ---------------------------------------------------------------------

  /** One axis value: the bits of its float and `std::round` of it as an `int`. */
  datatype Axis = Axis(bits: Bits32, rounded: int)

  /** The tag `printAxes` uses for a trigger, as written: both triggers say RIGHT. */
  function TriggerLabelAsWritten(left: bool): string {
    "RIGHT_TRIGGER"
  }

  /** The tag intended for each trigger. */
  function TriggerLabel(left: bool): string {
    if left then "LEFT_TRIGGER" else "RIGHT_TRIGGER"
  }

  /** The tag a trigger line carries: the source's own tags, or the intended ones. */
  function TriggerTag(asWritten: bool, left: bool): string {
    if asWritten then TriggerLabelAsWritten(left) else TriggerLabel(left)
  }

  /**
   * As written, a left-trigger change (axis 2) is logged as exactly the
   * same entry, and so the same line, as a right-trigger change (axis 5)
   * with the same pressed state: the two cannot be told apart on output.
   */
  lemma LeftTriggerPrintedAsRight(leftCache: int, rightCache: int, leftRounded: int, rightRounded: int)
    requires leftRounded != leftCache && rightRounded != rightCache
    requires (leftRounded == 1) == (rightRounded == 1)
    ensures TriggerLog(true, true, leftCache, leftRounded) == TriggerLog(true, false, rightCache, rightRounded)
    ensures |TriggerLog(true, true, leftCache, leftRounded)| == 1 &&
      Text(TriggerLog(true, true, leftCache, leftRounded)[0]) == "RIGHT_TRIGGER: " + BoolText(leftRounded == 1) + "\n"
  {
  }

  /** With the intended tags, a left-trigger line never equals a right-trigger line. */
  lemma TriggerLinesDiffer(leftCache: int, rightCache: int, leftRounded: int, rightRounded: int)
    requires leftRounded != leftCache && rightRounded != rightCache
    ensures |TriggerLog(false, true, leftCache, leftRounded)| == 1
    ensures |TriggerLog(false, false, rightCache, rightRounded)| == 1
    ensures Text(TriggerLog(false, true, leftCache, leftRounded)[0]) !=
      Text(TriggerLog(false, false, rightCache, rightRounded)[0])
  {
    var l, r := Text(TriggerLog(false, true, leftCache, leftRounded)[0]),
      Text(TriggerLog(false, false, rightCache, rightRounded)[0]);
    assert l[0] != r[0];
  }

  /** A stick is printed when its pair changes. */
  function StickLog(name: string, before: (Bits32, Bits32), x: Bits32, y: Bits32): seq<Printed> {
    if (x, y) != before then [StickValues(name, x, y)] else []
  }

  /** A trigger is printed, with whether it now reads 1, when its rounded value changes. */
  function TriggerLog(asWritten: bool, left: bool, cache: int, rounded: int): seq<Printed> {
    if rounded != cache then [TriggerChange(TriggerTag(asWritten, left), rounded == 1)] else []
  }

  // ---------------------------------------------------------------------
  // Gamepad
  // ---------------------------------------------------------------------

  class Gamepad {
    const leftStick: Stick
    const rightStick: Stick
    const leftTrigger: Trigger
    const rightTrigger: Trigger
    /** The static `dPad` buffer of `update`. */
    const dPad: array<Byte>
    var pad: DirectionalPad
    var output: seq<Printed>

    ghost predicate Valid()
      reads this
    {
      dPad.Length == Directions && leftStick != rightStick && leftTrigger != rightTrigger
    }

    /** Sticks and triggers at rest, the pad all false; the joystick report printed here is left out. */
    constructor ()
      ensures Valid() && fresh(dPad) && fresh(leftStick) && fresh(rightStick)
      ensures fresh(leftTrigger) && fresh(rightTrigger)
      ensures pad == DirectionalPad(false, false, false, false, false) && output == []
      ensures leftStick.name == "LEFT_STICK" && rightStick.name == "RIGHT_STICK"
    {
      leftStick := new Stick("LEFT_STICK");
      rightStick := new Stick("RIGHT_STICK");
      leftTrigger := new Trigger();
      rightTrigger := new Trigger();
      dPad := new Byte[Directions](_ => 0);
      pad := DirectionalPad(false, false, false, false, false);
      output := [];
    }

    /** `_invalidate`. */
    method Invalidate()
      modifies this
      ensures pad == old(pad).(updated := false) && output == old(output)
    {
      pad := pad.(updated := false);
    }

    /** `_updateDirectionalPad` on the bytes of the `dPad` buffer. */
    method UpdateDirectionalPad()
      requires Valid()
      modifies this
      ensures pad == PadAfter(old(pad), dPad[..])
      ensures output == old(output) + PadLog(old(pad), dPad[..])
    {
      ghost var before, out := pad, output;
      ghost var d := dPad[..];
      ghost var next := PadAfter(before, d);
      SetDirection(UpDirection, dPad[Up - Up] == GlfwPress);
      SetDirection(DownDirection, dPad[Down - Up] == GlfwPress);
      SetDirection(LeftDirection, dPad[Left - Up] == GlfwPress);
      SetDirection(RightDirection, dPad[Right - Up] == GlfwPress);
      AppendFour(out, DirectionLog(UpDirection, before.up, next.up),
        DirectionLog(DownDirection, before.down, next.down),
        DirectionLog(LeftDirection, before.left, next.left),
        DirectionLog(RightDirection, before.right, next.right));
      PadAfterSteps(before, d);
    }

    /** One block of `_updateDirectionalPad`: a direction that changes is stored, flagged and printed. */
    method SetDirection(direction: Direction, pressed: bool)
      modifies this
      ensures pad == WithDirection(old(pad), direction, pressed)
      ensures output == old(output) + DirectionLog(direction, DirectionOf(old(pad), direction), pressed)
    {
      if pressed != DirectionOf(pad, direction) {
        pad := match direction
          case UpDirection => pad.(updated := true, up := pressed)
          case DownDirection => pad.(updated := true, down := pressed)
          case LeftDirection => pad.(updated := true, left := pressed)
          case RightDirection => pad.(updated := true, right := pressed);
        output := output + [DPadChange(direction, pressed)];
      }
    }

    /**
     * `update`: the flag is cleared; without a button array nothing else
     * happens. Otherwise the pressed buttons are logged, the four d-pad
     * bytes from index UP on are copied into `dPad` and the pad is
     * updated from them. The array must reach index LEFT; GLFW's count
     * is not checked by the source.
     */
    method Update(buttons: Option<seq<Byte>>)
      requires Valid()
      requires buttons.Some? ==> |buttons.value| > Left
      modifies this, dPad
      ensures unchanged(leftStick, rightStick, leftTrigger, rightTrigger)
      ensures buttons.None? ==> pad == old(pad).(updated := false) && output == old(output)
      ensures buttons.Some? ==>
        var d := buttons.value[Up..Up + Directions];
        pad == PadAfter(old(pad).(updated := false), d) &&
        output == old(output) + ButtonLog(LoggedButtons, buttons.value) + PadLog(old(pad).(updated := false), d)
    {
      Invalidate();
      if buttons.None? {
        return;
      }
      var newButtons := buttons.value;
      output := output + ButtonLog(LoggedButtons, newButtons);
      forall k | 0 <= k < Directions {
        dPad[k] := newButtons[Up + k];
      }
      assert dPad[..] == newButtons[Up..Up + Directions];
      UpdateDirectionalPad();
    }

    /**
     * `printAxes`: the sticks read axes 0-1 and 3-4, the right trigger
     * axis 5 and the left trigger axis 2; each one that changed is
     * printed. The axis array must have six entries; GLFW's count is not
     * checked by the source. With `asWritten` both triggers are tagged
     * RIGHT_TRIGGER as in the source (see `LeftTriggerPrintedAsRight`);
     * otherwise each trigger carries its own tag.
     */
    method PrintAxes(axes: Option<seq<Axis>>, asWritten: bool)
      requires Valid()
      requires axes.Some? ==> |axes.value| >= 6
      modifies this, leftStick, rightStick, leftTrigger, rightTrigger
      ensures pad == old(pad)
      ensures axes.None? ==> output == old(output) && unchanged(leftStick, rightStick, leftTrigger, rightTrigger)
      ensures axes.Some? ==>
        var a := axes.value;
        leftStick.x == a[0].bits && leftStick.y == a[1].bits &&
        rightStick.x == a[3].bits && rightStick.y == a[4].bits &&
        (a[5].rounded != old(rightTrigger.cache) ==>
          rightTrigger.cache == a[5].rounded && rightTrigger.pressed == (a[5].rounded == 1)) &&
        (a[5].rounded == old(rightTrigger.cache) ==>
          rightTrigger.cache == old(rightTrigger.cache) && rightTrigger.pressed == old(rightTrigger.pressed)) &&
        (a[2].rounded != old(leftTrigger.cache) ==>
          leftTrigger.cache == a[2].rounded && leftTrigger.pressed == (a[2].rounded == 1)) &&
        (a[2].rounded == old(leftTrigger.cache) ==>
          leftTrigger.cache == old(leftTrigger.cache) && leftTrigger.pressed == old(leftTrigger.pressed)) &&
        output == old(output) +
          (StickLog(leftStick.name, old((leftStick.x, leftStick.y)), a[0].bits, a[1].bits) +
           StickLog(rightStick.name, old((rightStick.x, rightStick.y)), a[3].bits, a[4].bits) +
           TriggerLog(asWritten, false, old(rightTrigger.cache), a[5].rounded) +
           TriggerLog(asWritten, true, old(leftTrigger.cache), a[2].rounded))
    {
      if axes.None? {
        return;
      }
      var a := axes.value;
      ghost var out := output;
      ghost var left, right := StickLog(leftStick.name, (leftStick.x, leftStick.y), a[0].bits, a[1].bits),
        StickLog(rightStick.name, (rightStick.x, rightStick.y), a[3].bits, a[4].bits);
      ghost var rightLog, leftLog := TriggerLog(asWritten, false, rightTrigger.cache, a[5].rounded),
        TriggerLog(asWritten, true, leftTrigger.cache, a[2].rounded);
      PrintStick(leftStick, a[0].bits, a[1].bits);
      PrintStick(rightStick, a[3].bits, a[4].bits);
      PrintTrigger(rightTrigger, asWritten, false, a[5].rounded);
      PrintTrigger(leftTrigger, asWritten, true, a[2].rounded);
      AppendFour(out, left, right, rightLog, leftLog);
    }

    /** One stick block of `printAxes`: update the stick and print it when it changed. */
    method PrintStick(stick: Stick, x: Bits32, y: Bits32)
      modifies this, stick
      ensures pad == old(pad) && stick.x == x && stick.y == y
      ensures output == old(output) + StickLog(stick.name, old((stick.x, stick.y)), x, y)
    {
      var changed := stick.Update(x, y);
      if changed {
        output := output + [StickValues(stick.name, stick.x, stick.y)];
      }
    }

    /** One trigger block of `printAxes`: update the trigger and print it when it changed. */
    method PrintTrigger(trigger: Trigger, asWritten: bool, left: bool, rounded: int)
      modifies this, trigger
      ensures pad == old(pad)
      ensures rounded != old(trigger.cache) ==> trigger.cache == rounded && trigger.pressed == (rounded == 1)
      ensures rounded == old(trigger.cache) ==> trigger.cache == old(trigger.cache) && trigger.pressed == old(trigger.pressed)
      ensures output == old(output) + TriggerLog(asWritten, left, old(trigger.cache), rounded)
    {
      var changed := trigger.Update(rounded);
      if changed {
        output := output + [TriggerChange(TriggerTag(asWritten, left), trigger.pressed)];
      }
    }
  }

  /** Polling the same buttons twice: the second poll reports no d-pad change. */
  method PollTwice(buttons: seq<Byte>) returns (first: DirectionalPad, second: DirectionalPad)
    requires |buttons| > Left
    ensures first.up == (buttons[Up] == GlfwPress) && first.down == (buttons[Down] == GlfwPress)
    ensures first.left == (buttons[Left] == GlfwPress) && first.right == (buttons[Right] == GlfwPress)
    ensures first.updated <==> first.up || first.down || first.left || first.right
    ensures second == first.(updated := false)
  {
    var gamepad := new Gamepad();
    gamepad.Update(Some(buttons));
    first := gamepad.pad;
    gamepad.Update(Some(buttons));
    second := gamepad.pad;
    PadIdempotent(DirectionalPad(false, false, false, false, false), buttons[Up..Up + Directions]);
  }

  /**
   * Polling the same axes twice: the second poll leaves the sticks and
   * triggers as the first left them and prints nothing.
   */
  method PollAxesTwice(axes: seq<Axis>, asWritten: bool) returns (first: seq<Printed>, second: seq<Printed>)
    requires |axes| >= 6
    ensures second == []
    ensures |first| <= 4
  {
    var gamepad := new Gamepad();
    gamepad.PrintAxes(Some(axes), asWritten);
    first := gamepad.output;
    gamepad.PrintAxes(Some(axes), asWritten);
    second := gamepad.output[|first|..];
  }
}

=== FILE: logger.dfy ===
/**
 * The C++ logger (gfx/utils/logger.cpp).
 *
 * Every message is preceded by a preamble naming the program and the
 * level: bold "gfx::", the process name shortened to fit, and the level
 * tag in its colour. INFO goes to standard output, everything else to
 * standard error, and FATAL aborts after writing. The process name, read
 * from `/proc/self/comm` in the source, is a parameter here, and the two
 * streams are fields of a `Console` object that the logging methods
 * append to.
 */
module Logger {

  import opened CStrings
  import ExecutableName

  // ---------------------------------------------------------------------
  // The process name
  // ---------------------------------------------------------------------

  /**
   * The name `get_name` returns. A name longer than 14 characters gets
   * "..." at indices 12 to 14; index 15 is set to NUL, which for a name of
   * exactly 15 characters is the string's own terminator. The string keeps
   * its length.
   */
  function ShortenedName(name: string): (r: string)
    ensures |r| == |name|
    ensures |name| <= 14 ==> r == name
    ensures |name| > 14 ==> r[..12] == name[..12] && r[12..15] == "..."
    ensures |name| > 15 ==> r[15] == '\0' && r[16..] == name[16..]
  {
    if |name| <= 14 then name
    else name[..12] + "..." + (if |name| > 15 then "\0" + name[16..] else "")
  }

  /** `get_name`: the characters are overwritten one at a time. */
  method GetName(name: string) returns (r: string)
    ensures r == ShortenedName(name)
  {
    r := name;
    if |r| > 14 {
      r := r[12 := '.'];
      r := r[13 := '.'];
      r := r[14 := '.'];
      // index 15 of a 15-character string is its terminator, already NUL
      if |r| > 15 {
        r := r[15 := '\0'];
      }
      assert r[..12] == name[..12];
      assert r[..15] == name[..12] + "...";
      if |r| > 15 {
        assert r == r[..15] + "\0" + r[16..];
      } else {
        assert r == r[..15];
      }
    }
  }

  /**
   * Read as a C string, the shortened name is the name the C argument
   * parser shows: both keep 12 characters and add "..." when the name has
   * 15 or more.
   */
  lemma {:induction false} ShortenedAgreesWithC(name: string)
    requires '\0' !in name
    ensures CString(ShortenedName(name)) == ExecutableName.Truncated(name)
  {
    var r := ShortenedName(name);
    if |name| <= 14 {
      CLengthIs(r, |r|);
      assert r[..|r|] == r;
    } else {
      forall i | 0 <= i < 15 ensures r[i] != '\0' {
        if i < 12 {
          assert r[i] == r[..12][i] == name[..12][i] == name[i];
        } else {
          assert r[i] == r[12..15][i - 12];
        }
      }
      CLengthIs(r, 15);
      assert r[..15] == name[..12] + "...";
    }
  }

  // ---------------------------------------------------------------------
  // Colours and the preamble
  // ---------------------------------------------------------------------

  const Gfx: string := "gfx::"

  /** The ANSI escape sequences of `struct ansi`. */
  const Red: string := "\U{1B}[31m"
  const Yellow: string := "\U{1B}[33m"
  const Cyan: string := "\U{1B}[36m"
  const White: string := "\U{1B}[39m"
  const Bold: string := "\U{1B}[1m"
  const Reset: string := "\U{1B}[0m"

  /** `apply(color)`: a function that wraps its text in `color` and the white escape. */
  function Apply(color: string): (wrap: string -> string)
    ensures forall s :: |wrap(s)| == |color| + |s| + |White|
    ensures forall s :: wrap(s)[..|color|] == color
  {
    s => color + s + White
  }

  /** `getPreamble(color, tag)` for a process called `processName`. */
  function Preamble(color: string, tag: string, processName: string): string {
    Bold + Gfx + ShortenedName(processName) + " [" + Apply(color)(tag) + "] " + Reset
  }

  /** The preamble splits into its fixed head, the name, the coloured tag and its fixed tail. */
  lemma PreambleParts(color: string, tag: string, processName: string)
    ensures var p := Preamble(color, tag, processName);
      var name := ShortenedName(processName);
      var k := |Bold + Gfx|;
      var j := k + |name| + 2;
      |p| == j + |color| + |tag| + |White| + 2 + |Reset| &&
      p[..k] == Bold + Gfx &&
      p[k..k + |name|] == name &&
      p[j..j + |color|] == color &&
      p[j + |color|..j + |color| + |tag|] == tag &&
      p[|p| - |Reset| - 2 - |White|..] == White + "] " + Reset
  {
    assert Apply(color)(tag) == color + tag + White;
    PreambleSlices(Bold, Gfx, ShortenedName(processName), " [", color, tag, White, "] ", Reset);
  }

  /** The slices of a preamble built from arbitrary pieces. */
  lemma PreambleSlices(bold: string, gfx: string, name: string, open: string,
                       color: string, tag: string, white: string, close: string, reset: string)
    ensures var p := bold + gfx + name + open + (color + tag + white) + close + reset;
      var k := |bold + gfx|;
      var j := k + |name| + |open|;
      |p| == j + |color| + |tag| + |white| + |close| + |reset| &&
      p[..k] == bold + gfx &&
      p[k..k + |name|] == name &&
      p[j..j + |color|] == color &&
      p[j + |color|..j + |color| + |tag|] == tag &&
      p[|p| - |reset| - |close| - |white|..] == white + close + reset
  {
    var head, tail := bold + gfx, white + close + reset;
    var p := bold + gfx + name + open + (color + tag + white) + close + reset;
    assert p == head + (name + (open + (color + (tag + tail))));
    var k := |head|;
    var j := k + |name| + |open|;
    assert p[k..] == name + (open + (color + (tag + tail)));
    assert p[j..] == color + (tag + tail);
    assert p[j + |color|..] == tag + tail;
    assert p[|p| - |tail|..] == tail;
  }

  datatype Level = Fatal | Error | Warning | Info

  datatype Stream = Stdout | Stderr

  function Color(level: Level): string {
    match level
    case Fatal => Red
    case Error => Red
    case Warning => Yellow
    case Info => Cyan
  }

  function Tag(level: Level): string {
    match level
    case Fatal => "FATAL"
    case Error => "ERROR"
    case Warning => "WARNING"
    case Info => "INFO"
  }

  function StreamOf(level: Level): (s: Stream)
    ensures s == Stdout <==> level == Info
  {
    if level == Info then Stdout else Stderr
  }

  /** The preamble of a level: its colour and tag. */
  function LevelPreamble(level: Level, processName: string): string {
    Preamble(Color(level), Tag(level), processName)
  }

  /** The text written for one message: preamble, message, extra information, newline. */
  function Line(level: Level, processName: string, msg: string, info: string): (line: string)
    ensures |line| > 0 && line[|line| - 1] == '\n'
  {
    LevelPreamble(level, processName) + msg + info + "\n"
  }

  /** The last character of each tag tells the levels apart. */
  function TagEnd(level: Level): (c: char)
    ensures Tag(level)[|Tag(level)| - 1] == c
  {
    match level
    case Fatal => 'L'
    case Error => 'R'
    case Warning => 'G'
    case Info => 'O'
  }

  /** The preamble fixes the level and the name shown in it. */
  lemma {:induction false} PreambleDeterminesLevel(l1: Level, n1: string, l2: Level, n2: string)
    requires LevelPreamble(l1, n1) == LevelPreamble(l2, n2)
    ensures l1 == l2
    ensures ShortenedName(n1) == ShortenedName(n2)
  {
    var p := LevelPreamble(l1, n1);
    PreambleParts(Color(l1), Tag(l1), n1);
    PreambleParts(Color(l2), Tag(l2), n2);
    var e := |p| - |Reset| - 2 - |White| - 1;
    var j1 := |Bold + Gfx| + |ShortenedName(n1)| + 2 + |Color(l1)|;
    var j2 := |Bold + Gfx| + |ShortenedName(n2)| + 2 + |Color(l2)|;
    assert p[e] == p[j1..j1 + |Tag(l1)|][|Tag(l1)| - 1] == TagEnd(l1);
    assert p[e] == p[j2..j2 + |Tag(l2)|][|Tag(l2)| - 1] == TagEnd(l2);
    assert l1 == l2;
    var k := |Bold + Gfx|;
    assert |ShortenedName(n1)| == |ShortenedName(n2)|;
    assert ShortenedName(n1) == p[k..k + |ShortenedName(n1)|] == ShortenedName(n2);
  }

  // ---------------------------------------------------------------------
  // The logging calls
  // ---------------------------------------------------------------------

  /** Standard output, standard error and whether the process has aborted. */
  class Console {
    var stdout: string
    var stderr: string
    var aborted: bool

    constructor ()
      ensures stdout == [] && stderr == [] && !aborted
    {
      stdout, stderr, aborted := [], [], false;
    }

    /**
     * `fatal`, `error`, `warning` and `info`: the line goes to the level's
     * stream; a fatal message then aborts, so nothing further runs. The
     * overloads without extra information pass the empty string.
     */
    method Log(level: Level, processName: string, msg: string, info: string)
      requires !aborted
      modifies this
      ensures aborted <==> level == Fatal
      ensures StreamOf(level) == Stdout ==>
        stdout == old(stdout) + Line(level, processName, msg, info) && stderr == old(stderr)
      ensures StreamOf(level) == Stderr ==>
        stderr == old(stderr) + Line(level, processName, msg, info) && stdout == old(stdout)
    {
      var name := GetName(processName);
      var preamble := Bold + Gfx + name + " [" + Apply(Color(level))(Tag(level)) + "] " + Reset;
      if level == Info {
        stdout := stdout + preamble + msg + info + "\n";
      } else {
        stderr := stderr + preamble + msg + info + "\n";
      }
      if level == Fatal {
        aborted := true;
      }
    }
  }

  /** Colours: FATAL and ERROR red, WARNING yellow, INFO cyan. */
  lemma LevelColours()
    ensures Color(Fatal) == Color(Error) == Red
    ensures Color(Warning) == Yellow && Color(Info) == Cyan
    ensures Red != Yellow && Red != Cyan && Yellow != Cyan
  {
  }
}

=== FILE: muxer.dfy ===
/**
 * The synthetic video writer (gfx/utils/muxer.cpp).
 *
 * `Muxer` configures an encoder stream, then repeatedly asks
 * `get_video_frame` for the next picture and hands it to `write_frame`
 * until the encoder reports end of stream. `get_video_frame` stops
 * producing pictures once the next presentation timestamp lies beyond the
 * duration; each picture it produces is filled by `fill_yuv_image` with a
 * moving test pattern in its three YUV 4:2:0 planes. libav itself is not
 * modelled: the encoder's answers are parameters, and the frame's planes
 * are arrays of bytes with their line sizes.
 */
module Muxer {

  import opened Arithmetic

  type Byte = b: int | 0 <= b < 256

  /** The 32-bit patterns of a `uint32_t`. */
  type Uint32 = n: int | 0 <= n < 0x1_0000_0000

  // ---------------------------------------------------------------------
  // Time stamps
  // ---------------------------------------------------------------------

  /** `AVRational`. */
  datatype Rational = Rational(num: int, den: int)

  function Sign(n: int): (s: int)
    ensures s == -1 || s == 0 || s == 1
    ensures s > 0 <==> n > 0
    ensures s < 0 <==> n < 0
  {
    if n > 0 then 1 else if n < 0 then -1 else 0
  }

  /**
   * `av_compare_ts(a, ta, b, tb)`: -1, 0 or 1 as `a * ta` is below, equal
   * to or above `b * tb`, compared exactly.
   */
  function CompareTs(a: int, ta: Rational, b: int, tb: Rational): int
    requires ta.den > 0 && tb.den > 0
  {
    Sign(a * ta.num * tb.den - b * tb.num * ta.den)
  }

  /** `static_cast<int>` of a `uint32_t`: values from 2^31 on wrap to negative ones. */
  function Int32Of(n: Uint32): (r: int)
    ensures -0x8000_0000 <= r < 0x8000_0000
    ensures (r - n) % 0x1_0000_0000 == 0
  {
    if n < 0x8000_0000 then n else n - 0x1_0000_0000
  }

  /** The stream time base `add_stream` sets: one tick per frame. */
  function FrameTimeBase(frameRate: Uint32): Rational {
    Rational(1, Int32Of(frameRate))
  }

  /** `get_video_frame` gives up when `pts` ticks of `timeBase` lie beyond `duration` seconds. */
  predicate Expired(pts: int, timeBase: Rational, duration: int)
    requires timeBase.den > 0
  {
    CompareTs(pts, timeBase, duration, Rational(1, 1)) > 0
  }

  /** With one tick per frame, a timestamp has expired exactly when it exceeds `duration * frameRate`. */
  lemma ExpiredPastLastFrame(pts: int, frameRate: Uint32, duration: int)
    requires 0 < frameRate < 0x8000_0000
    ensures Expired(pts, FrameTimeBase(frameRate), duration) <==> pts > duration * frameRate
  {
  }

  /**
   * The duration handed to `write_video_frame`: the millisecond count
   * divided by 1000, truncated toward zero as C++ integer division does.
   */
  function DurationSeconds(milliseconds: int): (seconds: int)
    ensures milliseconds >= 0 ==> 0 <= seconds * 1000 <= milliseconds < (seconds + 1) * 1000
    ensures milliseconds < 0 ==> (seconds - 1) * 1000 < milliseconds <= seconds * 1000 <= 0
  {
    if milliseconds >= 0 then milliseconds / 1000 else -((-milliseconds) / 1000)
  }

  // ---------------------------------------------------------------------
  // add_stream
  // ---------------------------------------------------------------------

  /** `AVCodecID` values the settings depend on. */
  const Mpeg1Video: int := 1
  const Mpeg2Video: int := 2
  const H264: int := 27

  /** `AV_PIX_FMT_YUV420P`. */
  const Yuv420p: int := 0

  /** `AVFMT_GLOBALHEADER` and `AV_CODEC_FLAG_GLOBAL_HEADER`. */
  const FormatGlobalHeader: bv32 := 0x40
  const CodecGlobalHeader: bv32 := 0x40_0000

  datatype MediaType = Video | OtherMedia

  /** The fields of `AVCodecContext` and `AVStream` that `add_stream` sets. */
  class CodecContext {
    var codecId: int
    var bitRate: int
    var width: int
    var height: int
    var timeBase: Rational
    var streamTimeBase: Rational
    var gopSize: int
    var pixelFormat: int
    var maxBFrames: int
    var mbDecision: int
    var flags: bv32

    /** A freshly allocated context: its defaults are given. */
    constructor (codecId: int, maxBFrames: int, mbDecision: int, flags: bv32)
      ensures this.codecId == codecId && this.maxBFrames == maxBFrames
      ensures this.mbDecision == mbDecision && this.flags == flags
    {
      this.codecId := codecId;
      this.maxBFrames := maxBFrames;
      this.mbDecision := mbDecision;
      this.flags := flags;
    }

    /**
     * `add_stream` once the encoder, packet, stream and context exist: a
     * video codec gets 400 kbit/s, the frame size, one tick per frame,
     * a GOP of 12 and YUV 4:2:0; MPEG-2 also two B-frames and MPEG-1
     * macroblock decision 2. A format that wants global headers sets the
     * codec's global-header flag.
     */
    method AddStream(mediaType: MediaType, codec: int, width: int, height: int,
                     frameRate: Uint32, formatFlags: bv32)
      modifies this
      ensures mediaType == Video ==>
        codecId == codec && bitRate == 400000 && this.width == width && this.height == height &&
        streamTimeBase == FrameTimeBase(frameRate) && timeBase == streamTimeBase &&
        gopSize == 12 && pixelFormat == Yuv420p &&
        maxBFrames == (if codec == Mpeg2Video then 2 else old(maxBFrames)) &&
        mbDecision == (if codec == Mpeg1Video then 2 else old(mbDecision))
      ensures mediaType != Video ==>
        codecId == old(codecId) && bitRate == old(bitRate) && this.width == old(this.width) &&
        this.height == old(this.height) && timeBase == old(timeBase) &&
        streamTimeBase == old(streamTimeBase) && gopSize == old(gopSize) &&
        pixelFormat == old(pixelFormat) && maxBFrames == old(maxBFrames) && mbDecision == old(mbDecision)
      ensures flags == if formatFlags & FormatGlobalHeader != 0 then old(flags) | CodecGlobalHeader else old(flags)
    {
      match mediaType {
        case Video =>
          codecId := codec;
          bitRate := 400000;
          this.width := width;
          this.height := height;
          streamTimeBase := FrameTimeBase(frameRate);
          timeBase := streamTimeBase;
          gopSize := 12;
          pixelFormat := Yuv420p;
          if codecId == Mpeg2Video {
            maxBFrames := 2;
          }
          if codecId == Mpeg1Video {
            mbDecision := 2;
          }
        case OtherMedia =>
      }
      if formatFlags & FormatGlobalHeader != 0 {
        flags := flags | CodecGlobalHeader;
      }
    }
  }

  /** The global-header flag is set afterwards exactly when the format asks for it or it was set already. */
  lemma GlobalHeaderFlag(formatFlags: bv32, flags: bv32)
    ensures var after := if formatFlags & FormatGlobalHeader != 0 then flags | CodecGlobalHeader else flags;
      (after & CodecGlobalHeader != 0 <==> formatFlags & FormatGlobalHeader != 0 || flags & CodecGlobalHeader != 0) &&
      after & !CodecGlobalHeader == flags & !CodecGlobalHeader
  {
  }

  // ---------------------------------------------------------------------
  // fill_yuv_image
  // ---------------------------------------------------------------------

  /** Luma of pixel (x, y) in frame `frameIndex`, cast to `uint8_t`. */
  function Luma(x: int, y: int, frameIndex: int): Byte {
    (x + y + frameIndex * 3) % 256
  }

  /** Blue-difference chroma of row y. */
  function Cb(y: int, frameIndex: int): Byte {
    (128 + y + frameIndex * 2) % 256
  }

  /** Red-difference chroma of column x. */
  function Cr(x: int, frameIndex: int): Byte {
    (64 + x + frameIndex * 5) % 256
  }

  /** From one frame to the next the luma pattern moves three pixels left along each row. */
  lemma LumaMoves(x: int, y: int, frameIndex: int)
    ensures Luma(x, y, frameIndex + 1) == Luma(x + 3, y, frameIndex)
    ensures Luma(x, y, frameIndex + 256) == Luma(x, y, frameIndex)
  {
    var a := x + y + frameIndex * 3;
    assert x + y + (frameIndex + 256) * 3 == a + 768;
    DivModUnique(a + 768, 256, a / 256 + 3, a % 256);
  }

  /** Byte `i` of a plane with `linesize` bytes per line lies in the w x h picture rectangle. */
  predicate InPicture(i: int, linesize: nat, w: nat, h: nat)
    requires linesize > 0
  {
    0 <= i && i / linesize < h && i % linesize < w
  }

  /** Byte `i` comes before (x, y) in row-major order. */
  predicate Before(i: int, linesize: nat, x: nat, y: nat)
    requires linesize > 0
  {
    i / linesize < y || (i / linesize == y && i % linesize < x)
  }

  /** The byte of (x, y) is the only one between "before (x, y)" and "before (x + 1, y)". */
  lemma BeforeStep(i: int, linesize: nat, x: nat, y: nat)
    requires 0 <= i && x < linesize
    ensures Before(i, linesize, x + 1, y) <==> Before(i, linesize, x, y) || i == y * linesize + x
    ensures i == y * linesize + x ==> i / linesize == y && i % linesize == x
  {
    if i / linesize == y && i % linesize == x {
      assert i == linesize * (i / linesize) + i % linesize;
    }
    if i == y * linesize + x {
      DivModUnique(i, linesize, y, x);
    }
  }

  /** (x, y) of a w x h picture lies inside a plane of h lines of `linesize >= w` bytes. */
  lemma PixelInside(x: nat, y: nat, linesize: nat, w: nat, h: nat)
    requires x < w <= linesize && y < h
    ensures y * linesize + x < h * linesize
    ensures InPicture(y * linesize + x, linesize, w, h)
  {
    MulMonotone(y + 1, h, linesize);
    DivModUnique(y * linesize + x, linesize, y, x);
  }

  /** The luma plane after `fill_yuv_image`: the picture rectangle is overwritten, the padding kept. */
  function LumaPlane(before: seq<Byte>, linesize: nat, w: nat, h: nat, frameIndex: int): (after: seq<Byte>)
    requires linesize > 0
    ensures |after| == |before|
  {
    seq(|before|, i requires 0 <= i < |before| =>
      if InPicture(i, linesize, w, h) then Luma(i % linesize, i / linesize, frameIndex) else before[i])
  }

  /** The Cb plane: the half-size rectangle gets the row's chroma. */
  function CbPlane(before: seq<Byte>, linesize: nat, w: nat, h: nat, frameIndex: int): (after: seq<Byte>)
    requires linesize > 0
    ensures |after| == |before|
  {
    seq(|before|, i requires 0 <= i < |before| =>
      if InPicture(i, linesize, w / 2, h / 2) then Cb(i / linesize, frameIndex) else before[i])
  }

  /** The Cr plane: the half-size rectangle gets the column's chroma. */
  function CrPlane(before: seq<Byte>, linesize: nat, w: nat, h: nat, frameIndex: int): (after: seq<Byte>)
    requires linesize > 0
    ensures |after| == |before|
  {
    seq(|before|, i requires 0 <= i < |before| =>
      if InPicture(i, linesize, w / 2, h / 2) then Cr(i % linesize, frameIndex) else before[i])
  }

  /** Filling a plane depends only on the frame index inside the picture: filling twice changes nothing more. */
  lemma {:induction false} FillIdempotent(before: seq<Byte>, linesize: nat, w: nat, h: nat, frameIndex: int)
    requires linesize > 0
    ensures LumaPlane(LumaPlane(before, linesize, w, h, frameIndex), linesize, w, h, frameIndex) ==
      LumaPlane(before, linesize, w, h, frameIndex)
    ensures CbPlane(CbPlane(before, linesize, w, h, frameIndex), linesize, w, h, frameIndex) ==
      CbPlane(before, linesize, w, h, frameIndex)
    ensures CrPlane(CrPlane(before, linesize, w, h, frameIndex), linesize, w, h, frameIndex) ==
      CrPlane(before, linesize, w, h, frameIndex)
  {
  }

  /** Two frames' planes agree outside the picture and on nothing else forced: the padding is the old one. */
  lemma PaddingKept(before: seq<Byte>, linesize: nat, w: nat, h: nat, frameIndex: int, i: nat)
    requires linesize > 0 && i < |before| && w <= linesize
    requires i / linesize >= h || i % linesize >= w
    ensures LumaPlane(before, linesize, w, h, frameIndex)[i] == before[i]
    ensures CbPlane(before, linesize, w, h, frameIndex)[i] == before[i]
    ensures CrPlane(before, linesize, w, h, frameIndex)[i] == before[i]
  {
  }

  /** An `AVFrame` with its three planes, their line sizes and its timestamp. */
  class Frame {
    const luma: array<Byte>
    const cb: array<Byte>
    const cr: array<Byte>
    const lumaLinesize: nat
    const cbLinesize: nat
    const crLinesize: nat
    var pts: int

    /** The buffers `av_frame_get_buffer` gives a w x h YUV 4:2:0 picture. */
    ghost predicate Valid(w: nat, h: nat)
      reads this
    {
      luma != cb && luma != cr && cb != cr &&
      w <= lumaLinesize && 0 < lumaLinesize && h * lumaLinesize <= luma.Length &&
      w / 2 <= cbLinesize && 0 < cbLinesize && (h / 2) * cbLinesize <= cb.Length &&
      w / 2 <= crLinesize && 0 < crLinesize && (h / 2) * crLinesize <= cr.Length
    }

    constructor (luma: array<Byte>, cb: array<Byte>, cr: array<Byte>,
                 lumaLinesize: nat, cbLinesize: nat, crLinesize: nat)
      ensures this.luma == luma && this.cb == cb && this.cr == cr
      ensures this.lumaLinesize == lumaLinesize && this.cbLinesize == cbLinesize
      ensures this.crLinesize == crLinesize && pts == 0
    {
      this.luma, this.cb, this.cr := luma, cb, cr;
      this.lumaLinesize, this.cbLinesize, this.crLinesize := lumaLinesize, cbLinesize, crLinesize;
      pts := 0;
    }
  }

  /**
   * The bytes of the pw x ph picture before (x, y) in row-major order
   * hold their `target` values; every other byte still holds its value
   * from `before`.
   */
  ghost predicate PartlyFilled(now: seq<Byte>, before: seq<Byte>, target: seq<Byte>,
                               linesize: nat, pw: nat, ph: nat, x: nat, y: nat)
    requires linesize > 0
  {
    |now| == |before| == |target| &&
    forall i :: 0 <= i < |now| ==>
      now[i] == if InPicture(i, linesize, pw, ph) && Before(i, linesize, x, y) then target[i] else before[i]
  }

  /** Before the loops nothing is filled. */
  lemma FillStart(before: seq<Byte>, target: seq<Byte>, linesize: nat, pw: nat, ph: nat)
    requires 0 < linesize && |target| == |before|
    ensures PartlyFilled(before, before, target, linesize, pw, ph, 0, 0)
  {
    forall i | 0 <= i < |before| ensures !Before(i, linesize, 0, 0) {
      assert i / linesize >= 0;
    }
  }

  /** Writing the target byte of (x, y) moves the frontier one pixel on. */
  lemma FillStep(now: seq<Byte>, before: seq<Byte>, target: seq<Byte>,
                 linesize: nat, pw: nat, ph: nat, x: nat, y: nat)
    requires 0 < linesize && x < pw <= linesize && y < ph && ph * linesize <= |now|
    requires PartlyFilled(now, before, target, linesize, pw, ph, x, y)
    ensures y * linesize + x < |now|
    ensures PartlyFilled(now[y * linesize + x := target[y * linesize + x]], before, target, linesize, pw, ph, x + 1, y)
  {
    PixelInside(x, y, linesize, pw, ph);
    forall i | 0 <= i < |now|
      ensures Before(i, linesize, x + 1, y) <==> Before(i, linesize, x, y) || i == y * linesize + x
    {
      BeforeStep(i, linesize, x, y);
    }
  }

  /** A finished row: the frontier moves to the start of the next one. */
  lemma RowFilled(now: seq<Byte>, before: seq<Byte>, target: seq<Byte>,
                  linesize: nat, pw: nat, ph: nat, y: nat)
    requires 0 < linesize
    requires PartlyFilled(now, before, target, linesize, pw, ph, pw, y)
    ensures PartlyFilled(now, before, target, linesize, pw, ph, 0, y + 1)
  {
  }

  /** Once every row is done the plane is the target, when the target keeps the padding. */
  lemma PlaneFilled(now: seq<Byte>, before: seq<Byte>, target: seq<Byte>,
                    linesize: nat, pw: nat, ph: nat)
    requires 0 < linesize
    requires PartlyFilled(now, before, target, linesize, pw, ph, 0, ph)
    requires forall i :: 0 <= i < |target| && !InPicture(i, linesize, pw, ph) ==> target[i] == before[i]
    ensures now == target
  {
  }

  /** The target luma byte of a pixel of the picture. */
  lemma LumaByte(before: seq<Byte>, linesize: nat, x: nat, y: nat, w: nat, h: nat, frameIndex: int)
    requires x < w <= linesize && y < h && h * linesize <= |before|
    ensures y * linesize + x < |before|
    ensures LumaPlane(before, linesize, w, h, frameIndex)[y * linesize + x] == Luma(x, y, frameIndex)
  {
    PixelInside(x, y, linesize, w, h);
    BeforeStep(y * linesize + x, linesize, x, y);
  }

  /** The target chroma bytes of a pixel of the half-size picture. */
  lemma ChromaBytes(before: seq<Byte>, linesize: nat, x: nat, y: nat, w: nat, h: nat, frameIndex: int)
    requires x < w / 2 <= linesize && y < h / 2 && (h / 2) * linesize <= |before|
    ensures y * linesize + x < |before|
    ensures CbPlane(before, linesize, w, h, frameIndex)[y * linesize + x] == Cb(y, frameIndex)
    ensures CrPlane(before, linesize, w, h, frameIndex)[y * linesize + x] == Cr(x, frameIndex)
  {
    PixelInside(x, y, linesize, w / 2, h / 2);
    BeforeStep(y * linesize + x, linesize, x, y);
  }

  /** The luma loops of `fill_yuv_image`: rows outside, columns inside. */
  method FillLuma(plane: array<Byte>, linesize: nat, w: nat, h: nat, frameIndex: int)
    requires w <= linesize && 0 < linesize && h * linesize <= plane.Length
    modifies plane
    ensures plane[..] == LumaPlane(old(plane[..]), linesize, w, h, frameIndex)
  {
    ghost var before := plane[..];
    ghost var target := LumaPlane(before, linesize, w, h, frameIndex);
    FillStart(before, target, linesize, w, h);
    var y := 0;
    while y < h
      invariant y <= h
      invariant PartlyFilled(plane[..], before, target, linesize, w, h, 0, y)
    {
      var x := 0;
      while x < w
        invariant x <= w
        invariant PartlyFilled(plane[..], before, target, linesize, w, h, x, y)
      {
        FillStep(plane[..], before, target, linesize, w, h, x, y);
        LumaByte(before, linesize, x, y, w, h, frameIndex);
        plane[y * linesize + x] := Luma(x, y, frameIndex);
        x := x + 1;
      }
      RowFilled(plane[..], before, target, linesize, w, h, y);
      y := y + 1;
    }
    PlaneFilled(plane[..], before, target, linesize, w, h);
  }

  /** The chroma loops of `fill_yuv_image`: each half-size pixel gets its Cb and its Cr byte. */
  method FillChroma(cb: array<Byte>, cbLinesize: nat, cr: array<Byte>, crLinesize: nat,
                    w: nat, h: nat, frameIndex: int)
    requires cb != cr
    requires w / 2 <= cbLinesize && 0 < cbLinesize && (h / 2) * cbLinesize <= cb.Length
    requires w / 2 <= crLinesize && 0 < crLinesize && (h / 2) * crLinesize <= cr.Length
    modifies cb, cr
    ensures cb[..] == CbPlane(old(cb[..]), cbLinesize, w, h, frameIndex)
    ensures cr[..] == CrPlane(old(cr[..]), crLinesize, w, h, frameIndex)
  {
    ghost var cbBefore, crBefore := cb[..], cr[..];
    ghost var cbTarget := CbPlane(cbBefore, cbLinesize, w, h, frameIndex);
    ghost var crTarget := CrPlane(crBefore, crLinesize, w, h, frameIndex);
    FillStart(cbBefore, cbTarget, cbLinesize, w / 2, h / 2);
    FillStart(crBefore, crTarget, crLinesize, w / 2, h / 2);
    var y := 0;
    while y < h / 2
      invariant y <= h / 2
      invariant PartlyFilled(cb[..], cbBefore, cbTarget, cbLinesize, w / 2, h / 2, 0, y)
      invariant PartlyFilled(cr[..], crBefore, crTarget, crLinesize, w / 2, h / 2, 0, y)
    {
      var x := 0;
      while x < w / 2
        invariant x <= w / 2
        invariant PartlyFilled(cb[..], cbBefore, cbTarget, cbLinesize, w / 2, h / 2, x, y)
        invariant PartlyFilled(cr[..], crBefore, crTarget, crLinesize, w / 2, h / 2, x, y)
      {
        FillStep(cb[..], cbBefore, cbTarget, cbLinesize, w / 2, h / 2, x, y);
        ChromaBytes(cbBefore, cbLinesize, x, y, w, h, frameIndex);
        cb[y * cbLinesize + x] := Cb(y, frameIndex);
        FillStep(cr[..], crBefore, crTarget, crLinesize, w / 2, h / 2, x, y);
        ChromaBytes(crBefore, crLinesize, x, y, w, h, frameIndex);
        cr[y * crLinesize + x] := Cr(x, frameIndex);
        x := x + 1;
      }
      RowFilled(cb[..], cbBefore, cbTarget, cbLinesize, w / 2, h / 2, y);
      RowFilled(cr[..], crBefore, crTarget, crLinesize, w / 2, h / 2, y);
      y := y + 1;
    }
    PlaneFilled(cb[..], cbBefore, cbTarget, cbLinesize, w / 2, h / 2);
    PlaneFilled(cr[..], crBefore, crTarget, crLinesize, w / 2, h / 2);
  }

  /** `fill_yuv_image`: the luma loops, then the chroma loops. */
  method FillYuvImage(frame: Frame, frameIndex: int, w: nat, h: nat)
    requires frame.Valid(w, h)
    modifies frame.luma, frame.cb, frame.cr
    ensures frame.luma[..] == LumaPlane(old(frame.luma[..]), frame.lumaLinesize, w, h, frameIndex)
    ensures frame.cb[..] == CbPlane(old(frame.cb[..]), frame.cbLinesize, w, h, frameIndex)
    ensures frame.cr[..] == CrPlane(old(frame.cr[..]), frame.crLinesize, w, h, frameIndex)
  {
    FillLuma(frame.luma, frame.lumaLinesize, w, h, frameIndex);
    FillChroma(frame.cb, frame.cbLinesize, frame.cr, frame.crLinesize, w, h, frameIndex);
  }

  // ---------------------------------------------------------------------
  // get_video_frame and the encode loop
  // ---------------------------------------------------------------------

  /** The parts of `OutputStream` and its encoder that producing pictures uses. */
  class OutputStream {
    var nextPts: int
    const timeBase: Rational
    const width: nat
    const height: nat
    const frame: Frame

    ghost predicate Valid()
      reads this, frame
    {
      timeBase.den > 0 && frame.Valid(width, height)
    }

    /** `OutputStream video_st{}` starts at timestamp 0. */
    constructor (timeBase: Rational, width: nat, height: nat, frame: Frame)
      ensures nextPts == 0 && this.timeBase == timeBase && this.width == width
      ensures this.height == height && this.frame == frame
    {
      nextPts := 0;
      this.timeBase, this.width, this.height, this.frame := timeBase, width, height, frame;
    }

    /**
     * `get_video_frame`: null, with nothing changed, once the next
     * timestamp lies beyond the duration; otherwise the frame is filled
     * for that timestamp, stamped with it, and the next one is counted on.
     */
    method GetVideoFrame(duration: int) returns (produced: Frame?)
      requires Valid()
      modifies this, frame, frame.luma, frame.cb, frame.cr
      ensures Valid()
      ensures Expired(old(nextPts), timeBase, duration) ==>
        produced == null && nextPts == old(nextPts) && unchanged(frame, frame.luma, frame.cb, frame.cr)
      ensures !Expired(old(nextPts), timeBase, duration) ==>
        produced == frame && frame.pts == old(nextPts) && nextPts == old(nextPts) + 1 &&
        frame.luma[..] == LumaPlane(old(frame.luma[..]), frame.lumaLinesize, width, height, old(nextPts)) &&
        frame.cb[..] == CbPlane(old(frame.cb[..]), frame.cbLinesize, width, height, old(nextPts)) &&
        frame.cr[..] == CrPlane(old(frame.cr[..]), frame.crLinesize, width, height, old(nextPts))
    {
      if CompareTs(nextPts, timeBase, duration, Rational(1, 1)) > 0 {
        return null;
      }
      FillYuvImage(frame, nextPts, width, height);
      frame.pts := nextPts;
      nextPts := nextPts + 1;
      return frame;
    }
  }

  /**
   * The timestamps of the pictures `calls` successive calls of
   * `get_video_frame` produce, starting at `pts`.
   */
  function ProducedPts(pts: int, timeBase: Rational, duration: int, calls: nat): seq<int>
    requires timeBase.den > 0
    decreases calls
  {
    if calls == 0 then []
    else if Expired(pts, timeBase, duration) then ProducedPts(pts, timeBase, duration, calls - 1)
    else [pts] + ProducedPts(pts + 1, timeBase, duration, calls - 1)
  }

  /** Once the timestamp has expired no more pictures come. */
  lemma {:induction false} NothingAfterExpiry(pts: int, timeBase: Rational, duration: int, calls: nat)
    requires timeBase.den > 0 && Expired(pts, timeBase, duration)
    ensures ProducedPts(pts, timeBase, duration, calls) == []
  {
    if calls > 0 {
      NothingAfterExpiry(pts, timeBase, duration, calls - 1);
    }
  }

  /**
   * From timestamp `pts`, with one tick per frame, the pictures carry the
   * consecutive timestamps `pts`, `pts + 1`, ... up to `duration * frameRate`,
   * as many as there are calls.
   */
  lemma {:induction false} ConsecutivePts(pts: int, frameRate: Uint32, duration: int, calls: nat)
    requires 0 < frameRate < 0x8000_0000
    decreases calls
    ensures var last := duration * frameRate;
      var count := if pts > last then 0 else if calls <= last - pts + 1 then calls else last - pts + 1;
      ProducedPts(pts, FrameTimeBase(frameRate), duration, calls) == seq(count, k => pts + k)
  {
    var timeBase := FrameTimeBase(frameRate);
    var last := duration * frameRate;
    ExpiredPastLastFrame(pts, frameRate, duration);
    if calls == 0 {
    } else if pts > last {
      NothingAfterExpiry(pts, timeBase, duration, calls);
    } else {
      ConsecutivePts(pts + 1, frameRate, duration, calls - 1);
      var count := if calls <= last - pts + 1 then calls else last - pts + 1;
      var rest := ProducedPts(pts + 1, timeBase, duration, calls - 1);
      assert rest == seq(count - 1, k => pts + 1 + k);
      assert [pts] + rest == seq(count, k => pts + k);
    }
  }

  /** `AVERROR(EAGAIN)` on Linux and `AVERROR_EOF`. */
  const ErrorAgain: int := -11
  const ErrorEof: int := -0x2046_4F45

  /** One answer of the encoder: the result of `avcodec_receive_packet` and, for a packet, of writing it. */
  datatype Step = Step(received: int, written: int)

  /** The receive loop of `write_frame` ends at this answer. */
  predicate Ends(step: Step) {
    step.received < 0 || step.written < 0
  }

  /** `write_frame` returns 0 or 1, or the process ends in `logger::fatal` with this message. */
  datatype WriteOutcome = Returned(value: int) | Fatal(message: string)

  /** What the receive loop does with the encoder's answers, from the first on. */
  function Drain(steps: seq<Step>): WriteOutcome
    requires exists k :: 0 <= k < |steps| && Ends(steps[k])
  {
    var received := steps[0].received;
    if received == ErrorAgain || received == ErrorEof then Returned(if received == ErrorEof then 1 else 0)
    else if received < 0 then Fatal("Error encoding a frame: ")
    else if steps[0].written < 0 then Fatal("Error while writing output packet: ")
    else
      assert forall k :: 0 <= k < |steps| && Ends(steps[k]) ==> k > 0 && Ends(steps[1..][k - 1]);
      Drain(steps[1..])
  }

  /** `write_frame`: a failed send is fatal; otherwise the encoder is drained. */
  function WriteFrameOutcome(sendResult: int, steps: seq<Step>): WriteOutcome
    requires exists k :: 0 <= k < |steps| && Ends(steps[k])
  {
    if sendResult < 0 then Fatal("Error sending a frame to the encoder: ") else Drain(steps)
  }

  /** The first answer that ends the receive loop. */
  function FirstEnd(steps: seq<Step>): (k: nat)
    requires exists k :: 0 <= k < |steps| && Ends(steps[k])
    ensures k < |steps| && Ends(steps[k]) && forall j :: 0 <= j < k ==> !Ends(steps[j])
  {
    if Ends(steps[0]) then 0
    else
      assert forall k :: 0 <= k < |steps| && Ends(steps[k]) ==> k > 0 && Ends(steps[1..][k - 1]);
      1 + FirstEnd(steps[1..])
  }

  /**
   * `write_frame` returns 1 exactly when the loop ended on end of stream,
   * 0 exactly when it ended on "try again", and is fatal otherwise.
   */
  lemma {:induction false} DrainEndsAtFirstEnd(steps: seq<Step>)
    requires exists k :: 0 <= k < |steps| && Ends(steps[k])
    ensures var last := steps[FirstEnd(steps)];
      (Drain(steps) == Returned(1) <==> last.received == ErrorEof) &&
      (Drain(steps) == Returned(0) <==> last.received == ErrorAgain) &&
      (Drain(steps).Returned? <==> last.received == ErrorEof || last.received == ErrorAgain)
  {
    if !Ends(steps[0]) {
      assert forall k :: 0 <= k < |steps| && Ends(steps[k]) ==> k > 0 && Ends(steps[1..][k - 1]);
      DrainEndsAtFirstEnd(steps[1..]);
      assert steps[FirstEnd(steps)] == steps[1..][FirstEnd(steps[1..])];
    }
  }

  /** `write_frame`, with the encoder's answers given in order; returns the packets written too. */
  method WriteFrame(sendResult: int, steps: seq<Step>) returns (outcome: WriteOutcome, packets: nat)
    requires exists k :: 0 <= k < |steps| && Ends(steps[k])
    ensures outcome == WriteFrameOutcome(sendResult, steps)
    ensures outcome.Returned? ==> packets == FirstEnd(steps)
  {
    packets := 0;
    if sendResult < 0 {
      return Fatal("Error sending a frame to the encoder: "), 0;
    }
    var i := 0;
    while true
      invariant i <= FirstEnd(steps) && packets == i
      invariant Drain(steps[i..]) == Drain(steps)
      invariant FirstEnd(steps[i..]) == FirstEnd(steps) - i
      decreases |steps| - i
    {
      assert steps[i..][0] == steps[i];
      var received := steps[i].received;
      if received == ErrorAgain || received == ErrorEof {
        return Returned(if received == ErrorEof then 1 else 0), packets;
      }
      if received < 0 {
        return Fatal("Error encoding a frame: "), packets;
      }
      if steps[i].written < 0 {
        return Fatal("Error while writing output packet: "), packets;
      }
      assert steps[i..][1..] == steps[i + 1..];
      packets := packets + 1;
      i := i + 1;
    }
  }

  /** The encoder's side of one `write_frame` call: the result of the send and the answers to the receives. */
  datatype EncoderAnswer = EncoderAnswer(sendResult: int, steps: seq<Step>)

  /** The encoder eventually ends the receive loop of the call. */
  predicate Drains(answer: EncoderAnswer) {
    exists k :: 0 <= k < |answer.steps| && Ends(answer.steps[k])
  }

  /** What one `write_frame` call comes to, given the encoder's answers. */
  function CallOutcome(answer: EncoderAnswer): WriteOutcome
    requires Drains(answer)
  {
    WriteFrameOutcome(answer.sendResult, answer.steps)
  }

  /** A call that neither asks to go on nor is fatal has reached end of stream. */
  lemma CallEndsOrStops(answer: EncoderAnswer)
    requires Drains(answer)
    ensures CallOutcome(answer).Returned? ==> CallOutcome(answer) == Returned(0) || CallOutcome(answer) == Returned(1)
  {
    if answer.sendResult >= 0 {
      DrainEndsAtFirstEnd(answer.steps);
    }
  }

  /**
   * The encode loop of `Muxer::Muxer`: a picture is requested and handed
   * to `write_frame` until that returns 1; a fatal error ends the process.
   * `answers[k]` is what the encoder answers in the k-th call.
   */
  method EncodeVideo(stream: OutputStream, milliseconds: int, answers: seq<EncoderAnswer>)
    returns (calls: nat, last: WriteOutcome, timestamps: seq<int>)
    requires stream.Valid()
    requires forall k :: 0 <= k < |answers| ==> Drains(answers[k])
    requires exists k :: 0 <= k < |answers| && CallOutcome(answers[k]) != Returned(0)
    modifies stream, stream.frame, stream.frame.luma, stream.frame.cb, stream.frame.cr
    ensures 0 < calls <= |answers|
    ensures forall k :: 0 <= k < calls - 1 ==> CallOutcome(answers[k]) == Returned(0)
    ensures last == CallOutcome(answers[calls - 1])
    ensures last == Returned(1) || last.Fatal?
    ensures timestamps == ProducedPts(old(stream.nextPts), stream.timeBase, DurationSeconds(milliseconds), calls)
    ensures stream.nextPts == old(stream.nextPts) + |timestamps|
  {
    var duration := DurationSeconds(milliseconds);
    ghost var start := stream.nextPts;
    calls, last, timestamps := 0, Returned(0), [];
    while last == Returned(0)
      invariant stream.Valid()
      invariant calls <= |answers|
      invariant last == Returned(0) <==> forall k :: 0 <= k < calls ==> CallOutcome(answers[k]) == Returned(0)
      invariant forall k :: 0 <= k < calls - 1 ==> CallOutcome(answers[k]) == Returned(0)
      invariant last != Returned(0) ==> 0 < calls && last == CallOutcome(answers[calls - 1])
      invariant stream.nextPts == start + |timestamps|
      invariant timestamps == ProducedPts(start, stream.timeBase, duration, calls)
      decreases |answers| - calls
    {
      var produced := stream.GetVideoFrame(duration);
      ProducedSnoc(start, stream.timeBase, duration, calls);
      if produced != null {
        timestamps := timestamps + [produced.pts];
      }
      var packets;
      last, packets := WriteFrame(answers[calls].sendResult, answers[calls].steps);
      calls := calls + 1;
    }
    CallEndsOrStops(answers[calls - 1]);
  }

  /** One more call adds the picture of the next timestamp, unless that one has expired. */
  lemma {:induction false} ProducedSnoc(pts: int, timeBase: Rational, duration: int, calls: nat)
    requires timeBase.den > 0
    decreases calls
    ensures var before := ProducedPts(pts, timeBase, duration, calls);
      var next := pts + |before|;
      ProducedPts(pts, timeBase, duration, calls + 1) ==
        before + (if Expired(next, timeBase, duration) then [] else [next])
  {
    if calls > 0 {
      if Expired(pts, timeBase, duration) {
        ProducedSnoc(pts, timeBase, duration, calls - 1);
      } else {
        ProducedSnoc(pts + 1, timeBase, duration, calls - 1);
      }
    }
  }
}

=== FILE: pip_output_parser.dfy ===
/**
 * The pip-output line classifier (gfx/utils/pip_output_parser.hpp).
 *
 * `parse_pip_output` reads one line of `pip install` output and reports
 * two kinds of line: a satisfied requirement whose installed version
 * differs from the required one, and a package pip would install. The five
 * regular expressions of the source are fixed patterns; each becomes a
 * scanner here, and each scanner that extracts a group is proved to return
 * the leftmost-first match of its pattern (the semantics of
 * `RE2::PartialMatch`): the match that starts first and, among those, the
 * one the greedy repetitions prefer.
 */
module PipOutputParser {

  import opened Wrappers
  import opened Strings

  // ---------------------------------------------------------------------
  // Searching
  // ---------------------------------------------------------------------

  /** The first occurrence of `pat` at or after `from`. */
  function Find(s: string, pat: string, from: nat): (r: Option<nat>)
    ensures r.Some? ==> from <= r.value && OccursAt(s, pat, r.value)
    ensures r.Some? ==> forall m :: from <= m < r.value ==> !OccursAt(s, pat, m)
    ensures r.None? ==> forall m :: from <= m ==> !OccursAt(s, pat, m)
    decreases |s| - from
  {
    if from + |pat| > |s| then None
    else if s[from..from + |pat|] == pat then Some(from)
    else Find(s, pat, from + 1)
  }

  /** The last `c` in `s[lo..hi]`, which holds one at `lo`. */
  function LastIndexOf(s: string, c: char, lo: nat, hi: nat): (d: nat)
    requires lo < hi <= |s| && s[lo] == c
    ensures lo <= d < hi && s[d] == c
    ensures forall m :: d < m < hi ==> s[m] != c
    decreases hi - lo
  {
    if s[hi - 1] == c then hi - 1 else LastIndexOf(s, c, lo, hi - 1)
  }

  predicate IsGe(s: string, k: int) {
    0 <= k && k + 1 < |s| && s[k] == '>' && s[k + 1] == '='
  }

  lemma GeOccursAt(s: string, k: int)
    ensures OccursAt(s, ">=", k) <==> IsGe(s, k)
  {
    if 0 <= k && k + 2 <= |s| {
      assert s[k..k + 2] == [s[k], s[k + 1]];
    }
  }

  /** The first ">=" of the line. */
  function FirstGe(s: string): (r: Option<nat>)
    ensures r.Some? ==> IsGe(s, r.value) && forall m :: 0 <= m < r.value ==> !IsGe(s, m)
    ensures r.None? ==> forall m :: !IsGe(s, m)
  {
    var r := Find(s, ">=", 0);
    if r.Some? then
      GeOccursAt(s, r.value);
      assert forall m :: 0 <= m < r.value ==> !IsGe(s, m) by {
        forall m | 0 <= m < r.value ensures !IsGe(s, m) { GeOccursAt(s, m); }
      }
      r
    else
      assert forall m :: !IsGe(s, m) by {
        forall m ensures !IsGe(s, m) { GeOccursAt(s, m); }
      }
      r
  }

  /** The first `c` of the line. */
  function IndexOf(s: string, c: char, from: nat): (r: Option<nat>)
    ensures r.Some? ==> from <= r.value < |s| && s[r.value] == c
    ensures r.Some? ==> forall m :: from <= m < r.value ==> s[m] != c
    ensures r.None? ==> forall m :: from <= m < |s| ==> s[m] != c
    decreases |s| - from
  {
    if from >= |s| then None
    else if s[from] == c then Some(from)
    else IndexOf(s, c, from + 1)
  }

  // ---------------------------------------------------------------------
  // The patterns
  // ---------------------------------------------------------------------

  const SatisfiedPrefix: string := "Requirement already satisfied: "
  const RequirementsPattern: string := "from -r requirements.txt"
  const WouldInstallPrefix: string := "Would install"

  /** `pat` matches at `i` when each of its '.' stands for any character. */
  predicate WildOccursAt(s: string, pat: string, i: int) {
    0 <= i && i + |pat| <= |s| &&
    forall m :: 0 <= m < |pat| ==> pat[m] == '.' || s[i + m] == pat[m]
  }

  /** An unanchored match of a pattern whose only special character is '.'. */
  predicate WildContains(s: string, pat: string) {
    exists i | 0 <= i <= |s| - |pat| :: WildOccursAt(s, pat, i)
  }

  /** `>=([0-9.]*)` matches from `p` with its group ending at `g`. */
  predicate RequiredMatch(s: string, p: int, g: int) {
    IsGe(s, p) && p + 2 <= g <= |s| && AllIn(s, p + 2, g, VersionChars)
  }

  /** `([0-9.]*)[)]$` matches from `p` with its group ending at `g`. */
  predicate InstalledMatch(s: string, p: int, g: int) {
    0 <= p <= g && g + 1 == |s| && s[g] == ')' && AllIn(s, p, g, VersionChars)
  }

  /** `([[:alnum:]-]*)>=` matches from `p` with its group ending at `g`. */
  predicate ModuleMatch(s: string, p: int, g: int) {
    0 <= p <= g && IsGe(s, g) && AllIn(s, p, g, NameChars)
  }

  /** `([[:alnum:]-]*-[0-9.]*)` matches from `p`, its '-' at `d`, its group ending at `g`. */
  predicate PackageMatch(s: string, p: int, d: int, g: int) {
    0 <= p <= d < g <= |s| && AllIn(s, p, d, NameChars) && s[d] == '-' &&
    AllIn(s, d + 1, g, VersionChars)
  }

  /** The match `>=([0-9.]*)` finds: the first ">=" and the version run after it. */
  function FindRequired(s: string): (m: Option<(nat, nat)>)
    ensures m.Some? ==> RequiredMatch(s, m.value.0, m.value.1)
  {
    match FirstGe(s)
    case None => None
    case Some(k) => Some((k, k + 2 + RunFrom(s, k + 2, VersionChars)))
  }

  /** The match `([0-9.]*)[)]$` finds: the version run before a final ')'. */
  function FindInstalled(s: string): (m: Option<(nat, nat)>)
    ensures m.Some? ==> InstalledMatch(s, m.value.0, m.value.1)
  {
    if |s| > 0 && s[|s| - 1] == ')' then
      Some((|s| - 1 - RunBefore(s, |s| - 1, VersionChars), |s| - 1))
    else None
  }

  /** The match `([[:alnum:]-]*)>=` finds: the name run ending at the first ">=". */
  function FindModule(s: string): (m: Option<(nat, nat)>)
    ensures m.Some? ==> ModuleMatch(s, m.value.0, m.value.1)
  {
    match FirstGe(s)
    case None => None
    case Some(k) => Some((k - RunBefore(s, k, NameChars), k))
  }

  /**
   * The match `([[:alnum:]-]*-[0-9.]*)` finds: the name run holding the
   * first '-' of the line, up to its last '-', and the version run after it.
   */
  function FindPackage(s: string): (m: Option<(nat, nat, nat)>)
    ensures m.Some? ==> PackageMatch(s, m.value.0, m.value.1, m.value.2)
  {
    match IndexOf(s, '-', 0)
    case None => None
    case Some(k) =>
      var p := k - RunBefore(s, k, NameChars);
      var e := k + RunFrom(s, k, NameChars);
      var d := LastIndexOf(s, '-', k, e);
      Some((p, d, d + 1 + RunFrom(s, d + 1, VersionChars)))
  }

  // ---------------------------------------------------------------------
  // Leftmost-first
  // ---------------------------------------------------------------------

  /** `FindRequired` returns the leftmost match, and its longest group. */
  lemma {:induction false} RequiredLeftmostFirst(s: string)
    ensures FindRequired(s).None? <==> forall p, g :: !RequiredMatch(s, p, g)
    ensures FindRequired(s).Some? ==> forall p, g :: RequiredMatch(s, p, g) ==>
      FindRequired(s).value.0 < p || (FindRequired(s).value.0 == p && g <= FindRequired(s).value.1)
  {
    var first := FirstGe(s);
    if first.Some? {
      var k := first.value;
      var n := RunFrom(s, k + 2, VersionChars);
      assert RequiredMatch(s, k, k + 2 + n);
      forall p, g | RequiredMatch(s, p, g) ensures k < p || (k == p && g <= k + 2 + n) {
      }
    }
  }

  /** `FindInstalled` returns the leftmost match. */
  lemma {:induction false} InstalledLeftmost(s: string)
    ensures FindInstalled(s).None? <==> forall p, g :: !InstalledMatch(s, p, g)
    ensures FindInstalled(s).Some? ==> forall p, g :: InstalledMatch(s, p, g) ==>
      FindInstalled(s).value.0 <= p && g == FindInstalled(s).value.1
  {
    if FindInstalled(s).Some? {
      var (p0, g0) := FindInstalled(s).value;
      forall p, g | InstalledMatch(s, p, g) ensures p0 <= p && g == g0 {
      }
    }
  }

  /** `FindModule` returns the leftmost match, and its longest group. */
  lemma {:induction false} ModuleLeftmostFirst(s: string)
    ensures FindModule(s).None? <==> forall p, g :: !ModuleMatch(s, p, g)
    ensures FindModule(s).Some? ==> forall p, g :: ModuleMatch(s, p, g) ==>
      FindModule(s).value.0 < p || (FindModule(s).value.0 == p && g <= FindModule(s).value.1)
  {
    var first := FirstGe(s);
    if first.Some? {
      var k := first.value;
      var p0 := k - RunBefore(s, k, NameChars);
      forall p, g | ModuleMatch(s, p, g) ensures p0 < p || (p0 == p && g <= k) {
        assert k <= g;
      }
    } else {
      forall p, g ensures !ModuleMatch(s, p, g) {
      }
    }
  }

  /** Any match of the package pattern is one the match `FindPackage` finds is preferred to. */
  lemma PackagePreferred(s: string, k: nat, p0: nat, e: nat, d0: nat, g0: nat, p: int, d: int, g: int)
    requires k < |s| && s[k] == '-' && forall m :: 0 <= m < k ==> s[m] != '-'
    requires p0 <= k && (p0 == 0 || !InClass(s[p0 - 1], NameChars))
    requires k < e <= |s| && AllIn(s, k, e, NameChars) && (e == |s| || !InClass(s[e], NameChars))
    requires k <= d0 < e && forall m :: d0 < m < e ==> s[m] != '-'
    requires d0 < g0 <= |s| && (g0 == |s| || !InClass(s[g0], VersionChars))
    requires PackageMatch(s, p, d, g)
    ensures p0 < p || (p0 == p && (d < d0 || (d == d0 && g <= g0)))
  {
    assert k <= d;
  }

  /** Leftmost-first preference: `m` starts earlier, or reaches a later '-', or a longer version. */
  predicate Prefers(m: (nat, nat, nat), p: int, d: int, g: int) {
    m.0 < p || (m.0 == p && (d < m.1 || (d == m.1 && g <= m.2)))
  }

  /**
   * `FindPackage` returns the leftmost match; at that start, the greedy
   * name run reaches the last possible '-', and the version run after it
   * is the longest.
   */
  lemma {:induction false} PackageLeftmostFirst(s: string)
    ensures FindPackage(s).None? <==> forall p, d, g :: !PackageMatch(s, p, d, g)
    ensures FindPackage(s).Some? ==>
      forall p, d, g :: PackageMatch(s, p, d, g) ==> Prefers(FindPackage(s).value, p, d, g)
  {
    match IndexOf(s, '-', 0)
    case None =>
      forall p, d, g ensures !PackageMatch(s, p, d, g) {
        NeedsDash(s, p, d, g);
      }
    case Some(k) =>
      PackageFound(s, k);
  }

  /** The case of a line with a '-' at `k` and none before it. */
  lemma PackageFound(s: string, k: nat)
    requires IndexOf(s, '-', 0) == Some(k)
    ensures FindPackage(s).Some?
    ensures forall p, d, g :: PackageMatch(s, p, d, g) ==> Prefers(FindPackage(s).value, p, d, g)
  {
    var p0 := k - RunBefore(s, k, NameChars);
    var e := k + RunFrom(s, k, NameChars);
    var d0 := LastIndexOf(s, '-', k, e);
    var g0 := d0 + 1 + RunFrom(s, d0 + 1, VersionChars);
    assert FindPackage(s).value == (p0, d0, g0);
    forall p, d, g | PackageMatch(s, p, d, g) ensures Prefers((p0, d0, g0), p, d, g) {
      PackagePreferred(s, k, p0, e, d0, g0, p, d, g);
    }
  }

  /** Every match of the package pattern holds a '-'. */
  lemma NeedsDash(s: string, p: int, d: int, g: int)
    requires IndexOf(s, '-', 0).None?
    ensures !PackageMatch(s, p, d, g)
  {
  }

  // ---------------------------------------------------------------------
  // One line
  // ---------------------------------------------------------------------

  /** What a line is: a satisfied requirement, a planned install, or anything else. */
  predicate IsSatisfiedLine(line: string) {
    StartsWith(line, SatisfiedPrefix) && WildContains(line, RequirementsPattern)
  }

  /**
   * The text written for one line, or None when an assertion in
   * `getMatchingString` stops the process because its pattern does not
   * match.
   */
  function LineOutput(line: string): (r: Option<string>)
    ensures !IsSatisfiedLine(line) && !StartsWith(line, WouldInstallPrefix) ==> r == Some("")
    ensures IsSatisfiedLine(line) ==> (r.None? <==> FindRequired(line).None? || FindInstalled(line).None?)
    ensures !IsSatisfiedLine(line) && StartsWith(line, WouldInstallPrefix) ==> (r.None? <==> FindPackage(line).None?)
  {
    if IsSatisfiedLine(line) then
      match (FindRequired(line), FindInstalled(line))
      case (Some(req), Some(inst)) =>
        var required := line[req.0 + 2..req.1];
        var installed := line[inst.0..inst.1];
        if required == installed then Some("")
        else
          var (p, g) := FindModule(line).value;
          Some(line[p..g] + " required " + required + " does not match installed " + installed + "\n")
      case _ => None
    else if StartsWith(line, WouldInstallPrefix) then
      match FindPackage(line)
      case None => None
      case Some((p, _, g)) => Some("would install: " + line[p..g] + "\n")
    else Some("")
  }

  /** A requirement line in pip's format, with a module name and two versions. */
  function SatisfiedLine(moduleName: string, required: string, installed: string): string {
    SatisfiedPrefix + moduleName + ">=" + required + " " + RequirementsPattern + " (" + installed + ")"
  }

  /** A planned-install line in pip's format. */
  function WouldInstallLine(name: string, version: string): string {
    WouldInstallPrefix + " " + name + "-" + version
  }

  /** A slice spelling out `w`, all of whose characters satisfy `p`. */
  lemma AllInSlice(s: string, i: nat, j: nat, cls: CharClass, w: string)
    requires i <= j <= |s| && s[i..j] == w && forall c | c in w :: InClass(c, cls)
    ensures AllIn(s, i, j, cls)
  {
    forall m | i <= m < j ensures InClass(s[m], cls) {
      assert s[m] == w[m - i];
    }
  }

  /** With its first ">=" at `k`, a line's required version ends where the version run does. */
  lemma RequiredAt(s: string, k: nat, t: nat)
    requires IsGe(s, k) && forall m :: 0 <= m < k ==> s[m] != '>'
    requires k + 2 <= t <= |s| && AllIn(s, k + 2, t, VersionChars) && (t == |s| || !InClass(s[t], VersionChars))
    ensures FindRequired(s) == Some((k, t))
  {
    var k' := FirstGe(s).value;
    assert k' == k;
  }

  /** With its first ">=" at `k`, a line's module name is the name run before it. */
  lemma ModuleAt(s: string, a: nat, k: nat)
    requires IsGe(s, k) && forall m :: 0 <= m < k ==> s[m] != '>'
    requires a <= k && AllIn(s, a, k, NameChars) && (a == 0 || !InClass(s[a - 1], NameChars))
    ensures FindModule(s) == Some((a, k))
  {
    var k' := FirstGe(s).value;
    assert k' == k;
  }

  /** A line ending in "(" + v + ")" has the installed version `v`. */
  lemma InstalledAt(s: string, p: nat)
    requires 0 < p < |s| && s[|s| - 1] == ')' && s[p - 1] == '('
    requires AllIn(s, p, |s| - 1, VersionChars)
    ensures FindInstalled(s) == Some((p, |s| - 1))
  {
    var n := RunBefore(s, |s| - 1, VersionChars);
    assert n == |s| - 1 - p;
  }

  /** The output of a satisfied-requirement line, given where its parts lie. */
  lemma SatisfiedOutputAt(s: string, a: nat, k: nat, t: nat, p: nat)
    requires IsSatisfiedLine(s)
    requires IsGe(s, k) && forall m :: 0 <= m < k ==> s[m] != '>'
    requires k + 2 <= t < |s| && AllIn(s, k + 2, t, VersionChars) && !InClass(s[t], VersionChars)
    requires 0 < p < |s| && s[|s| - 1] == ')' && s[p - 1] == '(' && AllIn(s, p, |s| - 1, VersionChars)
    requires 0 < a <= k && AllIn(s, a, k, NameChars) && !InClass(s[a - 1], NameChars)
    ensures LineOutput(s) ==
      Some(if s[k + 2..t] == s[p..|s| - 1] then ""
           else s[a..k] + " required " + s[k + 2..t] + " does not match installed " + s[p..|s| - 1] + "\n")
  {
    RequiredAt(s, k, t);
    InstalledAt(s, p);
    ModuleAt(s, a, k);
    OutputFromFinds(s, a, k, t, p);
  }

  /** The output of a requirement line once its three fields are located. */
  lemma OutputFromFinds(s: string, a: nat, k: nat, t: nat, p: nat)
    requires IsSatisfiedLine(s) && a <= k && k + 2 <= t <= |s| && p < |s|
    requires FindRequired(s) == Some((k, t)) && FindInstalled(s) == Some((p, |s| - 1))
    requires FindModule(s) == Some((a, k))
    ensures LineOutput(s) ==
      Some(if s[k + 2..t] == s[p..|s| - 1] then ""
           else s[a..k] + " required " + s[k + 2..t] + " does not match installed " + s[p..|s| - 1] + "\n")
  {
  }

  /** Where the parts of a line built from a head, three fields and a tail lie. */
  lemma SatisfiedLineFacts(s: string, head: string, moduleName: string, required: string, tail: string, installed: string)
    requires s == head + moduleName + ">=" + required + tail + installed + ")"
    requires '>' !in head && |head| > 0 && head[|head| - 1] == ' '
    requires |tail| > 0 && tail[0] == ' ' && tail[|tail| - 1] == '('
    requires forall c | c in moduleName :: IsNameChar(c)
    requires forall c | c in required :: IsVersionChar(c)
    requires forall c | c in installed :: IsVersionChar(c)
    ensures var a := |head|;
      var k := a + |moduleName|;
      var t := k + 2 + |required|;
      var p := |s| - 1 - |installed|;
      s[..a] == head && s[t..t + |tail|] == tail &&
      IsGe(s, k) && (forall m :: 0 <= m < k ==> s[m] != '>') &&
      k + 2 <= t < |s| && AllIn(s, k + 2, t, VersionChars) && !InClass(s[t], VersionChars) &&
      0 < p < |s| && s[|s| - 1] == ')' && s[p - 1] == '(' && AllIn(s, p, |s| - 1, VersionChars) &&
      0 < a <= k && AllIn(s, a, k, NameChars) && !InClass(s[a - 1], NameChars) &&
      s[a..k] == moduleName && s[k + 2..t] == required && s[p..|s| - 1] == installed
  {
    var a := |head|;
    var k := a + |moduleName|;
    var t := k + 2 + |required|;
    var p := |s| - 1 - |installed|;
    assert s[..a] == head;
    assert s[a..k] == moduleName;
    assert s[k + 2..t] == required;
    assert s[t..t + |tail|] == tail;
    assert s[p..|s| - 1] == installed;
    forall m | 0 <= m < k ensures s[m] != '>' {
      if m < a {
        assert s[m] == s[..a][m] == head[m] && head[m] in head;
      } else {
        assert s[m] == s[a..k][m - a] == moduleName[m - a] && moduleName[m - a] in moduleName;
      }
    }
    AllInSlice(s, k + 2, t, VersionChars, required);
    AllInSlice(s, p, |s| - 1, VersionChars, installed);
    AllInSlice(s, a, k, NameChars, moduleName);
  }

  /** The characters of the requirement prefix that the scanners rely on. */
  lemma PrefixChars()
    ensures '>' !in SatisfiedPrefix && SatisfiedPrefix[|SatisfiedPrefix| - 1] == ' '
  {
  }

  /** The text after the required version holds the requirements-file pattern. */
  lemma TailMatches(s: string, t: nat, tail: string)
    requires tail == " " + RequirementsPattern + " ("
    requires t + |tail| <= |s| && s[t..t + |tail|] == tail
    ensures WildContains(s, RequirementsPattern)
  {
    forall m | 0 <= m < |RequirementsPattern|
      ensures s[t + 1 + m] == RequirementsPattern[m]
    {
      assert s[t + 1 + m] == s[t..t + |tail|][1 + m] == tail[1 + m];
    }
    assert WildOccursAt(s, RequirementsPattern, t + 1);
  }

  /**
   * A satisfied requirement writes nothing when the versions agree and the
   * mismatch message otherwise.
   */
  lemma {:induction false} SatisfiedLineOutput(moduleName: string, required: string, installed: string)
    requires forall c | c in moduleName :: IsNameChar(c)
    requires forall c | c in required :: IsVersionChar(c)
    requires forall c | c in installed :: IsVersionChar(c)
    ensures LineOutput(SatisfiedLine(moduleName, required, installed)) ==
      Some(if required == installed then ""
           else moduleName + " required " + required + " does not match installed " + installed + "\n")
  {
    var tail := " " + RequirementsPattern + " (";
    var s := SatisfiedLine(moduleName, required, installed);
    var a := |SatisfiedPrefix|;
    var k := a + |moduleName|;
    var t := k + 2 + |required|;
    var p := |s| - 1 - |installed|;
    PrefixChars();
    SatisfiedLineFacts(s, SatisfiedPrefix, moduleName, required, tail, installed);
    TailMatches(s, t, tail);
    assert IsSatisfiedLine(s);
    SatisfiedOutputAt(s, a, k, t, p);
  }

  /** Where the parts of a line built from a head, a name, a '-' and a version lie. */
  lemma PackageLineFacts(s: string, head: string, name: string, version: string)
    requires s == head + name + "-" + version
    requires '-' !in head && |head| > 0 && head[|head| - 1] == ' '
    requires forall c | c in name :: IsNameChar(c)
    requires forall c | c in version :: IsVersionChar(c)
    ensures var a := |head|;
      var d := a + |name|;
      PackageMatch(s, a, d, |s|) && !InClass(s[a - 1], NameChars) &&
      (forall m :: 0 <= m < a ==> s[m] != '-') &&
      (forall m :: d < m < |s| ==> s[m] != '-') &&
      s[a..] == name + "-" + version
  {
    var a := |head|;
    var d := a + |name|;
    assert s[..a] == head;
    assert s[a..d] == name;
    assert s[d + 1..] == version;
    forall m | 0 <= m < a ensures s[m] != '-' {
      assert s[m] == s[..a][m] == head[m] && head[m] in head;
    }
    forall m | d < m < |s| ensures s[m] != '-' {
      assert s[m] == s[d + 1..][m - d - 1] == version[m - d - 1] && version[m - d - 1] in version;
    }
    AllInSlice(s, a, d, NameChars, name);
    AllInSlice(s, d + 1, |s|, VersionChars, version);
  }

  /** Given where its parts lie, the package pattern matches from the name to the end. */
  lemma PackageAt(s: string, a: nat, d: nat)
    requires PackageMatch(s, a, d, |s|) && 0 < a && !InClass(s[a - 1], NameChars)
    requires forall m :: 0 <= m < a ==> s[m] != '-'
    requires forall m :: d < m < |s| ==> s[m] != '-'
    ensures FindPackage(s) == Some((a, d, |s|))
  {
    PackageLeftmostFirst(s);
    var (p0, d0, g0) := FindPackage(s).value;
    assert a <= d0;
  }

  /** A planned install of `name-version` is reported with its full name and version. */
  lemma {:induction false} WouldInstallLineOutput(name: string, version: string)
    requires forall c | c in name :: IsNameChar(c)
    requires forall c | c in version :: IsVersionChar(c)
    ensures LineOutput(WouldInstallLine(name, version)) ==
      Some("would install: " + name + "-" + version + "\n")
  {
    var s := WouldInstallLine(name, version);
    var head := WouldInstallPrefix + " ";
    HeadChars(s, head);
    PackageLineFacts(s, head, name, version);
    PackageAt(s, |head|, |head| + |name|);
    assert s[|head|..|s|] == name + "-" + version;
    assert LineOutput(s) == Some("would install: " + s[|head|..|s|] + "\n");
    assert "would install: " + (name + "-" + version) + "\n" == "would install: " + name + "-" + version + "\n";
  }

  /** The head of a planned-install line. */
  lemma HeadChars(s: string, head: string)
    requires head == WouldInstallPrefix + " " && StartsWith(s, head)
    ensures '-' !in head && head[|head| - 1] == ' '
    ensures StartsWith(s, WouldInstallPrefix) && !IsSatisfiedLine(s)
  {
    assert s[0] == 'W' != SatisfiedPrefix[0];
    assert s[..|WouldInstallPrefix|] == head[..|WouldInstallPrefix|];
  }

  // ---------------------------------------------------------------------
  // The streams
  // ---------------------------------------------------------------------

  /** The line `std::getline` extracts at `pos`: everything up to the next newline. */
  function LineAt(text: string, pos: nat): (line: string)
    requires pos <= |text|
    ensures '\n' !in line && pos + |line| <= |text|
    ensures line == text[pos..pos + |line|]
    ensures pos + |line| == |text| || text[pos + |line|] == '\n'
  {
    text[pos..pos + RunFrom(text, pos, NotNewline)]
  }

  /** Where the next line starts: after the newline, if there is one. */
  function NextLine(text: string, pos: nat): (next: nat)
    requires pos < |text|
    ensures pos < next <= |text|
    ensures text[pos..next] == LineAt(text, pos) + (if pos + |LineAt(text, pos)| < |text| then "\n" else "")
  {
    var end := pos + |LineAt(text, pos)|;
    if end < |text| then end + 1 else end
  }

  class InputStream {
    const text: string
    var pos: nat

    ghost predicate Valid()
      reads this
    {
      pos <= |text|
    }

    constructor (text: string)
      ensures Valid() && this.text == text && pos == 0
    {
      this.text := text;
      pos := 0;
    }
  }

  class OutputStream {
    var written: string

    constructor ()
      ensures written == ""
    {
      written := "";
    }
  }

  datatype Status = Returned(more: bool) | AssertionFailed

  /**
   * `parse_pip_output`: `false`, with nothing read or written, when no line
   * is left; otherwise one line is consumed and its output appended.
   */
  method ParsePipOutput(input: InputStream, output: OutputStream) returns (status: Status)
    requires input.Valid()
    modifies input, output
    ensures input.Valid()
    ensures old(input.pos) == |input.text| ==>
      status == Returned(false) && input.pos == old(input.pos) && output.written == old(output.written)
    ensures old(input.pos) < |input.text| ==>
      input.pos == NextLine(input.text, old(input.pos)) &&
      match LineOutput(LineAt(input.text, old(input.pos)))
      case None => status == AssertionFailed && output.written == old(output.written)
      case Some(out) => status == Returned(true) && output.written == old(output.written) + out
  {
    if input.pos == |input.text| {
      return Returned(false);
    }
    var line := LineAt(input.text, input.pos);
    input.pos := NextLine(input.text, input.pos);
    if IsSatisfiedLine(line) {
      var required := FindRequired(line);
      if required.None? {
        return AssertionFailed;
      }
      var installed := FindInstalled(line);
      if installed.None? {
        return AssertionFailed;
      }
      var requiredVersion := line[required.value.0 + 2..required.value.1];
      var installedVersion := line[installed.value.0..installed.value.1];
      if requiredVersion != installedVersion {
        var moduleName := FindModule(line).value;
        var message := line[moduleName.0..moduleName.1] + " required " + requiredVersion
          + " does not match installed " + installedVersion + "\n";
        assert LineOutput(line) == Some(message);
        output.written := output.written + message;
      } else {
        assert LineOutput(line) == Some("");
        assert output.written + "" == output.written;
      }
      return Returned(true);
    }
    if StartsWith(line, WouldInstallPrefix) {
      var package := FindPackage(line);
      if package.None? {
        return AssertionFailed;
      }
      var message := "would install: " + line[package.value.0..package.value.2] + "\n";
      assert LineOutput(line) == Some(message);
      output.written := output.written + message;
    } else {
      assert LineOutput(line) == Some("");
      assert output.written + "" == output.written;
    }
    return Returned(true);
  }

  /** The mismatch line of the repository's tests. */
  lemma MismatchExample(moduleName: string, required: string, installed: string)
    requires moduleName == "bleee" && required == "1.2.3" && installed == "4.5.6"
    ensures LineOutput(SatisfiedLine(moduleName, required, installed)) ==
      Some("bleee required 1.2.3 does not match installed 4.5.6\n")
  {
    SatisfiedLineOutput(moduleName, required, installed);
    MismatchText(moduleName, required, installed);
  }

  /** The text of that mismatch message. */
  lemma MismatchText(moduleName: string, required: string, installed: string)
    requires moduleName == "bleee" && required == "1.2.3" && installed == "4.5.6"
    ensures required != installed
    ensures moduleName + " required " + required + " does not match installed " + installed + "\n" ==
      "bleee required 1.2.3 does not match installed 4.5.6\n"
  {
    assert required[0] != installed[0];
    assert moduleName + " required " == "bleee required ";
    assert moduleName + " required " + required == "bleee required 1.2.3";
    assert moduleName + " required " + required + " does not match installed " ==
      "bleee required 1.2.3 does not match installed ";
  }

  /** The planned-install line of the repository's tests. */
  lemma WouldInstallExample(name: string, version: string)
    requires name == "glake8-someplugin" && version == "1.23.0"
    ensures LineOutput(WouldInstallLine(name, version)) ==
      Some("would install: glake8-someplugin-1.23.0\n")
  {
    WouldInstallLineOutput(name, version);
    WouldInstallText(name, version);
  }

  /** The text of that planned-install message. */
  lemma WouldInstallText(name: string, version: string)
    requires name == "glake8-someplugin" && version == "1.23.0"
    ensures "would install: " + name + "-" + version + "\n" == "would install: glake8-someplugin-1.23.0\n"
  {
  }
}

=== FILE: shmem.dfy ===
/**
 * The shared-memory single-slot transport (gfx/shmem/writer.cpp,
 * gfx/shmem/reader.cpp).
 *
 * The OS objects that the writer creates under one name are a `Channel`:
 * the mapped region (a byte array of the agreed size) and the three named
 * semaphores `mutex`, `empty` and `full` as natural-number counters. A
 * `Writer` and a `Reader` built on the same name hold the same `Channel`,
 * as two processes that open the same names share the same OS objects.
 * Operations are sequential: the interleaving of two processes is any
 * sequence of `Write` and `Read` calls.
 *
 * `Slot` is the abstract value of a channel; `WriteSlot` and `ReadSlot`
 * specify the two operations and the lemmas state the handshake: no message
 * before the first write, single delivery, latest value wins, and
 * `empty + full == 1` over every sequence of calls.
 */
module Shmem {
  import opened Wrappers
  import opened CheckForError

  type Byte = b: int | 0 <= b < 256

  // ---------------------------------------------------------------------
  // Names and initial values
  // ---------------------------------------------------------------------

  /** The four OS names: the region, then the three semaphores. */
  function ObjectNames(name: string): (names: seq<string>)
    ensures |names| == 4 && names[0] == name
  {
    [name, name + "_mutex", name + "_empty", name + "_full"]
  }

  const InitialMutex: nat := 1
  const InitialEmpty: nat := 1
  const InitialFull: nat := 0

  /** `SEM_FAILED` is the null pointer. */
  const SemFailed: Address := 0

  // ---------------------------------------------------------------------
  // Construction: every OS call is checked, the first failure aborts
  // ---------------------------------------------------------------------

  /** What the OS calls of `Writer::Writer` return. */
  datatype WriterCalls = WriterCalls(
    shmOpen: int, ftruncate: int, mmap: Address,
    semMutex: Address, semEmpty: Address, semFull: Address)

  /** What the OS calls of `Reader::Reader` return. */
  datatype ReaderCalls = ReaderCalls(
    shmOpen: int, mmap: Address,
    semMutex: Address, semEmpty: Address, semFull: Address)

  /** The checks of `Writer::Writer`, in order. */
  function WriterStartup(c: WriterCalls): Outcome {
    AndThen(CheckInt(c.shmOpen, "Writer::shm_open"),
    AndThen(CheckInt(c.ftruncate, "Writer::ftruncate"),
    AndThen(CheckPointer(c.mmap, "Writer::mmap"),
    AndThen(CheckPointer(c.semMutex, "Writer::sem_open", SemFailed),
    AndThen(CheckPointer(c.semEmpty, "Writer::sem_open", SemFailed),
            CheckPointer(c.semFull, "Writer::sem_open", SemFailed))))))
  }

  /**
   * The checks of `Reader::Reader`, in order. The source labels the three
   * semaphore checks "Writer::sem_open" here too.
   */
  function ReaderStartup(c: ReaderCalls): Outcome {
    AndThen(CheckInt(c.shmOpen, "Reader::shm_open"),
    AndThen(CheckPointer(c.mmap, "Reader::mmap"),
    AndThen(CheckPointer(c.semMutex, "Writer::sem_open", SemFailed),
    AndThen(CheckPointer(c.semEmpty, "Writer::sem_open", SemFailed),
            CheckPointer(c.semFull, "Writer::sem_open", SemFailed)))))
  }

  /** The writer comes up exactly when no call returned its failure value. */
  lemma WriterStartupSucceeds(c: WriterCalls)
    ensures WriterStartup(c) == Continue <==>
      c.shmOpen != -1 && c.ftruncate != -1 && c.mmap != DefaultPointerCode &&
      c.semMutex != SemFailed && c.semEmpty != SemFailed && c.semFull != SemFailed
  {
  }

  /** A failing `shm_open` aborts before the region is even sized or mapped. */
  lemma WriterStartupFirstFailureWins(c: WriterCalls)
    requires c.shmOpen == -1
    ensures WriterStartup(c) == Abort("Writer::shm_open")
  {
  }

  /**
   * How many of the four names of `ObjectNames` the constructor has
   * created when it stops: `shm_open` creates the region's name, each
   * `sem_open` one semaphore's name, and a failed call creates nothing.
   * An abort does not remove what was created before it.
   */
  function CreatedCount(c: WriterCalls): (k: nat)
    ensures k <= 4
    ensures k == 0 <==> c.shmOpen == -1
    ensures k == 4 <==> WriterStartup(c) == Continue
    ensures k >= 2 ==> c.semMutex != SemFailed
    ensures k >= 3 ==> c.semEmpty != SemFailed
  {
    WriterStartupSucceeds(c);
    if c.shmOpen == -1 then 0
    else if c.ftruncate == -1 || c.mmap == DefaultPointerCode || c.semMutex == SemFailed then 1
    else if c.semEmpty == SemFailed then 2
    else if c.semFull == SemFailed then 3
    else 4
  }

  /** The reader comes up exactly when no call returned its failure value. */
  lemma ReaderStartupSucceeds(c: ReaderCalls)
    ensures ReaderStartup(c) == Continue <==>
      c.shmOpen != -1 && c.mmap != DefaultPointerCode &&
      c.semMutex != SemFailed && c.semEmpty != SemFailed && c.semFull != SemFailed
  {
  }

  // ---------------------------------------------------------------------
  // The abstract channel and its two operations
  // ---------------------------------------------------------------------

  /** The value of the OS objects of one name. */
  datatype Slot = Slot(region: seq<Byte>, mutex: nat, empty: nat, full: nat)

  /** A freshly created channel: a zero-filled region (`ftruncate`) and counters 1, 1, 0. */
  function FreshSlot(size: nat): (s: Slot)
    ensures |s.region| == size && s.mutex == 1 && s.empty == 1 && s.full == 0
  {
    Slot(seq(size, _ => 0), InitialMutex, InitialEmpty, InitialFull)
  }

  /** The handshake invariant: the mutex is free between calls and one token circulates. */
  predicate Handshake(s: Slot) {
    s.mutex == 1 && s.empty + s.full == 1
  }

  /**
   * `Writer::write`: the region is always overwritten with the caller's
   * first `size` bytes; a token moves from `empty` to `full` only if
   * `empty` had one (`sem_trywait` succeeded).
   */
  function WriteSlot(s: Slot, data: seq<Byte>): (t: Slot)
    requires |data| >= |s.region|
    ensures t.region == data[..|s.region|]
    ensures t.mutex == s.mutex
    ensures s.empty > 0 ==> t.empty == s.empty - 1 && t.full == s.full + 1
    ensures s.empty == 0 ==> t.empty == s.empty && t.full == s.full
  {
    var copied := s.(region := data[..|s.region|]);
    if copied.empty > 0 then copied.(empty := copied.empty - 1, full := copied.full + 1)
    else copied
  }

  /** What a read hands back: the bytes delivered (if any) and the new channel. */
  datatype ReadResult = ReadResult(delivered: Option<seq<Byte>>, after: Slot)

  /**
   * `Reader::read`: with a token in `full` the region is delivered and the
   * token goes back to `empty`; otherwise nothing happens.
   */
  function ReadSlot(s: Slot): (r: ReadResult)
    ensures r.delivered.Some? <==> s.full > 0
    ensures r.delivered.Some? ==> r.delivered.value == s.region
    ensures r.after.region == s.region && r.after.mutex == s.mutex
    ensures s.full > 0 ==> r.after.full == s.full - 1 && r.after.empty == s.empty + 1
    ensures s.full == 0 ==> r.after == s
  {
    if s.full > 0 then ReadResult(Some(s.region), s.(full := s.full - 1, empty := s.empty + 1))
    else ReadResult(None, s)
  }

  /** One call of either side. */
  datatype Op = WriteOp(data: seq<Byte>) | ReadOp

  /** Every write in `ops` carries at least `size` bytes. */
  predicate WellSized(ops: seq<Op>, size: nat) {
    forall i :: 0 <= i < |ops| && ops[i].WriteOp? ==> |ops[i].data| >= size
  }

  /** The result of a sequence of calls: the final channel and what each read delivered. */
  datatype Trace = Trace(last: Slot, deliveries: seq<Option<seq<Byte>>>)

  function Run(s: Slot, ops: seq<Op>): (t: Trace)
    requires WellSized(ops, |s.region|)
    ensures |t.last.region| == |s.region|
    decreases |ops|
  {
    if ops == [] then Trace(s, [])
    else
      var next := if ops[0].WriteOp? then WriteSlot(s, ops[0].data) else ReadSlot(s).after;
      var delivered := if ops[0].ReadOp? then [ReadSlot(s).delivered] else [];
      var rest := Run(next, ops[1..]);
      Trace(rest.last, delivered + rest.deliveries)
  }

  /** Each call keeps the handshake. */
  lemma StepKeepsHandshake(s: Slot, op: Op)
    requires Handshake(s)
    requires op.WriteOp? ==> |op.data| >= |s.region|
    ensures op.WriteOp? ==> Handshake(WriteSlot(s, op.data))
    ensures op.ReadOp? ==> Handshake(ReadSlot(s).after)
  {
  }

  /**
   * Over any sequence of calls on a fresh channel, `empty + full == 1` and
   * the mutex is free afterwards; in particular `full` never exceeds one.
   */
  lemma {:induction false} RunKeepsHandshake(s: Slot, ops: seq<Op>)
    requires Handshake(s)
    requires WellSized(ops, |s.region|)
    ensures Handshake(Run(s, ops).last)
    ensures Run(s, ops).last.full <= 1
    decreases |ops|
  {
    if ops != [] {
      StepKeepsHandshake(s, ops[0]);
      var next := if ops[0].WriteOp? then WriteSlot(s, ops[0].data) else ReadSlot(s).after;
      assert WellSized(ops[1..], |next.region|) by {
        forall i | 0 <= i < |ops[1..]| && ops[1..][i].WriteOp?
          ensures |ops[1..][i].data| >= |next.region|
        {
          assert ops[1..][i] == ops[i + 1];
        }
      }
      RunKeepsHandshake(next, ops[1..]);
    }
  }

  /** The same for a fresh pair, from the initial counter values. */
  lemma FreshRunKeepsHandshake(size: nat, ops: seq<Op>)
    requires WellSized(ops, size)
    ensures Handshake(Run(FreshSlot(size), ops).last)
  {
    RunKeepsHandshake(FreshSlot(size), ops);
  }

  /** Before the first write a read delivers nothing. */
  lemma NoMessageBeforeWrite(size: nat)
    ensures ReadSlot(FreshSlot(size)).delivered == None
    ensures ReadSlot(FreshSlot(size)).after == FreshSlot(size)
  {
  }

  /** A successful read consumes the token: the next read delivers nothing. */
  lemma ReadConsumes(s: Slot)
    requires Handshake(s)
    requires ReadSlot(s).delivered.Some?
    ensures ReadSlot(ReadSlot(s).after).delivered == None
  {
  }

  /** Writes one after the other, with no read between them. */
  function WriteAll(s: Slot, writes: seq<seq<Byte>>): (t: Slot)
    requires forall i :: 0 <= i < |writes| ==> |writes[i]| >= |s.region|
    ensures |t.region| == |s.region| && t.mutex == s.mutex
    decreases |writes|
  {
    if writes == [] then s else WriteAll(WriteSlot(s, writes[0]), writes[1..])
  }

  /**
   * Latest value wins: after one or more writes with no read between them,
   * a read delivers the bytes of the last write only, and a second read
   * delivers nothing.
   */
  lemma {:induction false} LatestValueWins(s: Slot, writes: seq<seq<Byte>>)
    requires Handshake(s)
    requires |writes| > 0
    requires forall i :: 0 <= i < |writes| ==> |writes[i]| >= |s.region|
    ensures Handshake(WriteAll(s, writes))
    ensures WriteAll(s, writes).full == 1
    ensures ReadSlot(WriteAll(s, writes)).delivered == Some(writes[|writes| - 1][..|s.region|])
    ensures ReadSlot(ReadSlot(WriteAll(s, writes)).after).delivered == None
    decreases |writes|
  {
    var next := WriteSlot(s, writes[0]);
    if |writes| > 1 {
      LatestValueWins(next, writes[1..]);
      assert writes[1..][|writes[1..]| - 1] == writes[|writes| - 1];
    } else {
      assert WriteAll(next, writes[1..]) == next;
    }
  }

  /** Single delivery: write then read gives back the bytes, once. */
  lemma SingleDelivery(s: Slot, data: seq<Byte>)
    requires Handshake(s)
    requires |data| >= |s.region|
    ensures ReadSlot(WriteSlot(s, data)).delivered == Some(data[..|s.region|])
    ensures ReadSlot(ReadSlot(WriteSlot(s, data)).after).delivered == None
  {
    LatestValueWins(s, [data]);
    assert WriteAll(WriteSlot(s, data), []) == WriteSlot(s, data);
  }

  // ---------------------------------------------------------------------
  // The objects
  // ---------------------------------------------------------------------

  /** The names present in the OS namespace for shared memory and semaphores. */
  class Namespace {
    var names: set<string>

    constructor ()
      ensures names == {}
    {
      names := {};
    }
  }

  /** The OS objects created for one name: region and semaphore counters. */
  class Channel {
    const name: string
    const region: array<Byte>
    var mutex: nat
    var empty: nat
    var full: nat

    constructor (name: string, size: nat)
      ensures this.name == name && fresh(region)
      ensures State() == FreshSlot(size)
    {
      this.name := name;
      region := new Byte[size](_ => 0);
      mutex, empty, full := InitialMutex, InitialEmpty, InitialFull;
    }

    function State(): Slot
      reads this, region
    {
      Slot(region[..], mutex, empty, full)
    }
  }

  /** `memcpy(dst, src, n)`. */
  method CopyBytes(dst: array<Byte>, src: seq<Byte>, n: nat)
    requires n <= dst.Length && n <= |src|
    modifies dst
    ensures dst[..n] == src[..n]
    ensures dst[n..] == old(dst[n..])
  {
    var i := 0;
    while i < n
      invariant 0 <= i <= n
      invariant dst[..i] == src[..i]
      invariant dst[n..] == old(dst[n..])
    {
      dst[i] := src[i];
      i := i + 1;
    }
  }

  class Writer {
    const name: string
    const size: nat
    const channel: Channel

    ghost predicate Valid()
      reads this, channel
    {
      channel.name == name && channel.region.Length == size
    }

    /** The constructor once every OS call succeeded: fresh objects under the four names. */
    constructor (name: string, size: nat, ns: Namespace)
      modifies ns
      ensures Valid() && fresh(channel) && fresh(channel.region)
      ensures this.name == name && this.size == size
      ensures channel.State() == FreshSlot(size)
      ensures ns.names == old(ns.names) + set n | n in ObjectNames(name)
    {
      this.name, this.size := name, size;
      channel := new Channel(name, size);
      ns.names := ns.names + set n | n in ObjectNames(name);
    }

    /**
     * `Writer::Writer`: `None` when a check aborted the process; the
     * names created before the failing call stay in the namespace.
     */
    static method Open(name: string, size: nat, calls: WriterCalls, ns: Namespace) returns (w: Option<Writer>)
      modifies ns
      ensures w.None? <==> WriterStartup(calls).Abort?
      ensures w.None? ==> ns.names == old(ns.names) + set n | n in ObjectNames(name)[..CreatedCount(calls)]
      ensures w.Some? ==> w.value.Valid() && fresh(w.value.channel) && w.value.name == name
      ensures w.Some? ==> w.value.size == size && w.value.channel.State() == FreshSlot(size)
      ensures w.Some? ==> ns.names == old(ns.names) + set n | n in ObjectNames(name)
    {
      if WriterStartup(calls).Abort? {
        ns.names := ns.names + set n | n in ObjectNames(name)[..CreatedCount(calls)];
        return None;
      }
      var writer := new Writer(name, size, ns);
      return Some(writer);
    }

    /** `Writer::write`: copy under the mutex, then signal if `empty` had a token. */
    method Write(data: seq<Byte>)
      requires Valid() && Handshake(channel.State())
      requires |data| >= size
      modifies channel, channel.region
      ensures Valid() && Handshake(channel.State())
      ensures channel.State() == WriteSlot(old(channel.State()), data)
    {
      channel.mutex := channel.mutex - 1;          // sem_wait(mutex)
      CopyBytes(channel.region, data, size);
      channel.mutex := channel.mutex + 1;          // sem_post(mutex)
      if channel.empty > 0 {                       // sem_trywait(empty) == 0
        channel.empty := channel.empty - 1;
        channel.full := channel.full + 1;          // sem_post(full)
      }
      assert channel.region[..] == data[..size];
    }

    /** `Writer::~Writer`: unlink the region and the three semaphores. */
    method Destroy(ns: Namespace)
      modifies ns
      ensures ns.names == old(ns.names) - set n | n in ObjectNames(name)
    {
      ns.names := ns.names - set n | n in ObjectNames(name);
    }
  }

  class Reader {
    const name: string
    const size: nat
    const channel: Channel

    ghost predicate Valid()
      reads this, channel
    {
      channel.name == name && channel.region.Length == size
    }

    /**
     * The constructor once every OS call succeeded: the names resolve to the
     * objects the writer created (whose counters the reader's own initial
     * values do not override).
     */
    constructor (name: string, size: nat, channel: Channel)
      requires channel.name == name && channel.region.Length == size
      ensures Valid() && this.channel == channel && this.name == name && this.size == size
    {
      this.name, this.size, this.channel := name, size, channel;
    }

    /** `Reader::Reader`: `None` when a check aborted the process. */
    static method Open(name: string, size: nat, channel: Channel, calls: ReaderCalls) returns (r: Option<Reader>)
      requires channel.name == name && channel.region.Length == size
      ensures r.None? <==> ReaderStartup(calls).Abort?
      ensures r.Some? ==> r.value.Valid() && r.value.channel == channel
    {
      if ReaderStartup(calls).Abort? {
        return None;
      }
      var reader := new Reader(name, size, channel);
      return Some(reader);
    }

    /**
     * `Reader::read`: if `full` has a token, copy the region out under the
     * mutex and give the token back to `empty`. The region itself is never
     * written (it is mapped read-only).
     */
    method Read(buffer: array<Byte>) returns (ok: bool)
      requires Valid() && Handshake(channel.State())
      requires buffer.Length >= size && buffer != channel.region
      modifies channel, buffer
      ensures Valid() && Handshake(channel.State())
      ensures ok <==> old(channel.full) > 0
      ensures ReadSlot(old(channel.State())) ==
              ReadResult(if ok then Some(buffer[..size]) else None, channel.State())
      ensures ok ==> buffer[size..] == old(buffer[size..])
      ensures !ok ==> buffer[..] == old(buffer[..])
    {
      if channel.full > 0 {                        // sem_trywait(full) == 0
        channel.full := channel.full - 1;
        channel.mutex := channel.mutex - 1;        // sem_wait(mutex)
        var region := channel.region[..];
        CopyBytes(buffer, region, size);
        assert buffer[..size] == region[..size] == region;
        channel.mutex := channel.mutex + 1;        // sem_post(mutex)
        channel.empty := channel.empty + 1;        // sem_post(empty)
        assert channel.region[..] == region;
        return true;
      }
      return false;
    }
  }

  /** The message of the transport's own test: "0123" padded with zeros. */
  function TestMessage(): (m: seq<Byte>)
    ensures |m| == 256
  {
    [48, 49, 50, 51] + seq(252, _ => 0)
  }

  /** The set-up of the transport's own test: a writer and a reader on a fresh 256-byte channel. */
  method FreshPair() returns (writer: Writer, reader: Reader, readBuffer: array<Byte>)
    ensures writer.Valid() && reader.Valid() && reader.channel == writer.channel
    ensures fresh(writer.channel) && fresh(writer.channel.region) && fresh(readBuffer)
    ensures writer.size == 256 && reader.size == 256 && readBuffer.Length == 256
    ensures readBuffer != writer.channel.region
    ensures writer.channel.mutex == 1 && writer.channel.empty == 1 && writer.channel.full == 0
  {
    var ns := new Namespace();
    writer := new Writer("shmem_test", 256, ns);
    reader := new Reader("shmem_test", 256, writer.channel);
    readBuffer := new Byte[256](_ => 0);
  }

  /** The test's first section: nothing can be read before a write. */
  method NoMessageScenario() {
    var writer, reader, readBuffer := FreshPair();
    var ok := reader.Read(readBuffer);
    assert !ok;
  }

  /** The test's second section: a written message is read back. */
  method MessageScenario() {
    var writer, reader, readBuffer := FreshPair();
    var message := TestMessage();
    writer.Write(message);
    var ok := reader.Read(readBuffer);
    assert ok && readBuffer[..] == message;
  }

  /** The test's third section: after three writes the last message is read, once. */
  method SeveralMessagesScenario() {
    var writer, reader, readBuffer := FreshPair();
    var message := TestMessage();
    writer.Write(message);
    writer.Write(message);
    var changed := message[3 := 57];
    writer.Write(changed);
    var ok := reader.Read(readBuffer);
    assert ok && readBuffer[..] == changed;
    ok := reader.Read(readBuffer);
    assert !ok;
  }
}

=== FILE: size.dfy ===
/**
 * Image dimensions (gfx/vocabulary/size.hpp).
 *
 * A dimension stores a `size_t`; every integer it is built from is
 * converted with `static_cast<size_t>`, so a negative value wraps modulo
 * 2^64, and the products it takes part in wrap as well. The conversions
 * back to `int` and `unsigned` keep the low 32 bits.
 */
module Sizes {

  const SizeModulus: int := 0x1_0000_0000_0000_0000
  const Modulus32: int := 0x1_0000_0000

  type SizeT = n: int | 0 <= n < SizeModulus

  /** `static_cast<size_t>` of any integer: reduction modulo 2^64. */
  function ToSizeT(v: int): (n: SizeT)
    ensures 0 <= v < SizeModulus ==> n == v
    ensures -SizeModulus <= v < 0 ==> n == v + SizeModulus
  {
    v % SizeModulus
  }

  /** `static_cast<int>` of a `size_t`: the low 32 bits read as two's complement. */
  function ToInt32(n: SizeT): (v: int)
    ensures -0x8000_0000 <= v < 0x8000_0000
    ensures (v - n) % Modulus32 == 0
  {
    var low := n % Modulus32;
    if low < 0x8000_0000 then low else low - Modulus32
  }

  /** `detail::SizeElement`: one dimension. */
  datatype SizeElement = SizeElement(data: SizeT)

  /** The converting constructor. */
  function MakeElement(v: int): (e: SizeElement)
    ensures e.data == ToSizeT(v)
  {
    SizeElement(ToSizeT(v))
  }

  /** `operator==(const int&)`: compare after converting the int. */
  predicate EqualsInt(e: SizeElement, other: int) {
    e.data == ToSizeT(other)
  }

  /** `operator*` of two dimensions, and with a `size_t` on either side. */
  function Times(e: SizeElement, other: SizeT): (p: SizeT)
    ensures e.data * other < SizeModulus ==> p == e.data * other
    ensures (e.data * other - p) % SizeModulus == 0
  {
    (other * e.data) % SizeModulus
  }

  /** `operator/` with an integral divisor, converted to `size_t` first. */
  function Divide(e: SizeElement, other: int): (q: SizeT)
    requires ToSizeT(other) != 0
    ensures q * ToSizeT(other) <= e.data < (q + 1) * ToSizeT(other)
  {
    e.data / ToSizeT(other)
  }

  /** `operator<(size_t, SizeElement)`. */
  predicate LessThan(lhs: SizeT, rhs: SizeElement) {
    lhs < rhs.data
  }

  /** `operator int()`. */
  function AsInt(e: SizeElement): (v: int)
    ensures 0 <= e.data < 0x8000_0000 ==> v == e.data
  {
    ToInt32(e.data)
  }

  /** `operator unsigned()`. */
  function AsUnsigned(e: SizeElement): (v: int)
    ensures 0 <= v < Modulus32
    ensures e.data < Modulus32 ==> v == e.data
  {
    e.data % Modulus32
  }

  datatype Size = Size(width: SizeElement, height: SizeElement)

  /** `Size(T&&, T&&)`: both dimensions from integers. */
  function MakeSize(width: int, height: int): (s: Size)
    ensures s.width == MakeElement(width) && s.height == MakeElement(height)
  {
    Size(MakeElement(width), MakeElement(height))
  }

  /** `Size::size`: the number of pixels, modulo 2^64. */
  function Area(s: Size): (n: SizeT)
    ensures n == (s.width.data * s.height.data) % SizeModulus
  {
    Times(s.width, s.height.data)
  }

  /** Every `int` survives the trip through a dimension and back. */
  lemma IntRoundTrip(v: int)
    requires -0x8000_0000 <= v < 0x8000_0000
    ensures AsInt(MakeElement(v)) == v
    ensures EqualsInt(MakeElement(v), v)
  {
    if v < 0 {
      assert ToSizeT(v) == v + SizeModulus;
      assert (v + SizeModulus) % Modulus32 == v + Modulus32;
    }
  }

  /** Two ints denote the same dimension exactly when they are equal. */
  lemma EqualsIntExact(v: int, w: int)
    requires -0x8000_0000 <= v < 0x8000_0000 && -0x8000_0000 <= w < 0x8000_0000
    ensures EqualsInt(MakeElement(v), w) <==> v == w
  {
    IntRoundTrip(v);
    IntRoundTrip(w);
  }

  /** The pixel count does not depend on the order of the dimensions. */
  lemma AreaSymmetric(width: int, height: int)
    ensures Area(MakeSize(width, height)) == Area(MakeSize(height, width))
  {
    var a: int, b: int := ToSizeT(width), ToSizeT(height);
    assert a * b == b * a;
  }

  /** Dimensions within 32 bits give the exact pixel count. */
  lemma AreaExact(width: nat, height: nat)
    requires width < Modulus32 && height < Modulus32
    ensures Area(MakeSize(width, height)) == width * height
  {
    assert width * height < Modulus32 * Modulus32 by {
      MulStrict(width, height, Modulus32);
    }
  }

  lemma MulStrict(a: nat, b: nat, m: nat)
    requires a < m && b < m
    ensures a * b < m * m
  {
    assert a * b <= a * m;
  }

  /** A negative dimension wraps to a huge one. */
  lemma NegativeWraps()
    ensures MakeElement(-1).data == SizeModulus - 1
    ensures LessThan(0x7FFF_FFFF, MakeElement(-1))
  {
  }

  /** The example of the size's own test: 256 by 512 has 131072 pixels. */
  lemma SizeExample()
    ensures MakeSize(256, 512).width == MakeElement(256)
    ensures MakeSize(256, 512).height == MakeElement(512)
    ensures Area(MakeSize(256, 512)) == 131072
  {
    AreaExact(256, 512);
  }
}

=== FILE: uri.dfy ===
/**
 * Resource identifiers of the form `schema:path` (gfx/vocabulary/uri.cpp).
 *
 * The schema is read once, from the prefix, when the identifier is built;
 * an unknown schema ends the process through the fatal logger, modelled
 * here as the absence of a value.
 */
module Uri {
  import opened Wrappers
  import opened Strings

  datatype Schema = File | Unix | UDP

  /** A constructed identifier: the text and the schema found in it. */
  datatype URI = URI(text: string, schema: Schema)

  /** What `path()` throws instead of returning. */
  datatype PathError =
    | OutOfRange     // std::out_of_range from substr past the end
    | RuntimeError(message: string)

  /** The schema prefixes, tested in this order (plain prefixes, no colon). */
  function GetSchema(uri: string): (s: Option<Schema>)
    ensures s == Some(File) <==> StartsWith(uri, "file")
    ensures s == Some(Unix) <==> !StartsWith(uri, "file") && StartsWith(uri, "unix")
    ensures s == Some(UDP) <==>
      !StartsWith(uri, "file") && !StartsWith(uri, "unix") && StartsWith(uri, "udp")
  {
    if StartsWith(uri, "file") then Some(File)
    else if StartsWith(uri, "unix") then Some(Unix)
    else if StartsWith(uri, "udp") then Some(UDP)
    else None
  }

  /** `URI::URI`: `None` when the schema is unknown and the process aborts. */
  function Parse(uri: string): (u: Option<URI>)
    ensures u.None? <==> GetSchema(uri).None?
    ensures u.Some? ==> u.value.text == uri && Some(u.value.schema) == GetSchema(uri)
  {
    match GetSchema(uri)
    case None => None
    case Some(s) => Some(URI(uri, s))
  }

  /** The length of "file:" and of "unix:". */
  const SchemaPrefixLength: nat := 5

  /** `URI::path`: the text after the five-character prefix, for files and sockets only. */
  function Path(u: URI): (r: Result<string, PathError>)
    ensures u.schema == UDP ==> r == Failure(RuntimeError("gfx::support for path unexpected"))
    ensures u.schema != UDP && |u.text| < SchemaPrefixLength ==> r == Failure(OutOfRange)
    ensures u.schema != UDP && |u.text| >= SchemaPrefixLength ==> r.Success? && |r.value| == |u.text| - SchemaPrefixLength
    ensures r.Success? ==> u.text == u.text[..SchemaPrefixLength] + r.value
  {
    if u.schema == UDP then Failure(RuntimeError("gfx::support for path unexpected"))
    else if |u.text| < SchemaPrefixLength then Failure(OutOfRange)
    else Success(u.text[SchemaPrefixLength..])
  }

  /** `URI::c_str`: the text given to the constructor. */
  function CStr(u: URI): (s: string)
    ensures Parse(s) == Some(u) <== Parse(u.text) == Some(u)
  {
    u.text
  }

  /** A path is absolute when it begins at the root. */
  predicate IsAbsolute(p: string) {
    |p| > 0 && p[0] == '/'
  }

  /** Building "file:" + p or "unix:" + p and asking for the path gives back p. */
  lemma PathRoundTrip(p: string, unix: bool)
    ensures var text := (if unix then "unix:" else "file:") + p;
      Parse(text).Some? &&
      Parse(text).value.schema == (if unix then Unix else File) &&
      Path(Parse(text).value) == Success(p)
  {
    var text := (if unix then "unix:" else "file:") + p;
    assert text[..4] == (if unix then "unix" else "file");
    assert text[SchemaPrefixLength..] == p;
  }

  /** Only the first letters decide: "file" alone parses, and its path is out of range. */
  lemma ShortFileUri()
    ensures Parse("file").Some? && Path(Parse("file").value) == Failure(OutOfRange)
  {
  }

  /** A "udp" identifier has no path. */
  lemma UdpHasNoPath(rest: string)
    ensures Parse("udp" + rest).Some?
    ensures Path(Parse("udp" + rest).value).Failure?
  {
    assert ("udp" + rest)[..3] == "udp";
    var text := "udp" + rest;
    assert text[0] == 'u' && text[1] == 'd';
    assert !StartsWith(text, "file") && !StartsWith(text, "unix");
  }

  /** The first example of the identifier's own test: a relative file path. */
  lemma FileUriExample()
    ensures Parse("file:small_bunny_1080p_60fps.mp4").Some?
    ensures Parse("file:small_bunny_1080p_60fps.mp4").value.schema == File
    ensures !IsAbsolute(Path(Parse("file:small_bunny_1080p_60fps.mp4").value).value)
  {
    var text := "file:small_bunny_1080p_60fps.mp4";
    assert text[..4] == "file";
    assert text[5..][0] == text[5] == 's';
  }

  /** The second example of the identifier's own test: an absolute socket path. */
  lemma SocketUriExample()
    ensures Parse("unix:/tmp/filename").Some?
    ensures Parse("unix:/tmp/filename").value.schema == Unix
    ensures IsAbsolute(Path(Parse("unix:/tmp/filename").value).value)
  {
    var socket := "/tmp/filename";
    PathRoundTrip(socket, true);
    assert "unix:" + socket == "unix:/tmp/filename";
  }
}

=== FILE: vulkan_application.dfy ===
/**
 * Selection rules and frame bookkeeping of gfx/vulkan/application.cpp.
 *
 * The swap-chain choices (surface format, present mode, extent, image
 * count), the searches for a supported format and a memory type, the
 * barrier table of `_transitionImageLayout` and the `_currentFrame`
 * update of `_drawFrame`. What the driver answers (format properties,
 * memory types, the results of acquire, submit and present) is given as
 * inputs; the Vulkan objects themselves are not modelled.
 */
module VulkanApplication {

  import opened Wrappers
  import VulkanContext

  type Uint32 = VulkanContext.Uint32
  type SurfaceFormat = VulkanContext.SurfaceFormat
  type Extent2D = VulkanContext.Extent2D
  type SurfaceCapabilities = VulkanContext.SurfaceCapabilities

  const Uint32Max: Uint32 := 0xFFFF_FFFF

  /** The two exception types the application throws, with their messages. */
  datatype Exception = RuntimeError(what: string) | InvalidArgument(what: string)

  const FormatNotFoundMessage: string := "gfx::failed to find supported format!"
  const MemoryTypeNotFoundMessage: string := "gfx::failed to find suitable memory type!"
  const UnsupportedTransitionMessage: string := "gfx::unsupported layout transition!"
  const AcquireFailedMessage: string := "gfx::failed to acquire swap chain image!"
  const SubmitFailedMessage: string := "gfx::failed to submit draw command buffer!"
  const PresentFailedMessage: string := "gfx::failed to present swap chain image!"

  // `VkFormat` values.
  const FormatR8G8B8A8Srgb: nat := 43
  const FormatB8G8R8A8Srgb: nat := 50
  const FormatD32Sfloat: nat := 126
  const FormatD24UnormS8Uint: nat := 129
  const FormatD32SfloatS8Uint: nat := 130

  /** `VK_COLOR_SPACE_SRGB_NONLINEAR_KHR`. */
  const ColorSpaceSrgbNonlinear: nat := 0

  // `VkPresentModeKHR` values.
  const PresentModeMailbox: nat := 1
  const PresentModeFifo: nat := 2

  // `VkImageTiling` values.
  const TilingOptimal: nat := 0
  const TilingLinear: nat := 1

  /** `VK_FORMAT_FEATURE_DEPTH_STENCIL_ATTACHMENT_BIT`. */
  const FeatureDepthStencilAttachment: bv32 := 0x200

  // ---------------------------------------------------------------------
  // chooseSwapSurfaceFormat, chooseSwapPresentMode
  // ---------------------------------------------------------------------

  /** 8-bit BGRA in sRGB with the non-linear sRGB colour space. */
  predicate Preferred(format: SurfaceFormat) {
    format.format == FormatB8G8R8A8Srgb && format.colorSpace == ColorSpaceSrgbNonlinear
  }

  /**
   * `chooseSwapSurfaceFormat`: the first preferred entry, or entry 0 when
   * there is none; the list must not be empty.
   */
  method ChooseSwapSurfaceFormat(availableFormats: seq<SurfaceFormat>) returns (chosen: SurfaceFormat)
    requires |availableFormats| > 0
    ensures chosen in availableFormats
    ensures Preferred(chosen) <==> exists i :: 0 <= i < |availableFormats| && Preferred(availableFormats[i])
    ensures Preferred(chosen) ==>
      exists i :: 0 <= i < |availableFormats| && availableFormats[i] == chosen &&
        forall k :: 0 <= k < i ==> !Preferred(availableFormats[k])
    ensures !Preferred(chosen) ==> chosen == availableFormats[0]
  {
    for i := 0 to |availableFormats|
      invariant forall k :: 0 <= k < i ==> !Preferred(availableFormats[k])
    {
      if Preferred(availableFormats[i]) {
        return availableFormats[i];
      }
    }
    return availableFormats[0];
  }

  /** `chooseSwapPresentMode`: mailbox when it is offered, otherwise FIFO. */
  method ChooseSwapPresentMode(availablePresentModes: seq<nat>) returns (mode: nat)
    ensures mode == PresentModeMailbox <==> PresentModeMailbox in availablePresentModes
    ensures mode == PresentModeMailbox || mode == PresentModeFifo
  {
    for i := 0 to |availablePresentModes|
      invariant PresentModeMailbox !in availablePresentModes[..i]
    {
      if availablePresentModes[i] == PresentModeMailbox {
        return availablePresentModes[i];
      }
      assert availablePresentModes[..i + 1] == availablePresentModes[..i] + [availablePresentModes[i]];
    }
    assert availablePresentModes[..|availablePresentModes|] == availablePresentModes;
    return PresentModeFifo;
  }

  // ---------------------------------------------------------------------
  // chooseSwapExtent
  // ---------------------------------------------------------------------

  /** `std::clamp`, which needs `lo <= hi`. */
  function Clamp(v: Uint32, lo: Uint32, hi: Uint32): (r: Uint32)
    requires lo <= hi
    ensures lo <= r <= hi
    ensures lo <= v <= hi ==> r == v
    ensures v < lo ==> r == lo
    ensures hi < v ==> r == hi
  {
    if v < lo then lo else if hi < v then hi else v
  }

  /** `static_cast<uint32_t>` of an `int`: the value modulo 2^32. */
  function ToUint32(i: int): (r: Uint32)
    ensures 0 <= i < 0x1_0000_0000 ==> r == i
    ensures -0x1_0000_0000 <= i < 0 ==> r == i + 0x1_0000_0000
  {
    i % 0x1_0000_0000
  }

  /** The bounds `std::clamp` needs when the surface leaves the extent to the application. */
  predicate ExtentBoundsOrdered(capabilities: SurfaceCapabilities) {
    capabilities.minImageExtent.width <= capabilities.maxImageExtent.width &&
    capabilities.minImageExtent.height <= capabilities.maxImageExtent.height
  }

  /**
   * `chooseSwapExtent`: the surface's current extent, unless its width is
   * UINT32_MAX; then the framebuffer size in pixels, clamped per
   * dimension into the surface's bounds.
   */
  function ChooseSwapExtent(capabilities: SurfaceCapabilities, framebufferWidth: int, framebufferHeight: int): (extent: Extent2D)
    requires capabilities.currentExtent.width == Uint32Max ==> ExtentBoundsOrdered(capabilities)
    ensures capabilities.currentExtent.width != Uint32Max ==> extent == capabilities.currentExtent
    ensures capabilities.currentExtent.width == Uint32Max ==>
      capabilities.minImageExtent.width <= extent.width <= capabilities.maxImageExtent.width &&
      capabilities.minImageExtent.height <= extent.height <= capabilities.maxImageExtent.height
    ensures capabilities.currentExtent.width == Uint32Max ==>
      extent.width == Clamp(ToUint32(framebufferWidth), capabilities.minImageExtent.width, capabilities.maxImageExtent.width) &&
      extent.height == Clamp(ToUint32(framebufferHeight), capabilities.minImageExtent.height, capabilities.maxImageExtent.height)
  {
    if capabilities.currentExtent.width != Uint32Max then capabilities.currentExtent
    else
      VulkanContext.Extent2D(
        Clamp(ToUint32(framebufferWidth), capabilities.minImageExtent.width, capabilities.maxImageExtent.width),
        Clamp(ToUint32(framebufferHeight), capabilities.minImageExtent.height, capabilities.maxImageExtent.height))
  }

  /** A framebuffer that already fits the surface's bounds keeps its size. */
  lemma FittingFramebufferKept(capabilities: SurfaceCapabilities, width: int, height: int)
    requires capabilities.currentExtent.width == Uint32Max && ExtentBoundsOrdered(capabilities)
    requires capabilities.minImageExtent.width <= width <= capabilities.maxImageExtent.width
    requires capabilities.minImageExtent.height <= height <= capabilities.maxImageExtent.height
    ensures ChooseSwapExtent(capabilities, width, height) == VulkanContext.Extent2D(width, height)
  {
  }

  /**
   * A framebuffer dimension below the surface's minimum is raised to it,
   * one above the maximum is lowered to it, and a negative one, which the
   * cast turns into a large unsigned value, takes the maximum whenever the
   * maximum is below 2^31.
   */
  lemma OutOfBoundsFramebufferClamped(capabilities: SurfaceCapabilities, width: int, height: int)
    requires capabilities.currentExtent.width == Uint32Max && ExtentBoundsOrdered(capabilities)
    requires -0x8000_0000 <= width < 0x1_0000_0000 && -0x8000_0000 <= height < 0x1_0000_0000
    ensures var extent := ChooseSwapExtent(capabilities, width, height);
      (0 <= width < capabilities.minImageExtent.width ==> extent.width == capabilities.minImageExtent.width) &&
      (capabilities.maxImageExtent.width < width ==> extent.width == capabilities.maxImageExtent.width) &&
      (0 <= height < capabilities.minImageExtent.height ==> extent.height == capabilities.minImageExtent.height) &&
      (capabilities.maxImageExtent.height < height ==> extent.height == capabilities.maxImageExtent.height)
    ensures var extent := ChooseSwapExtent(capabilities, width, height);
      (width < 0 && capabilities.maxImageExtent.width < 0x8000_0000 ==> extent.width == capabilities.maxImageExtent.width) &&
      (height < 0 && capabilities.maxImageExtent.height < 0x8000_0000 ==> extent.height == capabilities.maxImageExtent.height)
  {
  }

  // ---------------------------------------------------------------------
  // The image count of _createSwapChain
  // ---------------------------------------------------------------------

  /**
   * One image more than the minimum, in 32-bit arithmetic, lowered to the
   * maximum when the surface has one (a maximum of 0 means none).
   */
  method SwapChainImageCount(capabilities: SurfaceCapabilities) returns (imageCount: Uint32)
    ensures capabilities.maxImageCount > 0 ==> imageCount <= capabilities.maxImageCount
    ensures (capabilities.minImageCount < Uint32Max &&
      (capabilities.maxImageCount == 0 || capabilities.minImageCount < capabilities.maxImageCount)) ==>
      imageCount == capabilities.minImageCount + 1
    ensures (capabilities.minImageCount < Uint32Max && capabilities.maxImageCount > 0 &&
      capabilities.minImageCount >= capabilities.maxImageCount) ==>
      imageCount == capabilities.maxImageCount
    ensures capabilities.minImageCount == Uint32Max ==> imageCount == 0
    ensures (capabilities.minImageCount < Uint32Max &&
      (capabilities.maxImageCount == 0 || capabilities.minImageCount <= capabilities.maxImageCount)) ==>
      capabilities.minImageCount <= imageCount
  {
    imageCount := ToUint32(capabilities.minImageCount + 1);
    if capabilities.maxImageCount > 0 && imageCount > capabilities.maxImageCount {
      imageCount := capabilities.maxImageCount;
    }
  }

  // ---------------------------------------------------------------------
  // _findSupportedFormat, _findDepthFormat
  // ---------------------------------------------------------------------

  /** The feature flags of a `VkFormatProperties` for the two tilings. */
  datatype FormatProperties = FormatProperties(linearTilingFeatures: bv32, optimalTilingFeatures: bv32)

  /** A format whose features for the tiling include all the requested ones. */
  predicate Supports(props: FormatProperties, tiling: nat, features: bv32) {
    (tiling == TilingLinear && props.linearTilingFeatures & features == features) ||
    (tiling == TilingOptimal && props.optimalTilingFeatures & features == features)
  }

  /**
   * `_findSupportedFormat`: the first candidate that supports the
   * features for the tiling; a `runtime_error` when none does. The
   * properties the driver reports for each format are the function
   * `properties`.
   */
  method FindSupportedFormat(candidates: seq<nat>, tiling: nat, features: bv32, properties: nat -> FormatProperties)
    returns (r: Result<nat, Exception>)
    ensures r.Success? ==>
      exists i :: 0 <= i < |candidates| && candidates[i] == r.value &&
        Supports(properties(r.value), tiling, features) &&
        forall k :: 0 <= k < i ==> !Supports(properties(candidates[k]), tiling, features)
    ensures r.Failure? <==> forall i :: 0 <= i < |candidates| ==> !Supports(properties(candidates[i]), tiling, features)
    ensures r.Failure? ==> r.error == RuntimeError(FormatNotFoundMessage)
  {
    for i := 0 to |candidates|
      invariant forall k :: 0 <= k < i ==> !Supports(properties(candidates[k]), tiling, features)
    {
      var props := properties(candidates[i]);
      if Supports(props, tiling, features) {
        return Success(candidates[i]);
      }
    }
    return Failure(RuntimeError(FormatNotFoundMessage));
  }

  /** The depth formats in order of preference. */
  const DepthCandidates: seq<nat> := [FormatD32Sfloat, FormatD32SfloatS8Uint, FormatD24UnormS8Uint]

  predicate DepthAttachable(props: FormatProperties) {
    Supports(props, TilingOptimal, FeatureDepthStencilAttachment)
  }

  /**
   * `_findDepthFormat`: D32 float, then D32 float with 8-bit stencil,
   * then D24 with 8-bit stencil, whichever is first usable as an
   * optimally tiled depth-stencil attachment.
   */
  method FindDepthFormat(properties: nat -> FormatProperties) returns (r: Result<nat, Exception>)
    ensures r.Success? ==> r.value in DepthCandidates && DepthAttachable(properties(r.value))
    ensures r.Success? && r.value != FormatD32Sfloat ==> !DepthAttachable(properties(FormatD32Sfloat))
    ensures r.Success? && r.value == FormatD24UnormS8Uint ==> !DepthAttachable(properties(FormatD32SfloatS8Uint))
    ensures r.Failure? <==>
      !DepthAttachable(properties(FormatD32Sfloat)) &&
      !DepthAttachable(properties(FormatD32SfloatS8Uint)) &&
      !DepthAttachable(properties(FormatD24UnormS8Uint))
  {
    r := FindSupportedFormat(DepthCandidates, TilingOptimal, FeatureDepthStencilAttachment, properties);
    if r.Success? {
      var i :| 0 <= i < |DepthCandidates| && DepthCandidates[i] == r.value &&
        forall k :: 0 <= k < i ==> !Supports(properties(DepthCandidates[k]), TilingOptimal, FeatureDepthStencilAttachment);
      assert i > 0 ==> !DepthAttachable(properties(DepthCandidates[0]));
      assert i > 1 ==> !DepthAttachable(properties(DepthCandidates[1]));
    } else {
      assert !DepthAttachable(properties(DepthCandidates[0]));
      assert !DepthAttachable(properties(DepthCandidates[1]));
      assert !DepthAttachable(properties(DepthCandidates[2]));
    }
  }

  // ---------------------------------------------------------------------
  // _findMemoryType
  // ---------------------------------------------------------------------

  /** `VK_MAX_MEMORY_TYPES`: the driver reports at most this many memory types. */
  const MaxMemoryTypes: nat := 32

  /** Memory type i is allowed by the filter and has all the requested property flags. */
  predicate MemoryTypeFits(typeFilter: bv32, properties: bv32, propertyFlags: seq<bv32>, i: nat)
    requires i < |propertyFlags| <= MaxMemoryTypes
  {
    typeFilter & (1 << i) != 0 && propertyFlags[i] & properties == properties
  }

  /**
   * `_findMemoryType`: the smallest index of a memory type that fits; a
   * `runtime_error` when none does. `propertyFlags` holds the
   * `propertyFlags` of the device's memory types in order.
   */
  method FindMemoryType(typeFilter: bv32, properties: bv32, propertyFlags: seq<bv32>) returns (r: Result<Uint32, Exception>)
    requires |propertyFlags| <= MaxMemoryTypes
    ensures r.Success? ==>
      r.value < |propertyFlags| && MemoryTypeFits(typeFilter, properties, propertyFlags, r.value) &&
      forall j :: 0 <= j < r.value ==> !MemoryTypeFits(typeFilter, properties, propertyFlags, j)
    ensures r.Failure? <==> forall j :: 0 <= j < |propertyFlags| ==> !MemoryTypeFits(typeFilter, properties, propertyFlags, j)
    ensures r.Failure? ==> r.error == RuntimeError(MemoryTypeNotFoundMessage)
  {
    for i := 0 to |propertyFlags|
      invariant forall j :: 0 <= j < i ==> !MemoryTypeFits(typeFilter, properties, propertyFlags, j)
    {
      var propertyBitField := propertyFlags[i] & properties;
      if typeFilter & (1 << i) != 0 && propertyBitField == properties {
        return Success(i);
      }
    }
    return Failure(RuntimeError(MemoryTypeNotFoundMessage));
  }

  // ---------------------------------------------------------------------
  // _transitionImageLayout
  // ---------------------------------------------------------------------

  // `VkImageLayout` values.
  const LayoutUndefined: nat := 0
  const LayoutDepthStencilAttachment: nat := 3
  const LayoutShaderReadOnly: nat := 5
  const LayoutTransferDst: nat := 7

  // `VkAccessFlagBits`.
  const AccessShaderRead: bv32 := 0x20
  const AccessDepthStencilAttachmentRead: bv32 := 0x200
  const AccessDepthStencilAttachmentWrite: bv32 := 0x400
  const AccessTransferWrite: bv32 := 0x1000

  // `VkPipelineStageFlagBits`.
  const StageTopOfPipe: bv32 := 0x1
  const StageFragmentShader: bv32 := 0x80
  const StageEarlyFragmentTests: bv32 := 0x100
  const StageTransfer: bv32 := 0x1000

  // `VkImageAspectFlagBits`.
  const AspectColor: bv32 := 0x1
  const AspectDepth: bv32 := 0x2
  const AspectStencil: bv32 := 0x4

  /** The barrier fields and stages `_transitionImageLayout` chooses. */
  datatype Barrier = Barrier(
    aspectMask: bv32,
    srcAccessMask: bv32,
    dstAccessMask: bv32,
    sourceStage: bv32,
    destinationStage: bv32)

  /** The three (old, new) layout pairs the application knows how to transition. */
  const SupportedTransitions: set<(nat, nat)> := {
    (LayoutUndefined, LayoutTransferDst),
    (LayoutTransferDst, LayoutShaderReadOnly),
    (LayoutUndefined, LayoutDepthStencilAttachment)
  }

  /** A depth format with a stencil component. */
  predicate HasStencilComponent(format: nat) {
    format == FormatD32SfloatS8Uint || format == FormatD24UnormS8Uint
  }

  /**
   * `_transitionImageLayout`: the aspect follows the new layout (depth,
   * plus stencil for the stencil formats, or colour); access masks and
   * stages come from a table of three transitions, and any other pair is
   * an `invalid_argument`.
   */
  function TransitionImageLayout(format: nat, oldLayout: nat, newLayout: nat): (r: Result<Barrier, Exception>)
    ensures r.Success? <==> (oldLayout, newLayout) in SupportedTransitions
    ensures r.Failure? ==> r.error == InvalidArgument(UnsupportedTransitionMessage)
    ensures r.Success? ==>
      (r.value.aspectMask & AspectDepth != 0 <==> newLayout == LayoutDepthStencilAttachment) &&
      (r.value.aspectMask & AspectStencil != 0 <==> newLayout == LayoutDepthStencilAttachment && HasStencilComponent(format)) &&
      (r.value.aspectMask & AspectColor != 0 <==> newLayout != LayoutDepthStencilAttachment)
    ensures r.Success? && r.value.srcAccessMask != 0 ==> oldLayout == LayoutTransferDst
  {
    var aspectMask :=
      if newLayout == LayoutDepthStencilAttachment then
        (if HasStencilComponent(format) then AspectDepth | AspectStencil else AspectDepth)
      else AspectColor;
    if oldLayout == LayoutUndefined && newLayout == LayoutTransferDst then
      Success(Barrier(aspectMask, 0, AccessTransferWrite, StageTopOfPipe, StageTransfer))
    else if oldLayout == LayoutTransferDst && newLayout == LayoutShaderReadOnly then
      Success(Barrier(aspectMask, AccessTransferWrite, AccessShaderRead, StageTransfer, StageFragmentShader))
    else if oldLayout == LayoutUndefined && newLayout == LayoutDepthStencilAttachment then
      Success(Barrier(aspectMask, 0, AccessDepthStencilAttachmentRead | AccessDepthStencilAttachmentWrite,
                      StageTopOfPipe, StageEarlyFragmentTests))
    else
      Failure(InvalidArgument(UnsupportedTransitionMessage))
  }

  /**
   * The transitions the application requests succeed: the texture image
   * goes to transfer-destination and then to shader-read with a colour
   * aspect, and a depth image from `_findDepthFormat` goes to
   * depth-attachment with a depth aspect, with stencil for the stencil
   * formats.
   */
  lemma RequestedTransitionsSupported(depthFormat: nat)
    requires depthFormat in DepthCandidates
    ensures var toTransfer := TransitionImageLayout(FormatR8G8B8A8Srgb, LayoutUndefined, LayoutTransferDst);
      toTransfer.Success? && toTransfer.value.aspectMask == AspectColor &&
      toTransfer.value.dstAccessMask == AccessTransferWrite
    ensures var toShader := TransitionImageLayout(FormatR8G8B8A8Srgb, LayoutTransferDst, LayoutShaderReadOnly);
      toShader.Success? && toShader.value.aspectMask == AspectColor &&
      toShader.value.srcAccessMask == AccessTransferWrite && toShader.value.dstAccessMask == AccessShaderRead
    ensures var toDepth := TransitionImageLayout(depthFormat, LayoutUndefined, LayoutDepthStencilAttachment);
      toDepth.Success? &&
      toDepth.value.aspectMask == (if depthFormat == FormatD32Sfloat then AspectDepth else AspectDepth | AspectStencil)
  {
  }

  // ---------------------------------------------------------------------
  // _drawFrame
  // ---------------------------------------------------------------------

  /** `MAX_FRAMES_IN_FLIGHT`. */
  const MaxFramesInFlight: nat := 2

  // `VkResult` values.
  const VkSuccess: int := 0
  const VkSuboptimal: int := 1000001003
  const VkErrorOutOfDate: int := -1000001004

  /** The frame slot after `frame`. */
  function NextFrame(frame: Uint32): (next: Uint32)
    requires frame < MaxFramesInFlight
    ensures next < MaxFramesInFlight && next != frame
  {
    (frame + 1) % MaxFramesInFlight
  }

  /** Two presented frames bring the slot back to where it was. */
  lemma FramesAlternate(frame: Uint32)
    requires frame < MaxFramesInFlight
    ensures NextFrame(NextFrame(frame)) == frame
  {
  }

  /** The slot after `presented` frames, starting at `frame`. */
  function FrameAfter(frame: Uint32, presented: nat): (slot: Uint32)
    requires frame < MaxFramesInFlight
    ensures slot < MaxFramesInFlight
  {
    if presented == 0 then frame else NextFrame(FrameAfter(frame, presented - 1))
  }

  /** From slot 0, the slot after n presented frames is n modulo 2. */
  lemma {:induction false} FrameAfterIsParity(presented: nat)
    ensures FrameAfter(0, presented) == presented % MaxFramesInFlight
  {
    if presented > 0 {
      FrameAfterIsParity(presented - 1);
    }
  }

  /** How a call of `_drawFrame` ends when it does not throw. */
  datatype DrawOutcome =
    | AcquireOutOfDate                 // swap chain recreated, frame not presented
    | Presented(swapChainRecreated: bool)

  /** The acquire results `_drawFrame` goes on with. */
  predicate Acquired(acquireResult: int) {
    acquireResult == VkSuccess || acquireResult == VkSuboptimal
  }

  /** The state of `Application` that the frame loop updates. */
  class Application {
    var currentFrame: Uint32
    const context: VulkanContext.Context

    predicate Valid()
      reads this
    {
      currentFrame < MaxFramesInFlight
    }

    constructor (context: VulkanContext.Context)
      ensures Valid() && currentFrame == 0 && this.context == context
    {
      currentFrame := 0;
      this.context := context;
    }

    /**
     * The effect of `_recreateSwapChain` on the state modelled here: its
     * `waitWhileMinimized` always waits for window events at least once, and
     * a resize delivered then runs the resize callback, which sets the flag.
     * `resizedWhileRecreating` says whether that happened.
     */
    method RecreateSwapChain(resizedWhileRecreating: bool)
      modifies context
      ensures context.framebufferResized == (old(context.framebufferResized) || resizedWhileRecreating)
      ensures context.physicalDevice == old(context.physicalDevice)
    {
      if resizedWhileRecreating {
        context.FramebufferResizeCallback(0, 0);
      }
    }

    /**
     * `_drawFrame` with the results of acquire, submit and present as
     * inputs, and whether a resize event arrives while the swap chain is
     * recreated. An out-of-date acquire recreates the swap chain and
     * returns without advancing the frame; failures throw; a presented
     * frame advances the frame slot, recreating the swap chain (and then
     * clearing the resize flag) when the present was out of date or
     * suboptimal or the window was resized.
     */
    method DrawFrame(acquireResult: int, submitResult: int, presentResult: int, resizedWhileRecreating: bool)
      returns (r: Result<DrawOutcome, Exception>)
      requires Valid()
      modifies this, context
      ensures Valid()
      ensures context.physicalDevice == old(context.physicalDevice)
      ensures acquireResult == VkErrorOutOfDate ==>
        r == Success(AcquireOutOfDate) && currentFrame == old(currentFrame) &&
        context.framebufferResized == (old(context.framebufferResized) || resizedWhileRecreating)
      ensures acquireResult != VkErrorOutOfDate && !Acquired(acquireResult) ==>
        r == Failure(RuntimeError(AcquireFailedMessage)) && currentFrame == old(currentFrame) &&
        context.framebufferResized == old(context.framebufferResized)
      ensures Acquired(acquireResult) && submitResult != VkSuccess ==>
        r == Failure(RuntimeError(SubmitFailedMessage)) && currentFrame == old(currentFrame) &&
        context.framebufferResized == old(context.framebufferResized)
      ensures Acquired(acquireResult) && submitResult == VkSuccess ==>
        var recreate := presentResult == VkErrorOutOfDate || presentResult == VkSuboptimal || old(context.framebufferResized);
        (recreate ==>
          r == Success(Presented(true)) && currentFrame == NextFrame(old(currentFrame)) && !context.framebufferResized) &&
        (!recreate && presentResult != VkSuccess ==>
          r == Failure(RuntimeError(PresentFailedMessage)) && currentFrame == old(currentFrame) &&
          context.framebufferResized == old(context.framebufferResized)) &&
        (!recreate && presentResult == VkSuccess ==>
          r == Success(Presented(false)) && currentFrame == NextFrame(old(currentFrame)) &&
          context.framebufferResized == old(context.framebufferResized))
    {
      if acquireResult == VkErrorOutOfDate {
        RecreateSwapChain(resizedWhileRecreating);
        return Success(AcquireOutOfDate);
      }
      if acquireResult != VkSuccess && acquireResult != VkSuboptimal {
        return Failure(RuntimeError(AcquireFailedMessage));
      }
      if submitResult != VkSuccess {
        return Failure(RuntimeError(SubmitFailedMessage));
      }
      var resized := context.Resized();
      var recreated := false;
      if presentResult == VkErrorOutOfDate || presentResult == VkSuboptimal || resized {
        RecreateSwapChain(resizedWhileRecreating);
        context.SetResized(false);
        recreated := true;
      } else if presentResult != VkSuccess {
        return Failure(RuntimeError(PresentFailedMessage));
      }
      currentFrame := NextFrame(currentFrame);
      return Success(Presented(recreated));
    }
  }
}

=== FILE: vulkan_context.dfy ===
/**
 * Device selection of gfx/vulkan/context.cpp and context.hpp.
 *
 * What the Vulkan driver reports about a physical device for the window
 * surface of the context (its type, its queue families with their surface
 * support, its extensions and the surface's swap-chain support) is given
 * as a `PhysicalDevice` value; the enumeration calls that fill these in
 * are not modelled. The selection rules over those values are: the
 * extension check, the queue-family scan, the suitability test, the
 * choice of the first suitable device, the validation-layer check and
 * the list of instance extensions.
 */
module VulkanContext {

  import opened Wrappers

  type Uint32 = n: int | 0 <= n < 0x1_0000_0000

  /** A `VkPhysicalDevice`; `VK_NULL_HANDLE` is 0. */
  type Handle = nat
  const NullHandle: Handle := 0

  /** `VK_QUEUE_GRAPHICS_BIT`. */
  const GraphicsBit: bv32 := 0x1

  /** `VK_PHYSICAL_DEVICE_TYPE_DISCRETE_GPU`. */
  const DiscreteGpu: nat := 2

  /** `VK_KHR_SWAPCHAIN_EXTENSION_NAME`, the one entry of `deviceExtensions`. */
  const SwapchainExtension: string := "VK_KHR_swapchain"
  const DeviceExtensions: seq<string> := [SwapchainExtension]

  /** `VK_EXT_DEBUG_UTILS_EXTENSION_NAME`. */
  const DebugUtilsExtension: string := "VK_EXT_debug_utils"

  /** The one layer of `_validationLayers`. */
  const KhronosValidationLayer: string := "VK_LAYER_KHRONOS_validation"

  const NoGpuMessage: string := "gfx::failed to find GPUs with Vulkan support!"
  const NoSuitableGpuMessage: string := "gfx::failed to find a suitable GPU!"
  const LayersMissingMessage: string := "gfx::validation layers not available!"

  // ---------------------------------------------------------------------
  // What the driver reports
  // ---------------------------------------------------------------------

  /** A queue family: its `queueFlags`, and whether it can present to the surface. */
  datatype QueueFamily = QueueFamily(queueFlags: bv32, presentSupport: bool)

  datatype Extent2D = Extent2D(width: Uint32, height: Uint32)

  /** The fields of `VkSurfaceCapabilitiesKHR` that the swap chain uses. */
  datatype SurfaceCapabilities = SurfaceCapabilities(
    minImageCount: Uint32,
    maxImageCount: Uint32,
    currentExtent: Extent2D,
    minImageExtent: Extent2D,
    maxImageExtent: Extent2D)

  /** A `VkSurfaceFormatKHR`: a `VkFormat` and a `VkColorSpaceKHR`. */
  datatype SurfaceFormat = SurfaceFormat(format: nat, colorSpace: nat)

  /** `SwapChainSupportDetails`; present modes are `VkPresentModeKHR` values. */
  datatype SwapChainSupportDetails = SwapChainSupportDetails(
    capabilities: SurfaceCapabilities,
    formats: seq<SurfaceFormat>,
    presentModes: seq<nat>)

  /** A physical device as the driver describes it for the context's surface. */
  datatype PhysicalDevice = PhysicalDevice(
    handle: Handle,
    deviceType: nat,
    queueFamilies: seq<QueueFamily>,
    extensions: seq<string>,
    swapChainSupport: SwapChainSupportDetails)

  // ---------------------------------------------------------------------
  // QueueFamilyIndices and findQueueFamilies
  // ---------------------------------------------------------------------

  datatype QueueFamilyIndices = QueueFamilyIndices(graphicsFamily: Option<Uint32>, presentFamily: Option<Uint32>)
  {
    /** Both a graphics and a present family have been found. */
    predicate IsComplete() {
      graphicsFamily.Some? && presentFamily.Some?
    }
  }

  predicate HasGraphics(family: QueueFamily) {
    family.queueFlags & GraphicsBit != 0
  }

  /** The indices after the loop body has run for families 0 to n - 1. */
  function Scanned(families: seq<QueueFamily>, n: nat): QueueFamilyIndices
    requires n <= |families| < 0x1_0000_0000
  {
    if n == 0 then QueueFamilyIndices(None, None)
    else
      var before := Scanned(families, n - 1);
      var family := families[n - 1];
      QueueFamilyIndices(
        if HasGraphics(family) then Some(n - 1) else before.graphicsFamily,
        if family.presentSupport then Some(n - 1) else before.presentFamily)
  }

  /** How many families the loop visits when it has visited `from` without finishing. */
  function VisitedFrom(families: seq<QueueFamily>, from: nat): (visited: nat)
    requires from <= |families| < 0x1_0000_0000
    ensures from <= visited <= |families|
    decreases |families| - from
  {
    if from == |families| then from
    else if Scanned(families, from + 1).IsComplete() then from + 1
    else VisitedFrom(families, from + 1)
  }

  /** Each index found in the first n families has its capability; none is found only when none has it. */
  lemma {:induction false} ScannedIndices(families: seq<QueueFamily>, n: nat)
    requires n <= |families| < 0x1_0000_0000
    ensures var r := Scanned(families, n);
      (r.graphicsFamily.Some? ==> r.graphicsFamily.value < n && HasGraphics(families[r.graphicsFamily.value])) &&
      (r.presentFamily.Some? ==> r.presentFamily.value < n && families[r.presentFamily.value].presentSupport) &&
      (r.graphicsFamily.None? <==> forall i :: 0 <= i < n ==> !HasGraphics(families[i])) &&
      (r.presentFamily.None? <==> forall i :: 0 <= i < n ==> !families[i].presentSupport)
  {
    if n > 0 {
      ScannedIndices(families, n - 1);
    }
  }

  /** The scan stops after the first family at which both indices are set, or at the end. */
  lemma {:induction false} VisitedIsFirstComplete(families: seq<QueueFamily>, from: nat)
    requires from <= |families| < 0x1_0000_0000
    ensures Scanned(families, VisitedFrom(families, from)).IsComplete() || VisitedFrom(families, from) == |families|
    ensures forall n :: from < n < VisitedFrom(families, from) ==> !Scanned(families, n).IsComplete()
    decreases |families| - from
  {
    if from < |families| && !Scanned(families, from + 1).IsComplete() {
      VisitedIsFirstComplete(families, from + 1);
    }
  }

  /** Some family has the graphics bit and some family supports the surface. */
  predicate FamiliesAvailable(families: seq<QueueFamily>) {
    (exists i :: 0 <= i < |families| && HasGraphics(families[i])) &&
    (exists j :: 0 <= j < |families| && families[j].presentSupport)
  }

  /** The scan ends complete exactly when both kinds of family exist. */
  lemma FoundIffAvailable(families: seq<QueueFamily>)
    requires |families| < 0x1_0000_0000
    ensures Scanned(families, VisitedFrom(families, 0)).IsComplete() <==> FamiliesAvailable(families)
  {
    var visited := VisitedFrom(families, 0);
    VisitedIsFirstComplete(families, 0);
    ScannedIndices(families, visited);
  }

  /**
   * `findQueueFamilies`: visits the families in index order, records the
   * latest graphics-capable and the latest surface-capable index, and
   * stops after the first family at which both are recorded.
   */
  method FindQueueFamilies(families: seq<QueueFamily>) returns (indices: QueueFamilyIndices)
    requires |families| < 0x1_0000_0000
    ensures indices == Scanned(families, VisitedFrom(families, 0))
    ensures indices.graphicsFamily.Some? ==>
      indices.graphicsFamily.value < |families| && HasGraphics(families[indices.graphicsFamily.value])
    ensures indices.presentFamily.Some? ==>
      indices.presentFamily.value < |families| && families[indices.presentFamily.value].presentSupport
    ensures indices.IsComplete() <==> FamiliesAvailable(families)
  {
    indices := QueueFamilyIndices(None, None);
    var familyIndex := 0;
    while familyIndex < |families|
      invariant familyIndex <= |families|
      invariant indices == Scanned(families, familyIndex)
      invariant VisitedFrom(families, 0) == VisitedFrom(families, familyIndex)
    {
      if HasGraphics(families[familyIndex]) {
        indices := indices.(graphicsFamily := Some(familyIndex));
      }
      if families[familyIndex].presentSupport {
        indices := indices.(presentFamily := Some(familyIndex));
      }
      if indices.IsComplete() {
        familyIndex := familyIndex + 1;
        break;
      }
      familyIndex := familyIndex + 1;
    }
    VisitedIsFirstComplete(families, 0);
    ScannedIndices(families, VisitedFrom(families, 0));
    FoundIffAvailable(families);
  }

  // ---------------------------------------------------------------------
  // checkDeviceExtensionSupport
  // ---------------------------------------------------------------------

  /** Every required device extension is among the available ones. */
  predicate ExtensionsAvailable(available: seq<string>) {
    forall e :: e in DeviceExtensions ==> e in available
  }

  /**
   * `checkDeviceExtensionSupport`: starts from the set of required names,
   * erases every available name from it, and reports whether it is empty.
   */
  method CheckDeviceExtensionSupport(available: seq<string>) returns (supported: bool)
    ensures supported <==> ExtensionsAvailable(available)
  {
    var required: set<string> := set e | e in DeviceExtensions;
    for i := 0 to |available|
      invariant required == set e | e in DeviceExtensions && e !in available[..i]
    {
      required := required - {available[i]};
      assert available[..i + 1] == available[..i] + [available[i]];
    }
    assert available[..|available|] == available;
    supported := required == {};
    if !supported {
      var missing :| missing in required;
    }
  }

  // ---------------------------------------------------------------------
  // isDeviceSuitable
  // ---------------------------------------------------------------------

  /**
   * A device the context accepts: a discrete GPU with a graphics and a
   * surface-capable queue family, the required extensions, and at least
   * one surface format and one present mode.
   */
  predicate Suitable(device: PhysicalDevice) {
    device.deviceType == DiscreteGpu &&
    FamiliesAvailable(device.queueFamilies) &&
    ExtensionsAvailable(device.extensions) &&
    |device.swapChainSupport.formats| > 0 &&
    |device.swapChainSupport.presentModes| > 0
  }

  /** `querySwapChainSupport`: what the driver reports for the surface. */
  method QuerySwapChainSupport(device: PhysicalDevice) returns (details: SwapChainSupportDetails)
    ensures details == device.swapChainSupport
  {
    details := device.swapChainSupport;
  }

  /**
   * `isDeviceSuitable`: the queue-family scan, the extension check and,
   * only when the extensions are there, the swap-chain query.
   */
  method IsDeviceSuitable(device: PhysicalDevice) returns (suitable: bool)
    requires |device.queueFamilies| < 0x1_0000_0000
    ensures suitable <==> Suitable(device)
  {
    var indices := FindQueueFamilies(device.queueFamilies);
    var extensionsSupported := CheckDeviceExtensionSupport(device.extensions);
    var swapChainAdequate := false;
    if extensionsSupported {
      var support := QuerySwapChainSupport(device);
      swapChainAdequate := |support.formats| > 0 && |support.presentModes| > 0;
    }
    suitable := device.deviceType == DiscreteGpu && indices.IsComplete() && extensionsSupported && swapChainAdequate;
  }

  // ---------------------------------------------------------------------
  // _pickPhysicalDevice
  // ---------------------------------------------------------------------

  /** The devices the driver can enumerate: non-null handles, family counts of 32 bits. */
  predicate Enumerable(devices: seq<PhysicalDevice>) {
    forall d :: d in devices ==> d.handle != NullHandle && |d.queueFamilies| < 0x1_0000_0000
  }

  /** The position of the first suitable device from position `from` on. */
  function FirstSuitable(devices: seq<PhysicalDevice>, from: nat): (r: Option<nat>)
    requires from <= |devices|
    ensures r.Some? ==> from <= r.value < |devices| && Suitable(devices[r.value])
    ensures r.Some? ==> forall i :: from <= i < r.value ==> !Suitable(devices[i])
    ensures r.None? <==> forall i :: from <= i < |devices| ==> !Suitable(devices[i])
    decreases |devices| - from
  {
    if from == |devices| then None
    else if Suitable(devices[from]) then Some(from)
    else FirstSuitable(devices, from + 1)
  }

  // ---------------------------------------------------------------------
  // Context
  // ---------------------------------------------------------------------

  /** The state of `Context` that the selection rules read and write. */
  class Context {
    var physicalDevice: Handle
    var framebufferResized: bool
    const enableValidationLayers: bool
    const validationLayers: seq<string>

    /** The member initialisers of context.hpp. */
    constructor ()
      ensures physicalDevice == NullHandle && !framebufferResized
      ensures enableValidationLayers && validationLayers == [KhronosValidationLayer]
    {
      physicalDevice := NullHandle;
      framebufferResized := false;
      enableValidationLayers := true;
      validationLayers := [KhronosValidationLayer];
    }

    method Resized() returns (resized: bool)
      ensures resized == framebufferResized
    {
      resized := framebufferResized;
    }

    method SetResized(newState: bool)
      modifies this
      ensures framebufferResized == newState && physicalDevice == old(physicalDevice)
    {
      framebufferResized := newState;
    }

    /** `_framebufferResizeCallback`: a resize of the window marks the context resized. */
    method FramebufferResizeCallback(width: int, height: int)
      modifies this
      ensures framebufferResized && physicalDevice == old(physicalDevice)
    {
      framebufferResized := true;
    }

    /**
     * `_getRequiredExtensions`: the GLFW extensions in their order,
     * followed by the debug-utils extension when validation is enabled.
     */
    method GetRequiredExtensions(glfwExtensions: seq<string>) returns (extensions: seq<string>)
      ensures |extensions| == |glfwExtensions| + (if enableValidationLayers then 1 else 0)
      ensures extensions[..|glfwExtensions|] == glfwExtensions
      ensures enableValidationLayers ==> extensions[|glfwExtensions|] == DebugUtilsExtension
    {
      extensions := [];
      for i := 0 to |glfwExtensions|
        invariant extensions == glfwExtensions[..i]
      {
        extensions := extensions + [glfwExtensions[i]];
      }
      if enableValidationLayers {
        extensions := extensions + [DebugUtilsExtension];
      }
    }

    /**
     * `_checkValidationLayerSupport`: true as soon as one requested layer
     * is among the available ones, so one available layer is enough.
     */
    method CheckValidationLayerSupport(availableLayers: seq<string>) returns (supported: bool)
      ensures supported <==> exists i :: 0 <= i < |validationLayers| && validationLayers[i] in availableLayers
    {
      for i := 0 to |validationLayers|
        invariant forall k :: 0 <= k < i ==> validationLayers[k] !in availableLayers
      {
        for j := 0 to |availableLayers|
          invariant forall m :: 0 <= m < j ==> availableLayers[m] != validationLayers[i]
        {
          if validationLayers[i] == availableLayers[j] {
            return true;
          }
        }
      }
      return false;
    }

    /** The check at the start of `_createInstance`. */
    method RequireValidationLayers(availableLayers: seq<string>) returns (r: Result<(), string>)
      ensures r.Failure? <==>
        enableValidationLayers && forall i :: 0 <= i < |validationLayers| ==> validationLayers[i] !in availableLayers
      ensures r.Failure? ==> r.error == LayersMissingMessage
    {
      if enableValidationLayers {
        var supported := CheckValidationLayerSupport(availableLayers);
        if !supported {
          return Failure(LayersMissingMessage);
        }
      }
      return Success(());
    }

    /**
     * `_pickPhysicalDevice`: fails when there is no device; otherwise takes
     * the first suitable device, and fails when the handle is still null.
     */
    method PickPhysicalDevice(devices: seq<PhysicalDevice>) returns (r: Result<(), string>)
      requires Enumerable(devices)
      modifies this
      ensures framebufferResized == old(framebufferResized)
      ensures |devices| == 0 ==> r == Failure(NoGpuMessage) && physicalDevice == old(physicalDevice)
      ensures FirstSuitable(devices, 0).Some? ==> physicalDevice == devices[FirstSuitable(devices, 0).value].handle
      ensures FirstSuitable(devices, 0).None? ==> physicalDevice == old(physicalDevice)
      ensures |devices| > 0 ==>
        (r.Failure? <==> physicalDevice == NullHandle) && (r.Failure? ==> r.error == NoSuitableGpuMessage)
    {
      if |devices| == 0 {
        return Failure(NoGpuMessage);
      }
      var i := 0;
      while i < |devices|
        invariant i <= |devices|
        invariant forall k :: 0 <= k < i ==> !Suitable(devices[k])
        invariant physicalDevice == old(physicalDevice) && framebufferResized == old(framebufferResized)
      {
        var suitable := IsDeviceSuitable(devices[i]);
        if suitable {
          physicalDevice := devices[i].handle;
          break;
        }
        i := i + 1;
      }
      if physicalDevice == NullHandle {
        return Failure(NoSuitableGpuMessage);
      }
      return Success(());
    }
  }
}

=== FILE: wrappers.dfy ===
/** Failure-carrying result types shared by the modules of this project. */
module Wrappers {

  /** A value that may be absent (std::optional, a null pointer). */
  datatype Option<+T> = None | Some(value: T)

  /** A value or the error that the source throws or aborts with instead. */
  datatype Result<+R, +E> = Success(value: R) | Failure(error: E)
}

/** Small string predicates used by several parsers. */
module Strings {

  predicate StartsWith(s: string, prefix: string) {
    |prefix| <= |s| && s[..|prefix|] == prefix
  }

  /** `pat` occurs in `s` at position `i`. */
  predicate OccursAt(s: string, pat: string, i: int) {
    0 <= i && i + |pat| <= |s| && s[i..i + |pat|] == pat
  }

  /** A substring search, as `std::string::find` / `re.findall` of a literal. */
  predicate Contains(s: string, pat: string)
    decreases |s|
  {
    StartsWith(s, pat) || (|s| > 0 && Contains(s[1..], pat))
  }

  lemma {:induction false} ContainsIffOccurs(s: string, pat: string)
    ensures Contains(s, pat) <==> exists i :: OccursAt(s, pat, i)
    decreases |s|
  {
    if StartsWith(s, pat) {
      assert OccursAt(s, pat, 0);
    } else if |s| == 0 {
      assert forall i :: !OccursAt(s, pat, i);
    } else {
      ContainsIffOccurs(s[1..], pat);
      if Contains(s[1..], pat) {
        var i :| OccursAt(s[1..], pat, i);
        assert s[1..][i..i + |pat|] == s[i + 1..i + 1 + |pat|];
        assert OccursAt(s, pat, i + 1);
      } else {
        forall i ensures !OccursAt(s, pat, i) {
          if 0 < i && i + |pat| <= |s| {
            assert s[1..][i - 1..i - 1 + |pat|] == s[i..i + |pat|];
            assert !OccursAt(s[1..], pat, i - 1);
          }
        }
      }
    }
  }

  /** Appending after a string that contains `pat` keeps it there. */
  lemma ContainsExtend(s: string, pat: string, t: string)
    requires Contains(s, pat)
    ensures Contains(s + t, pat)
  {
    ContainsIffOccurs(s, pat);
    var i :| OccursAt(s, pat, i);
    assert (s + t)[i..i + |pat|] == s[i..i + |pat|];
    assert OccursAt(s + t, pat, i);
    ContainsIffOccurs(s + t, pat);
  }

  /** The character classes that the scanners of this project run over. */
  datatype CharClass = VersionChars | NameChars | NotNewline

  predicate InClass(c: char, cls: CharClass) {
    match cls
    case VersionChars => IsVersionChar(c)
    case NameChars => IsNameChar(c)
    case NotNewline => c != '\n'
  }

  /** Every character of `s[i..j]` is in `cls`. */
  predicate AllIn(s: string, i: int, j: int, cls: CharClass)
    requires 0 <= i <= j <= |s|
  {
    forall k :: i <= k < j ==> InClass(s[k], cls)
  }

  /** The length of the longest run of `cls` characters starting at `i`. */
  function RunFrom(s: string, i: nat, cls: CharClass): (n: nat)
    requires i <= |s|
    ensures i + n <= |s| && AllIn(s, i, i + n, cls)
    ensures i + n == |s| || !InClass(s[i + n], cls)
    decreases |s| - i
  {
    if i < |s| && InClass(s[i], cls) then 1 + RunFrom(s, i + 1, cls) else 0
  }

  /** The length of the longest run of `cls` characters ending just before `j`. */
  function RunBefore(s: string, j: nat, cls: CharClass): (n: nat)
    requires j <= |s|
    ensures n <= j && AllIn(s, j - n, j, cls)
    ensures n == j || !InClass(s[j - n - 1], cls)
  {
    if 0 < j && InClass(s[j - 1], cls) then 1 + RunBefore(s, j - 1, cls) else 0
  }

  predicate IsDigit(c: char) { '0' <= c <= '9' }

  /** The characters of the class `[0-9.]`. */
  predicate IsVersionChar(c: char) { IsDigit(c) || c == '.' }

  /** The characters of the class `[[:alnum:]-]` (ASCII). */
  predicate IsNameChar(c: char) {
    IsDigit(c) || ('a' <= c <= 'z') || ('A' <= c <= 'Z') || c == '-'
  }
}
